=== FILE: README.md ===
# Learning-factory cell controllers, modelled in Dafny

The system runs four kinds of cells of a model factory. Each cell is a Revolution Pi
controller program that calls a control function once per cycle of the process image.
The function reads inputs, updates a small set of variables, writes outputs, and
switches everything off in `programend`.

- **The 3-axis gripper.** It homes its three axes and takes the oldest task from a
  de-duplicated FIFO backlog. It drives the axes to the pick-up location one after
  another (bang-bang control within a tolerance of 10 pulses), grips, retracts, drives
  to the drop-off location, releases and retracts. In the Modbus variant it asks the
  high-bay storage or the multistation for approval before it enters them, and it seeds
  three new tasks whenever the backlog runs dry. The OPC UA variant defines the same
  `add_task_to_queue`, but nothing in the program calls it and its OPC UA server
  registers only variables. Its backlog therefore stays empty: after homing it goes
  IDLE and stays there (`OpcuaGripper.DefaultDispatch`, `OpcuaGripper.FinalStates`).
- **The multistation.** Three machines: an oven with a door, a slider and a light
  barrier; a suction gripper; and a turntable with a saw and a belt. They run as three
  threads woken by the same cycle and hand the workpiece on through the shared flags
  `OvenFinished`, `VacFinished` and `VacFinished2`. The Modbus variant tells the
  gripper the oven is ready on the output word bit `Output_1` and burns for 1 s. The OPC UA variant reports it
  through the mailbox key `multi_status` and burns for 10 s.
- **The high-bay warehouse.** A shuttle with an x and a y axis, an extendable arm and a
  conveyor belt. It is driven by the `RobotCommander` rules (home, go to a slot, extend,
  retract, lift, lower, reset counters). The Modbus variant runs the whole cycle:
  - fetch a pallet from the slot the master names on `Input_1`;
  - set it down on the belt and carry it out to the front;
  - bring it back;
  - pick it up and return it to its slot.

  The OPC UA variant homes, takes the slot from the mailbox and enters the pick-up
  leg. The body of that leg is elided in the source.
- **The sorting line.** A belt carries a workpiece past a colour sensor. Ten readings
  are taken and their median is classified into one of three bins, each with its own
  piston and eject delay. A workpiece outside every bin is rejected.

Every control function becomes a pure `Step(vars, inputs)` that returns the new
variables and the writes of the tick. A write is a map from output point to value in
which the last write of a tick wins. Every controller also becomes a class with the
source's variables as fields. Its `Tick` method works through the same branches in
place and is proved to equal `Step`. Each `Step` has an invariant that every tick
keeps, and lemmas state the behaviour of each state:
- which outputs are written, and to what;
- when the state is left, and for which state;
- the handshakes with the other cells;
- the length of the timed dwells: the gripper's 50-tick GRAP, GRAB and DROP waits,
  the multistation's door, burn, saw, pusher and belt run-on times, the sorting
  line's warm-up, eject delay and retraction.

Several behaviours of the source are modelled as written and stated as lemmas:
- The OPC UA gripper never clears `is_picking_up` and has no branch for UP_AND_IN or
  IDLE. It therefore never drops, and it stays for good in UP_AND_IN after its first
  grip (`OpcuaGripper.NeverDrops`, `OpcuaGripper.FinalStates`).
- The sorting line's reject branch leaves the belt running (`O_1 = 1`) while it goes
  idle (`SortingLine.ScanDecides`).
- The OPC UA gripper has no IDLE branch either. Once its backlog has run dry, tasks
  added later are queued but never dispatched (`OpcuaGripper.FinalStates`).
- The Modbus warehouse can leave BELT_FRONT before the 26-tick run-on ends, when the
  master reports the workpiece taken early. It then leaves the forward belt `O_1`
  unswitched and `delay` uncleared, so the next reset-then-wait starts from that count
  (`ModbusWarehouse.BeltFrontExit`).

## Model

| member | source | states |
|---|---|---|
| Axis.Drive | code/modbus/gripper.py:272-287 | in position exactly when the counter is within 10 pulses of the target; forward exactly when below the band; backward exactly when above it |
| Axis.InPositionAtTarget | code/modbus/gripper.py:275-280 | every reading inside the inclusive band, the exact target included, stops the axis |
| Axis.ProgramEnd | code/modbus/gripper.py:425-434 | `programend` of both gripper variants writes exactly the outputs O_7..O_14, all 0 |
| Axis.DriveTowardsTarget | code/modbus/gripper.py:281-287 | a forward command only ever comes while the counter is below the target, a backward one only while above |
| TaskQueue.EmptyConsistent | code/modbus/gripper.py:8-9 | the empty backlog and the empty membership set agree |
| TaskQueue.EnqueueSpec | code/modbus/gripper.py:13-22 | a task is appended exactly when it is not already queued; when appended it goes to the tail and into the set; otherwise nothing changes |
| TaskQueue.EnqueueKeepsConsistent | code/modbus/gripper.py:13-22 | after an insertion the set still holds exactly the queued tasks and no task is queued twice |
| TaskQueue.EnqueueAllKeepsConsistent | code/modbus/gripper.py:228-231 | a batch of insertions keeps the queue and its set consistent |
| TaskQueue.EnqueueAllAppends | code/modbus/gripper.py:228-231 | a batch of insertions only appends: the old queue is a prefix of the new one and only tasks of the batch are added |
| TaskQueue.EnqueueTwice | code/modbus/gripper.py:20-22 | inserting the same task twice in a row refuses the second insertion and changes nothing |
| TaskQueue.DequeueKeepsConsistent | code/modbus/gripper.py:110-114 | taking the head removes it from both queue and set; it is no longer queued; the queue shrinks by one and stays consistent |
| TaskQueue.EnqueueKeepsHead | code/modbus/gripper.py:110-111 | FIFO: a task appended behind a non-empty queue does not overtake its head |
| TaskQueue.DequeueThenEnqueueCommute | code/modbus/gripper.py:110-114 | FIFO: taking the head after an append equals appending after taking the head |
| ModbusGripper.InitialInv | code/modbus/gripper.py:36-59 | the start-up values satisfy the cell invariant |
| ModbusGripper.SeedsValid | code/modbus/gripper.py:233-262 | every task the IDLE state seeds names known locations |
| ModbusGripper.DefaultKeepsInv | code/modbus/gripper.py:74-142 | DEFAULT keeps the invariant |
| ModbusGripper.IdleKeepsInv | code/modbus/gripper.py:227-264 | IDLE keeps the invariant |
| ModbusGripper.MoveKeepsInv | code/modbus/gripper.py:267-326 | MOVE_TO_POS keeps the invariant |
| ModbusGripper.UpAndInKeepsInv | code/modbus/gripper.py:347-399 | UP_AND_IN keeps the invariant |
| ModbusGripper.StepKeepsInv | code/modbus/gripper.py:74-421 | every tick keeps the invariant: queue and set agree, a task is held outside DEFAULT and IDLE, the target is the current leg's location, GRAP only on the pick-up leg, DROP only on the drop-off leg, approval waits only for arbitrated endpoints |
| ModbusGripper.DefaultHoming | code/modbus/gripper.py:74-104 | axis 2 is homed only once axis 1 is home, axis 3 only once both are; Counter_5, Counter_7 and Counter_9 are each written, all 0, exactly on the tick the settle delay reaches 50; the state is left only at delay 100, with the delay cleared |
| ModbusGripper.DefaultDispatch | code/modbus/gripper.py:106-142 | dispatch takes the oldest task out of queue and set and starts its pick-up leg, through the approval wait exactly when the pick-up is the storage; an empty queue goes IDLE |
| ModbusGripper.AxisStep | code/modbus/gripper.py:267-326 | only the driven axis's two outputs are written: both 0 in the band, which hands over to the next axis; otherwise exactly one is 1, forward iff below the target |
| ModbusGripper.EnterGrapOrDrop | code/modbus/gripper.py:306-326 | GRAP and DROP are entered only from axis 3 inside the band after the 50-tick delay; GRAP exactly on the pick-up leg |
| ModbusGripper.PickupHandshake | code/modbus/gripper.py:145-185 | the storage request (slot, then 0 on the second word) is written only on the first tick; approval 0 keeps waiting and writes nothing; a nonzero approval starts axis 1 |
| ModbusGripper.DropOffHandshake | code/modbus/gripper.py:188-224 | the storage drop-off uses the same request/approval exchange; the multistation is approved by `Input_Word_1_i05 == 1` and is sent no request |
| ModbusGripper.UpAndInCompletion | code/modbus/gripper.py:370-399 | the storage pallet is released exactly when either endpoint is the storage; after a pick-up the drop-off leg starts (through the wait for storage and multistation); after a drop-off the task is finished |
| ModbusGripper.IdleSeeding | code/modbus/gripper.py:227-264 | IDLE enqueues this cycle's three tasks (each only if absent), advances `zyklus` through 0..5 cyclically, writes nothing and returns to DEFAULT |
| ModbusGripper.EnqueueThree | code/modbus/gripper.py:228-231 | a three-task batch is the three `add_task_to_queue` calls in order |
| ModbusGripper.Run | code/modbus/gripper.py:30-421 | every sequence of ticks from a valid state ends in a valid state |
| ModbusGripper.Polling | code/modbus/gripper.py:145-209 | in the pick-up wait and in a storage drop-off wait, while the storage answers 0, a request already sent is not repeated and the cell keeps waiting |
| ModbusGripper.RequestWrittenOnce | code/modbus/gripper.py:145-209 | in either storage wait the request is written exactly once per entry, on the first tick, with the task's slot |
| ModbusGripper.GrapDwell | code/modbus/gripper.py:329-340 | for GRAP's first 50 ticks the compressor O_13 is held on, the storage request cleared for a storage pick-up, the delay counted up and the magnet left off, whatever is read |
| ModbusGripper.DropDwell | code/modbus/gripper.py:402-418 | for DROP's first 50 ticks the magnet O_14 is held off, the storage request cleared for a storage drop-off and the delay counted up, whatever is read |
| ModbusGripper.GrapDropDone | code/modbus/gripper.py:329-421 | the tick after the 50-tick wait the magnet is switched on after GRAP (left off after DROP) and the cell goes UP_AND_IN with the delay reset |
| ModbusGripper.Cell.constructor | code/modbus/gripper.py:36-59 | the start-up branch leaves the start-up values, which satisfy the invariant |
| ModbusGripper.Cell.AddTask | code/modbus/gripper.py:13-22 | the backlog and set change as `Enqueue` says, nothing else changes, the invariant holds |
| ModbusGripper.Cell.MoveAxis | code/modbus/gripper.py:267-326 | the fields and writes are those of the MOVE_TO_POS rule |
| ModbusGripper.Cell.RequestStorage | code/modbus/gripper.py:155-173 | the fields and writes are those of the storage request/approval exchange |
| ModbusGripper.Cell.Home | code/modbus/gripper.py:74-142 | the fields and writes are those of the DEFAULT rule |
| ModbusGripper.Cell.Seed | code/modbus/gripper.py:227-264 | the fields are those of the IDLE rule |
| ModbusGripper.Cell.Retract | code/modbus/gripper.py:347-399 | the fields and writes are those of the UP_AND_IN rule |
| ModbusGripper.Cell.AwaitApproval | code/modbus/gripper.py:145-224 | the fields and writes are those of the two approval waits |
| ModbusGripper.Cell.Grip | code/modbus/gripper.py:329-344 | the fields and writes are those of GRAP: request cleared, compressor on, magnet on after 50 ticks |
| ModbusGripper.Cell.Release | code/modbus/gripper.py:402-421 | the fields and writes are those of DROP: request cleared, magnet off, retract after 50 ticks |
| ModbusGripper.Cell.Tick | code/modbus/gripper.py:30-421 | one call of the control function equals `Step` and keeps the invariant |
| OpcuaGripper.InitialInv | code/opcua/gripper.py:109-137 | the start-up values satisfy the cell invariant |
| OpcuaGripper.StepKeepsInv | code/opcua/gripper.py:145-284 | every tick keeps the invariant, in which `is_picking_up` stays set and DROP is never entered |
| OpcuaGripper.DefaultDispatch | code/opcua/gripper.py:177-195 | dispatch takes the oldest task out of queue and set and drives axis 1 to its pick-up location; an empty queue goes IDLE |
| OpcuaGripper.AxisStep | code/opcua/gripper.py:199-259 | inside the band both outputs of the axis are written 0; outside it exactly one output is written, 1, forward iff below the target |
| OpcuaGripper.EnterGrab | code/opcua/gripper.py:237-259 | GRAB is entered only from axis 3 inside the band after the 50-tick delay |
| OpcuaGripper.Run | code/opcua/gripper.py:106-284 | every sequence of ticks from a valid state ends in a valid state, and one that starts outside DROP never reaches it |
| OpcuaGripper.NeverDrops | code/opcua/gripper.py:177-259 | from start-up no sequence of ticks reaches DROP |
| OpcuaGripper.GrabDone | code/opcua/gripper.py:263-272 | once the delay has reached 50, the GRAB tick writes exactly O_13 := 1 and the magnet O_14 := 1, resets the delay and goes UP_AND_IN |
| OpcuaGripper.GrabDwell | code/opcua/gripper.py:263-272 | while the delay has not reached 50, every GRAB tick writes only the compressor O_13 := 1 and counts the delay up, whatever is read |
| OpcuaGripper.FinalStates | code/opcua/gripper.py:145-284 | UP_AND_IN and IDLE are final: the cell stays there with its variables, its task and its queue unchanged and writes nothing |
| OpcuaGripper.Cell.constructor | code/opcua/gripper.py:109-137 | the start-up branch leaves the start-up values, which satisfy the invariant |
| OpcuaGripper.Cell.AddTask | code/opcua/gripper.py:90-98 | `add_task_to_queue`, which nothing in the program calls: the backlog and set change as `Enqueue` says and nothing else changes |
| OpcuaGripper.Cell.Home | code/opcua/gripper.py:145-195 | the fields and writes are those of the DEFAULT rule |
| OpcuaGripper.Cell.MoveAxis | code/opcua/gripper.py:199-259 | the fields and writes are those of the MOVE_TO_POS rule |
| OpcuaGripper.Cell.Tick | code/opcua/gripper.py:106-284 | one call of the control function equals `Step` and keeps the invariant |
| Station.StartupOnlyWrites | code/modbus/multi.py:361-379 | the first cycle's branch only adds the start-up writes (all outputs 0, compressor O_10 1), overridden by the machines' own writes of that tick; the variables are those of any other tick |
| Station.Shutdown | code/modbus/multi.py:383-399 | `programend` writes 0 to O_1..O_14, the compressor O_10 included |
| Station.InitialInv | code/modbus/multi.py:13-35 | the module-level initial values satisfy the station invariant |
| Station.OpenKeepsInv | code/modbus/multi.py:49-74 | the opening sequence stays in its state and reports the oven open only with door and slider out and the timer stopped |
| Station.OvenOpening | code/modbus/multi.py:49-74 | the door opens only 1 s after the light came on and the slider moves out only through the open door; the ready signal is raised exactly when PREPARING_DROPOFF finds both out, `OvenFinished` exactly when PREPARE_PICKUP does, and only then is the state left; a ready signal of 1 always moves the oven on to WAITING_DROPOFF |
| Station.OvenDetection | code/modbus/multi.py:76-90 | the first tick the light barrier I_9 reads 0 starts the timer and withdraws the ready signal, nothing else is written; the oven goes on to closing exactly once that timer has run 5 s |
| Station.OvenClosing | code/modbus/multi.py:92-114 | the slider is pulled in first; the door is closed only once the slider is in, by O_13 := 0 on every tick of a 1 s wait, and counts as closed exactly when that wait is over; the burn starts with the light off once both are in; the OPC UA status is written 0 and the Modbus ready signal is left alone |
| Station.OvenBurning | code/opcua/multi.py:163-173 | the oven leaves BURNING only once the burn timer has run the variant's burn time (1 s Modbus, 10 s OPC UA); the OPC UA oven writes only `multi_status := 0`, the Modbus oven nothing |
| Station.OvenRelease | code/modbus/multi.py:154-156 | WAITING_PICKUP writes nothing and starts the next oven cycle exactly when `OvenFinished` has been cleared; otherwise nothing changes |
| Station.OvenPhaseKeepsInv | code/modbus/multi.py:49-156 | each oven step keeps the oven's invariant |
| Station.SuctionStart | code/modbus/multi.py:167-177 | the suction gripper drives O_8 to the turntable reference I_5 until homed, and leaves for the oven exactly when homed and `OvenFinished` is set; the shared flags are untouched |
| Station.SuctionPickup | code/modbus/multi.py:188-216 | lower, vacuum on and raise, each completing only once its 1 s timer has run, the vacuum only when down; the sequence ends raised with the vacuum on, in DRIVE_DROPOFF; the shared flags are untouched |
| Station.SuctionArrival | code/modbus/multi.py:218-230 | the state is left exactly once homed at the turntable reference; the gripper then clears `OvenFinished`, raises `VacFinished` and waits in WAITING_DROPOFF |
| Station.SuctionWaitsForTable | code/modbus/multi.py:232-236 | writes nothing; while `VacFinished` is set nothing changes, once it is clear the drop-off sequence starts |
| Station.SuctionDropoff | code/modbus/multi.py:238-266 | lower, vacuum off, raise, each after 1 s, the vacuum released only when down; the sequence ends raised with the vacuum off and `VacFinished` clear, back in WAITING_PICKUP |
| Station.SuctionPhaseKeepsInv | code/modbus/multi.py:167-266 | each suction step keeps the suction gripper's invariant |
| Station.TableLoad | code/modbus/multi.py:276-299 | once homed the turntable consumes `VacFinished` into the latch `VacFinished2`; it turns to the saw exactly when the latched part has rested 5 s, clearing the latch and the homed flag |
| Station.TableToSaw | code/modbus/multi.py:301-306 | the turntable turns (O_1 1) until the saw switch I_4 reads 1, then stops (O_1 0) and starts sawing; nothing else changes |
| Station.TableDelivery | code/modbus/multi.py:320-338 | the turntable turns until I_2 and stops; after a further 1 s the pusher O_14 is switched on and BELT begins; nothing else changes |
| Station.BeltRunOn | code/modbus/multi.py:340-357 | the belt O_3 runs until I_3 reads 0; then the pusher is withdrawn (O_14 0) and the belt runs on for 2 s before it stops and the turntable returns to POS_VAC |
| Station.SawDwell | code/modbus/multi.py:308-318 | the saw O_4 is switched on on the first tick and off on the tick the 30 s dwell ends, the tick the turntable leaves |
| Station.TablePhaseKeepsInv | code/modbus/multi.py:276-357 | each turntable step keeps the turntable's invariant |
| Station.StepKeepsInv | code/modbus/multi.py:361-379 | one cycle of the three machines keeps the station invariant and the hand-off between them |
| Station.OvenAdvances | code/modbus/multi.py:49-156 | the oven stays or moves to the next state of its cycle and never clears `OvenFinished` |
| Station.SuctionAdvances | code/modbus/multi.py:167-266 | the suction gripper stays or moves to the next state of its cycle and never raises `OvenFinished` |
| Station.TableAdvances | code/modbus/multi.py:276-357 | the turntable stays or moves to the next state of its cycle and never raises `VacFinished` |
| Station.Cycles | code/modbus/multi.py:361-379 | in one cycle every machine stays or advances one state along its own cycle |
| Station.OvenOutputs | code/modbus/multi.py:49-156 | the oven writes only O_5, O_6, O_9, O_13 and its ready signal |
| Station.SuctionOutputs | code/modbus/multi.py:167-266 | the suction gripper writes only O_7, O_8, O_11 and O_12 |
| Station.TableOutputs | code/modbus/multi.py:276-357 | the turntable writes only O_1..O_4 and O_14 |
| Station.OutputsOwned | code/modbus/multi.py:404-406 | the three threads drive disjoint outputs, and every output a machine writes in a cycle ends the cycle with that machine's value, whatever the order in which the three write maps are merged |
| Station.Run | code/modbus/multi.py:361-379 | every sequence of cycles from a valid state ends in a valid state |
| Station.GripperOnlyAtOpenOven | code/modbus/multi.py:167-236 | in every reachable state the suction gripper drives to or lowers into the oven only while the oven waits for pick-up with door and slider out, and `VacFinished` is set only while the gripper holds the part above the turntable |
| Station.PhaseKeepsInv | code/modbus/multi.py:39-357 | a step of any one of the three tasks keeps the station invariant on its own |
| Station.Phases | code/modbus/multi.py:39-357 | any sequence of task steps within a cycle, in any order, with tasks left out or repeated, ends in a valid state |
| Station.Schedule | code/modbus/multi.py:39-379 | any sequence of such scheduled cycles from a valid state ends in a valid state |
| Station.GripperOnlyAtOpenOvenAnyOrder | code/modbus/multi.py:39-357 | under any thread interleaving and missed wake-ups, the gripper reaches into the oven only while it is open and waiting for the pick-up, and `VacFinished` is set only while the gripper holds the part above the turntable |
| Station.StoppedIsFinal | code/modbus/multi.py:383-384 | once `programend` has set the stop event, further cycles leave every variable as it is |
| Station.Controller.constructor | code/modbus/multi.py:13-35 | the initial values of the station's variables, which satisfy the invariant |
| Station.Controller.OpenOven | code/modbus/multi.py:49-74 | the oven's fields and writes are those of the opening sequence |
| Station.Controller.OpenForTransfer | code/modbus/multi.py:49-74 | the oven's fields and writes are those of PREPARING_DROPOFF and PREPARE_PICKUP |
| Station.Controller.CloseOven | code/modbus/multi.py:92-114 | the oven's fields and writes are those of PREPARE_BURNING |
| Station.Controller.OvenTask | code/modbus/multi.py:39-156 | one oven step equals `OvenPhase`; the other machines' fields are unchanged |
| Station.Controller.HomeSuction | code/modbus/multi.py:167-177 | the suction fields and writes are those of homing to I_5 |
| Station.Controller.Dwell | code/modbus/multi.py:188-216 | the fields and writes are those of one timed step of a pick-up or drop-off sequence |
| Station.Controller.PickupSequence | code/modbus/multi.py:188-216 | the fields and writes are those of PICKUP |
| Station.Controller.DropoffSequence | code/modbus/multi.py:238-266 | the fields and writes are those of DROPOFF |
| Station.Controller.SuctionTask | code/modbus/multi.py:160-266 | one suction step equals `SuctionPhase`; the other machines' fields are unchanged |
| Station.Controller.LoadTable | code/modbus/multi.py:276-299 | the fields and writes are those of POS_VAC |
| Station.Controller.SawTable | code/modbus/multi.py:301-318 | the fields and writes are those of POS_SAW and SAW |
| Station.Controller.PushToBelt | code/modbus/multi.py:320-338 | the fields and writes are those of POS_BELT |
| Station.Controller.RunBelt | code/modbus/multi.py:340-357 | the fields and writes are those of BELT |
| Station.Controller.TableTask | code/modbus/multi.py:270-357 | one turntable step equals `TablePhase`; the other machines' fields are unchanged |
| Station.Controller.OvenThenSuction | code/modbus/multi.py:39-266 | the oven step followed by the suction step |
| Station.Controller.Cycle | code/modbus/multi.py:361-379 | the three steps of a cycle in the order oven, suction gripper, turntable equal `Step`, and keep the invariant |
| Station.Controller.Tick | code/modbus/multi.py:361-379 | one cycle equals `Step`, start-up writes included, and keeps the invariant |
| Station.Controller.Stop | code/modbus/multi.py:383-399 | sets the stop flag and returns the shutdown writes |
| Commander.Home | code/modbus/high_bay_warehouse.py:12-39 | with `up`, retract until I_10 first; then y on O_6 until I_4 and x on O_4 until I_1; done exactly when both references are reached and, with `up`, the arm is retracted |
| Commander.Lager | code/modbus/high_bay_warehouse.py:41-61 | each axis motor runs exactly while its counter is below the target; done exactly when both have reached it |
| Commander.Out | code/modbus/high_bay_warehouse.py:63-70 | O_7 extends until I_9; done exactly at I_9 |
| Commander.In | code/modbus/high_bay_warehouse.py:72-79 | O_8 retracts until I_10; done exactly at I_10 |
| Commander.Lift | code/modbus/high_bay_warehouse.py:81-90 | O_6 lifts while the counter is within `value` of the top or at most 50; done otherwise |
| Commander.Down | code/modbus/high_bay_warehouse.py:92-99 | O_5 lowers until the counter has reached `value`; done exactly then |
| Commander.ResetCounters | code/modbus/high_bay_warehouse.py:101-103 | exactly counters 5 and 7 are reset to 0 |
| Commander.Shutdown | code/modbus/high_bay_warehouse.py:385-395 | `programend` of both warehouse variants writes exactly the outputs O_1..O_8, all 0 |
| Commander.CountedDown | code/modbus/high_bay_warehouse.py:81-90 | a 32-bit counter counted down `k` pulses from 0 shows 2^32 − k, or 0 for no pulse |
| Commander.LiftStopsAfterMargin | code/modbus/high_bay_warehouse.py:81-90 | lifting from the reset point is done exactly once at least `value + 2` pulses are counted (more than `value + 1`), and before the counter could wrap under 50 |
| Commander.HomeDoneIffStopped | code/modbus/high_bay_warehouse.py:12-39 | homing reports done exactly when every motor it writes is off |
| Commander.LagerDoneIffStopped | code/modbus/high_bay_warehouse.py:41-61 | the storage drive reports done exactly when both motors are off |
| Commander.SingleDoneIffStopped | code/modbus/high_bay_warehouse.py:63-99 | out, in, lift and lower report done exactly when their motor is off |
| ModbusWarehouse.InitialInv | code/modbus/high_bay_warehouse.py:125-132 | the start-up values satisfy the shuttle invariant |
| ModbusWarehouse.StorageKeepsInv | code/modbus/high_bay_warehouse.py:155-227 | a storage-leg step keeps the invariant |
| ModbusWarehouse.BeltDropoffKeepsInv | code/modbus/high_bay_warehouse.py:230-263 | a MOVE_BELT_DROPOFF step keeps the invariant |
| ModbusWarehouse.StepKeepsInv | code/modbus/high_bay_warehouse.py:137-381 | every tick keeps the invariant: the step counter stays within its state's steps, the delay stays bounded, a slot is chosen outside DEFAULT and IDLE |
| ModbusWarehouse.CycleOrder | code/modbus/high_bay_warehouse.py:137-381 | the shuttle stays or moves to the next state of its fixed cycle; every state is entered at step 0, and inside a state the step stays or moves one on |
| ModbusWarehouse.DefaultToIdle | code/modbus/high_bay_warehouse.py:137-143 | DEFAULT writes what homing writes and goes IDLE exactly when homing is done and the delay has passed 100, clearing the delay then |
| ModbusWarehouse.IdleSelectsSlot | code/modbus/high_bay_warehouse.py:146-152 | a nonzero request word selects that slot and starts the fetch leg; 0 changes nothing and writes nothing |
| ModbusWarehouse.StorageTargets | code/modbus/high_bay_warehouse.py:171-191 | the storage drive goes to the slot's column, 50 pulses past its row to fetch and 150 short of it to return, and moves on exactly when both counters have reached that target |
| ModbusWarehouse.StorageLegs | code/modbus/high_bay_warehouse.py:208-214 | in step 3 fetching lifts the pallet with `CommanderLift(200)`, returning sets it down with `CommanderDown(200)` |
| ModbusWarehouse.StorageExits | code/modbus/high_bay_warehouse.py:225-227 | a storage leg is left exactly after step 5, the fetch leg for MOVE_BELT_DROPOFF and the return leg for DEFAULT |
| ModbusWarehouse.BeltFrontExit | code/modbus/high_bay_warehouse.py:266-284 | BELT_FRONT is left for BELT_BACK exactly when the master reports the workpiece taken, writing `Output_1` 0; the belt is switched off, and the run-on count cleared, exactly on the tick the 26-tick run-on ends |
| ModbusWarehouse.BeltBackExit | code/modbus/high_bay_warehouse.py:287-295 | the belt runs backwards while I_3 is clear; once I_3 is interrupted with I_2 clear it stops and the shuttle goes to BELT_PICKUP; with both interrupted nothing happens |
| ModbusWarehouse.ResetsOnlyWhenExtending | code/modbus/high_bay_warehouse.py:155-381 | the counters are reset only in the storage legs and in MOVE_BELT_DROPOFF's extend step, there only once the arm is out (I_9) |
| ModbusWarehouse.RunKeepsInv | code/modbus/high_bay_warehouse.py:106-381 | every run from a valid state keeps the invariant |
| ModbusWarehouse.Shuttle.constructor | code/modbus/high_bay_warehouse.py:125-132 | the start-up values, which satisfy the invariant |
| ModbusWarehouse.Shuttle.ResetThenWait | code/modbus/high_bay_warehouse.py:158-168 | the fields and writes are those of the reset-then-wait pattern |
| ModbusWarehouse.Shuttle.HoldDelay | code/modbus/high_bay_warehouse.py:208-214 | the delay is that of the wait-after-completion pattern |
| ModbusWarehouse.Shuttle.StorageStep | code/modbus/high_bay_warehouse.py:155-227 | the fields and writes are those of the storage legs |
| ModbusWarehouse.Shuttle.BeltDropoffStep | code/modbus/high_bay_warehouse.py:230-263 | the fields and writes are those of MOVE_BELT_DROPOFF |
| ModbusWarehouse.Shuttle.BeltStep | code/modbus/high_bay_warehouse.py:266-308 | the fields and writes are those of BELT_FRONT, BELT_BACK and BELT_PICKUP |
| ModbusWarehouse.Shuttle.Tick | code/modbus/high_bay_warehouse.py:106-381 | one call of the control function equals `Step` and keeps the invariant |
| ModbusWarehouse.Shuttle.Stop | code/modbus/high_bay_warehouse.py:385-395 | returns the shutdown writes |
| OpcuaWarehouse.StepKeepsInv | code/opcua/high_bay_warehouse.py:197-215 | every tick keeps the delay bounded, clear in IDLE, and a slot chosen in the pick-up leg |
| OpcuaWarehouse.DefaultToIdle | code/opcua/high_bay_warehouse.py:197-203 | DEFAULT goes IDLE exactly when homing is done and the delay has passed 100, and clears the delay then |
| OpcuaWarehouse.IdleSelectsSlot | code/opcua/high_bay_warehouse.py:206-209 | a nonzero mailbox index selects that slot and starts the pick-up leg; 0 changes nothing and writes nothing |
| OpcuaWarehouse.PickupLegIsFinal | code/opcua/high_bay_warehouse.py:212-215 | once in the pick-up leg, further ticks change nothing |
| OpcuaWarehouse.Shuttle.constructor | code/opcua/high_bay_warehouse.py:179-185 | the start-up values, which satisfy the invariant |
| OpcuaWarehouse.Shuttle.Tick | code/opcua/high_bay_warehouse.py:161-215 | one call of the control function equals `Step` and keeps the invariant |
| OpcuaWarehouse.Shuttle.Stop | code/opcua/high_bay_warehouse.py:217-226 | returns the shutdown writes |
| Median.Insert | code/opcua/sorting_line.py:133 | inserting into a sorted list gives a sorted list with that one element more |
| Median.Sort | code/opcua/sorting_line.py:133 | the readings sorted: sorted, and a permutation of the input |
| Median.SortedUnique | code/opcua/sorting_line.py:133 | two sorted lists with the same elements are equal |
| Median.MedianOrderFree | code/opcua/sorting_line.py:133 | the median does not depend on the order the readings arrived in |
| Median.MajorityDecides | code/opcua/sorting_line.py:133-158 | when a strict majority of the readings lies in a band, so does the median |
| Median.MedianBetween | code/opcua/sorting_line.py:133 | the median lies between the smallest and the largest reading |
| SortingLine.Classify | code/opcua/sorting_line.py:135-158 | [2500, 5000] goes to piston 1 after 60 ticks, [5700, 6300] to piston 2 after 150, [6400, 7000] to piston 3 after 250; everything else is rejected; each bin exactly on its band |
| SortingLine.Shutdown | code/opcua/sorting_line.py:202-207 | exactly the outputs O_1..O_5 are written, all 0 |
| SortingLine.InitialInv | code/opcua/sorting_line.py:68-83 | the start-up values satisfy the line invariant |
| SortingLine.SampleKeepsInv | code/opcua/sorting_line.py:91-106 | the input sampling keeps the invariant |
| SortingLine.ScanKeepsInv | code/opcua/sorting_line.py:127-160 | `scan` keeps the invariant |
| SortingLine.MachineKeepsInv | code/opcua/sorting_line.py:111-198 | the state machine part keeps the invariant |
| SortingLine.StepKeepsInv | code/opcua/sorting_line.py:66-198 | every tick keeps the invariant |
| SortingLine.StartupResets | code/opcua/sorting_line.py:68-91 | the start-up branch re-initialises every variable, so the first call from any state behaves as from the start-up values: idle, warm-up count 1, only the belt O_1 written 0 |
| SortingLine.Run | code/opcua/sorting_line.py:66-198 | every sequence of ticks from a valid state ends in a valid state |
| SortingLine.WarmUpStaysIdle | code/opcua/sorting_line.py:91-106 | during the warm-up nothing is sampled, so the start button reads unpressed and the line stays idle; the warm-up count rises by one per tick, or restarts at a start-up branch |
| SortingLine.StartsIdle | code/opcua/sorting_line.py:68-106 | from start-up, the first 1000 ticks leave the line idle |
| SortingLine.IdleStarts | code/opcua/sorting_line.py:194-198 | `idle` starts the belt and `driveScan` exactly when the start button reads pressed |
| SortingLine.DriveScanEnds | code/opcua/sorting_line.py:111-124 | the scan starts after the tenth dark-enough reading with the belt stopped; 500 failed readings stop the belt and go idle |
| SortingLine.MajoritySorts | code/opcua/sorting_line.py:127-158 | when most of the ten readings lie in a bin, the workpiece is sorted into that bin |
| SortingLine.ScanDecides | code/opcua/sorting_line.py:127-160 | the tenth reading decides on the median of all ten; an accepted colour restarts the belt towards its piston; a rejected one goes idle with the belt still on |
| SortingLine.SamePiston | code/opcua/sorting_line.py:167-191 | the piston chosen by the scan is the one fired and the one retracted |
| SortingLine.Timing | code/opcua/sorting_line.py:167-191 | `extend` fires after exactly the piston's delay, and `retrace` retracts after exactly five ticks |
| SortingLine.Line.constructor | code/opcua/sorting_line.py:68-83 | the start-up values, which satisfy the invariant |
| SortingLine.Line.Restart | code/opcua/sorting_line.py:68-83 | the start-up branch: every field and the sensor array are set to the start-up values |
| SortingLine.Line.SampleInputs | code/opcua/sorting_line.py:91-106 | the sensor array and fields change as the sampling rule says |
| SortingLine.Line.ScanColor | code/opcua/sorting_line.py:127-160 | the fields and writes are those of `scan` |
| SortingLine.Line.RunMachine | code/opcua/sorting_line.py:111-198 | the fields and writes are those of the state machine part |
| SortingLine.Line.Tick | code/opcua/sorting_line.py:66-198 | one call of the control function equals `Step` and keeps the invariant |
| SortingLine.Line.Stop | code/opcua/sorting_line.py:202-207 | returns the shutdown writes |

## Left out

- Hardware I/O through revpimodio2 is not modelled. Inputs are parameters of each tick and outputs are the returned writes. Console output, `rpi.exit` and the cycle loop's own timing are also left out.
- The OPC UA server and client threads are not modelled. The shared mailbox they fill becomes per-tick inputs and `Shared` writes. The OPC UA gripper's `add_task_to_queue` has no caller in the program; it is modelled as `OpcuaGripper.Cell.AddTask` all the same, and no lemma assumes it is ever called.
- The three multistation threads are not modelled as concurrent. `Station.Step` runs them in the fixed order oven, suction gripper, turntable within a cycle, and each reads the shared flags as the previous machine left them in the same cycle. `Station.OutputsOwned` shows only that no output is written by two machines, so merging their writes does not depend on the order. The outputs themselves do depend on it: the flags `OvenFinished` and `VacFinished` hand the work on, and another thread order can delay a hand-off, and the writes that follow it, by a cycle.
- Each task clears the shared `cycle_event` itself on waking. A task still busy when another one clears the event misses that cycle; `Station.Step` does not model a missed wake-up. The safety properties do not depend on either point: `Station.GripperOnlyAtOpenOvenAnyOrder` proves them for every interleaving, with wake-ups missed or repeated.
- Monotonic-clock timers (`time.monotonic()` floats) are not modelled as floats. They become integer milliseconds read once per cycle, and a start time of 0.0 becomes `None`.
- `statistics.median` is not called directly. It is modelled as `Median.Median2`, twice the median, so that the mean of two middle readings stays an integer.
- The gripper's `if 1 == 0` branch in WAIT_FOR_PICKUP_READY is dead code and is not modelled.
- The OPC UA warehouse's MOVE_STORAGE_PICKUP body is elided in the source, so a tick there does nothing.
- An unknown position key or slot index (a KeyError in the source) is not modelled as an error. It becomes a precondition: `ValidTask` on enqueue and `Admissible` in IDLE.
- Variables that only ever hold 0 or 1 are modelled as `bool`.
- Some variables the control functions keep are never read back, and are not modelled:
  - the OPC UA gripper's `cycle_step` and `first`;
  - the OPC UA warehouse's `step`, `first` and `first2`;
  - the mailbox fields the core does not read.
- The warehouse counters' 32-bit wrap-around is modelled only where the rules depend on it (`Commander.Lift`, `Commander.CountedDown`). Elsewhere the counters are unbounded integers read from the inputs.
- ModbusGripper.Cell.constructor: does not return the start-up branch's output writes. They are those of `Axis.ProgramEnd`.
- OpcuaGripper.Cell.constructor: does not return the start-up branch's output writes. They are those of `Axis.ProgramEnd`.

=== FILE: axis.dfy ===
/** The geometry of the 3-axis gripper and its open-loop positioning rule: compare the
    axis counter with the target and either report the axis in position (inside the
    inclusive tolerance band) or drive it towards the target. */
module Axis {
  import opened Io

  /** A position of the three axes, in counter pulses. */
  datatype Target = Target(a1: int, a2: int, a3: int)

  /** `positions`: the named locations the gripper can reach. */
  const Positions: map<string, Target> := map[
    "white_pick_up" := Target(910, 690, 1700),
    "red_pick_up" := Target(760, 810, 1700),
    "blue_pick_up" := Target(625, 1100, 1700),
    "storage" := Target(2700, 350, 300),
    "multi_drop_off" := Target(1805, 1680, 1000)
  ]

  /** The axis being driven in MOVE_TO_POS; the axes are driven one after another. */
  datatype AxisState = Axis1 | Axis2 | Axis3

  /** Forward and backward output of each axis. */
  function ForwardPin(a: AxisState): nat
  {
    match a
    case Axis1 => 12
    case Axis2 => 10
    case Axis3 => 8
  }

  function BackwardPin(a: AxisState): nat
  {
    match a
    case Axis1 => 11
    case Axis2 => 9
    case Axis3 => 7
  }

  /** The coordinate of `p` that axis `a` is driven to. */
  function Coordinate(p: Target, a: AxisState): int
  {
    match a
    case Axis1 => p.a1
    case Axis2 => p.a2
    case Axis3 => p.a3
  }

  /** `POSITION_TOLERANCE` of the MOVE_TO_POS state. */
  const Tolerance: int := 10

  /** What one tick does with one axis. */
  datatype Command = InPosition | Forward | Backward

  function Abs(x: int): (r: nat)
    ensures r == x || r == -x
  {
    if x < 0 then -x else x
  }

  /** The decision of one axis step for counter reading `current` and target `target`. */
  function Drive(current: int, target: int): (c: Command)
    ensures c == InPosition <==> Abs(current - target) <= Tolerance
    ensures c == Forward <==> current < target - Tolerance
    ensures c == Backward <==> current > target + Tolerance
  {
    if Abs(current - target) <= Tolerance then InPosition
    else if current < target then Forward
    else Backward
  }

  /** Exact equality is inside the band, and so is any reading within the tolerance:
      e.g. counter 690 against target 700. */
  lemma InPositionAtTarget(current: int, target: int)
    requires target - Tolerance <= current <= target + Tolerance
    ensures Drive(current, target) == InPosition
  {
  }

  /** Driving never overshoots the decision: a forward command is issued only while
      the counter is below the target, a backward one only while it is above. */
  lemma DriveTowardsTarget(current: int, target: int)
    ensures Drive(current, target) == Forward ==> current < target
    ensures Drive(current, target) == Backward ==> current > target
  {
  }

  /** `programend` of both gripper variants: every gripper output written 0. */
  function ProgramEnd(): (w: Writes)
    ensures w.Keys == Outputs({7, 8, 9, 10, 11, 12, 13, 14})
    ensures AllOff(w, Outputs({7, 8, 9, 10, 11, 12, 13, 14}))
  {
    Zeroes(Outputs({7, 8, 9, 10, 11, 12, 13, 14}))
  }
}

=== FILE: commander.dfy ===
/** The high-bay warehouse's `RobotCommander`: one-shot decision rules that read the end
    switches and the two axis counters, switch the shuttle's motors and report with a
    done code whether the movement they command is complete. The rule set and the slot
    table are the same in the Modbus and the OPC UA variant of the warehouse. */
module Commander {
  import opened Io

  /** The physical values a warehouse tick reads: the reference switches `I_1` (x home)
      and `I_4` (y home), the belt light barriers `I_2` and `I_3`, the arm end switches
      `I_9` (out) and `I_10` (in), and the raw 32-bit counters `Counter_5` (x) and
      `Counter_7` (y). */
  datatype Sensors = Sensors(
    i1: bool, i2: bool, i3: bool, i4: bool, i9: bool, i10: bool,
    c5: int, c7: int)

  /** What a rule leaves: its writes and its return code (1 = done). */
  datatype Cmd = Cmd(writes: Writes, done: bool)

  /** A storage slot in front of its pallet, in counter pulses. */
  datatype Coord = Coord(x: int, y: int)

  /** `positions`: slots 1..9, three columns by three rows. */
  const Slots: map<int, Coord> := map[
    9 := Coord(1440, 1650),
    6 := Coord(1440, 840),
    3 := Coord(1440, 150),
    8 := Coord(2700 - 110, 1650),
    5 := Coord(2700 - 110, 840),
    2 := Coord(2700 - 110, 150),
    7 := Coord(3880 - 110, 1650),
    4 := Coord(3880 - 110, 840),
    1 := Coord(3880 - 110, 150)
  ]

  /** The counters are 32-bit unsigned: counting down from 0 wraps to this value. */
  const CounterMax: int := 4294967295

  /** Default margins of `CommanderLift` and `CommanderDown`. */
  const LiftMargin: int := 200
  const DownTarget: int := 200

  /** `CommanderDefault(up)`: with `up` set, retract the arm first (`O_8`) until `I_10`;
      then drive both axes home, y on `O_6` until `I_4`, x on `O_4` until `I_1`. */
  function Home(s: Sensors, up: bool): (c: Cmd)
    ensures up && !s.i10 ==> c.writes == map[O(8) := 1] && !c.done
    ensures !(up && !s.i10) ==>
              c.writes == map[O(6) := Bit(!s.i4), O(4) := Bit(!s.i1), O(8) := 0]
    ensures c.done <==> !(up && !s.i10) && s.i4 && s.i1
  {
    if !s.i10 && up then Cmd(map[O(8) := 1], false)
    else if !s.i4 && !s.i1 then Cmd(map[O(6) := 1, O(4) := 1, O(8) := 0], false)
    else if !s.i4 && s.i1 then Cmd(map[O(6) := 1, O(4) := 0, O(8) := 0], false)
    else if s.i4 && !s.i1 then Cmd(map[O(6) := 0, O(4) := 1, O(8) := 0], false)
    else Cmd(map[O(6) := 0, O(4) := 0, O(8) := 0], true)
  }

  /** `CommanderLager(x, y)`: drive x (`O_3`) and y (`O_5`) until each counter has
      reached its target. */
  function Lager(s: Sensors, x: int, y: int): (c: Cmd)
    ensures c.writes == map[O(3) := Bit(s.c5 < x), O(5) := Bit(s.c7 < y)]
    ensures c.done <==> s.c5 >= x && s.c7 >= y
  {
    if s.c5 < x && s.c7 < y then Cmd(map[O(3) := 1, O(5) := 1], false)
    else if s.c5 < x && s.c7 >= y then Cmd(map[O(3) := 1, O(5) := 0], false)
    else if s.c5 >= x && s.c7 < y then Cmd(map[O(3) := 0, O(5) := 1], false)
    else Cmd(map[O(3) := 0, O(5) := 0], true)
  }

  /** `CommanderOut`: extend the arm (`O_7`) until `I_9`. */
  function Out(s: Sensors): (c: Cmd)
    ensures c.writes == map[O(7) := Bit(!s.i9)]
    ensures c.done <==> s.i9
  {
    if !s.i9 then Cmd(map[O(7) := 1], false) else Cmd(map[O(7) := 0], true)
  }

  /** `CommanderIn`: retract the arm (`O_8`) until `I_10`. */
  function In(s: Sensors): (c: Cmd)
    ensures c.writes == map[O(8) := Bit(!s.i10)]
    ensures c.done <==> s.i10
  {
    if !s.i10 then Cmd(map[O(8) := 1], false) else Cmd(map[O(8) := 0], true)
  }

  /** `CommanderLift(value)`: lift (`O_6`, which counts `Counter_7` down from its reset
      value 0, wrapping to the top of the 32-bit range) while the counter is within
      `value` of the top or still at most 50. */
  function Lift(s: Sensors, value: int): (c: Cmd)
    ensures c.writes == map[O(6) := Bit(!c.done)]
    ensures !c.done <==> s.c7 >= CounterMax - value || s.c7 <= 50
  {
    if s.c7 >= CounterMax - value || s.c7 <= 50 then Cmd(map[O(6) := 1], false)
    else Cmd(map[O(6) := 0], true)
  }

  /** `CommanderDown(value)`: lower (`O_5`, counting `Counter_7` up) until the counter
      has reached `value`. */
  function Down(s: Sensors, value: int): (c: Cmd)
    ensures c.writes == map[O(5) := Bit(s.c7 < value)]
    ensures c.done <==> s.c7 >= value
  {
    if s.c7 < value then Cmd(map[O(5) := 1], false) else Cmd(map[O(5) := 0], true)
  }

  /** `CommanderResetCounters`: both axis counters back to 0. */
  function ResetCounters(): (w: Writes)
    ensures w.Keys == {Counter(5), Counter(7)} && AllOff(w, w.Keys)
  {
    map[Counter(5) := 0, Counter(7) := 0]
  }

  /** `programend` of both warehouse variants: switch off the eight motor outputs. */
  function Shutdown(): (w: Writes)
    ensures w.Keys == Outputs({1, 2, 3, 4, 5, 6, 7, 8}) && AllOff(w, w.Keys)
  {
    Zeroes(Outputs({1, 2, 3, 4, 5, 6, 7, 8}))
  }

  /** The value `Counter_7` shows after `k` pulses downward from its reset value. */
  function CountedDown(k: int): (c: int)
    requires 0 <= k <= CounterMax
    ensures 0 <= c <= CounterMax
    ensures k == 0 ==> c == 0
    ensures k > 0 ==> c + k == CounterMax + 1
  {
    (0 - k) % (CounterMax + 1)
  }

  /** The wrap-around reading of the lift rule: lifted by `k` pulses from the reset
      point, the lift is done exactly once at least `value + 2` pulses have been
      counted (and before the counter could wrap back under 50). */
  lemma LiftStopsAfterMargin(s: Sensors, k: int, value: int)
    requires 0 <= k <= CounterMax && 0 <= value
    requires s.c7 == CountedDown(k)
    ensures Lift(s, value).done <==> value + 1 < k < CounterMax + 1 - 50
  {
    if k > 0 {
      assert s.c7 == CounterMax + 1 - k;
    }
  }

  /** Every rule reports done exactly when every motor it writes is switched off:
      homing, ... */
  lemma HomeDoneIffStopped(s: Sensors, up: bool)
    ensures Home(s, up).done <==> AllOff(Home(s, up).writes, Home(s, up).writes.Keys)
  {
    var d := Home(s, up).writes;
    if up && !s.i10 {
      assert d[O(8)] == 1;
    } else if !Home(s, up).done {
      assert d[O(6)] == 1 || d[O(4)] == 1;
    }
  }

  /** ... the storage drive, ... */
  lemma LagerDoneIffStopped(s: Sensors, x: int, y: int)
    ensures Lager(s, x, y).done <==> AllOff(Lager(s, x, y).writes, Lager(s, x, y).writes.Keys)
  {
    var l := Lager(s, x, y).writes;
    if !Lager(s, x, y).done {
      assert l[O(3)] == 1 || l[O(5)] == 1;
    }
  }

  /** ... and the single-motor rules. */
  lemma SingleDoneIffStopped(s: Sensors, value: int)
    ensures Out(s).done <==> AllOff(Out(s).writes, Out(s).writes.Keys)
    ensures In(s).done <==> AllOff(In(s).writes, In(s).writes.Keys)
    ensures Lift(s, value).done <==> AllOff(Lift(s, value).writes, Lift(s, value).writes.Keys)
    ensures Down(s, value).done <==> AllOff(Down(s, value).writes, Down(s, value).writes.Keys)
  {
    assert Out(s).writes[O(7)] == Bit(!s.i9);
    assert In(s).writes[O(8)] == Bit(!s.i10);
    assert Lift(s, value).writes[O(6)] == Bit(!Lift(s, value).done);
    assert Down(s, value).writes[O(5)] == Bit(s.c7 < value);
  }
}

=== FILE: io.dfy ===
/** Abstract point set shared by every controller: the named output points a tick may
    write, and the per-tick write set. Physical reads are passed to each controller as an
    input record; writes are collected in a map, so the last write of a tick wins, exactly
    as in an auto-refreshed process image. */
module Io {

  datatype Option<T> = None | Some(value: T)

  /** A writable point: a digital output `O_n`, a Modbus output bit `Output_n`,
      an output word `Output_Word_n`, a pulse counter `Counter_n` (writing 0 models
      its reset) or a field of the remote mailbox. */
  datatype Point =
    | O(n: nat)
    | Output(n: nat)
    | OutputWord(n: nat)
    | Counter(n: nat)
    | Shared(name: string)

  /** The points written during one tick, with the value last written to each. */
  type Writes = map<Point, int>

  /** The 0/1 value a Python boolean comparison is written as. */
  function Bit(b: bool): int
  {
    if b then 1 else 0
  }

  /** The digital outputs `O_n` for every `n` in `ns`. */
  function Outputs(ns: set<nat>): set<Point>
  {
    set n | n in ns :: O(n)
  }

  /** Every point of `pts` is written, and written 0. */
  predicate AllOff(w: Writes, pts: set<Point>)
  {
    pts <= w.Keys && forall p :: p in pts ==> w[p] == 0
  }

  /** A write set that writes 0 to exactly the points of `pts`. */
  function Zeroes(pts: set<Point>): (w: Writes)
    ensures w.Keys == pts && AllOff(w, pts)
  {
    map p | p in pts :: 0
  }
}

=== FILE: median.dfy ===
/** The median of a non-empty list of integer readings, as the statistics library defines
    it (the middle element of the sorted list, or the mean of the two middle elements for
    an even count). The mean of two integers may be a half-integer, so the median is
    kept doubled: `Median2(xs)` is twice the median, exactly. */
module Median {

  predicate Sorted(s: seq<int>)
  {
    forall i, j :: 0 <= i < j < |s| ==> s[i] <= s[j]
  }

  /** Insert `x` into the sorted list `s`. */
  function Insert(x: int, s: seq<int>): (r: seq<int>)
    requires Sorted(s)
    ensures Sorted(r)
    ensures multiset(r) == multiset(s) + multiset{x}
    ensures |r| == |s| + 1
    ensures r[0] == if s != [] && s[0] < x then s[0] else x
    decreases |s|
  {
    if s == [] then [x]
    else if x <= s[0] then [x] + s
    else
      var t := Insert(x, s[1..]);
      assert s == [s[0]] + s[1..];
      [s[0]] + t
  }

  /** The readings in ascending order. */
  function Sort(xs: seq<int>): (r: seq<int>)
    ensures Sorted(r)
    ensures multiset(r) == multiset(xs)
    ensures |r| == |xs|
    decreases |xs|
  {
    if xs == [] then []
    else
      assert xs == [xs[0]] + xs[1..];
      Insert(xs[0], Sort(xs[1..]))
  }

  /** Twice the median of `xs`. */
  function Median2(xs: seq<int>): int
    requires |xs| > 0
  {
    var s := Sort(xs);
    var n := |s|;
    if n % 2 == 1 then 2 * s[n / 2] else s[n / 2 - 1] + s[n / 2]
  }

  /** Two sorted lists with the same elements are the same list. */
  lemma {:induction false} SortedUnique(a: seq<int>, b: seq<int>)
    requires Sorted(a) && Sorted(b) && multiset(a) == multiset(b)
    ensures a == b
    decreases |a|
  {
    if a != [] {
      assert |b| == |a| by {
        assert |multiset(a)| == |a| && |multiset(b)| == |b|;
      }
      assert a[0] == b[0] by {
        assert a[0] in multiset(b);
        assert b[0] in multiset(a);
        var i :| 0 <= i < |b| && b[i] == a[0];
        var j :| 0 <= j < |a| && a[j] == b[0];
        assert b[0] <= b[i] && a[0] <= a[j];
      }
      assert a == [a[0]] + a[1..];
      assert b == [b[0]] + b[1..];
      assert multiset(a[1..]) == multiset(a) - multiset{a[0]};
      assert multiset(b[1..]) == multiset(b) - multiset{b[0]};
      SortedUnique(a[1..], b[1..]);
    }
  }

  /** The median does not depend on the order the readings arrived in. */
  lemma MedianOrderFree(xs: seq<int>, ys: seq<int>)
    requires |xs| > 0 && multiset(xs) == multiset(ys)
    ensures |ys| > 0
    ensures Median2(xs) == Median2(ys)
  {
    assert |xs| == |multiset(xs)| == |multiset(ys)| == |ys|;
    SortedUnique(Sort(xs), Sort(ys));
  }

  /** How many readings lie in the band `[lo, hi]`. */
  function CountIn(xs: seq<int>, lo: int, hi: int): (c: nat)
    ensures c <= |xs|
    decreases |xs|
  {
    if xs == [] then 0
    else (if lo <= xs[0] <= hi then 1 else 0) + CountIn(xs[1..], lo, hi)
  }

  lemma {:induction false} CountAppend(a: seq<int>, b: seq<int>, lo: int, hi: int)
    ensures CountIn(a + b, lo, hi) == CountIn(a, lo, hi) + CountIn(b, lo, hi)
    decreases |a|
  {
    if a == [] {
      assert a + b == b;
    } else {
      assert (a + b)[0] == a[0];
      assert (a + b)[1..] == a[1..] + b;
      CountAppend(a[1..], b, lo, hi);
    }
  }

  lemma {:induction false} CountInsert(x: int, s: seq<int>, lo: int, hi: int)
    requires Sorted(s)
    ensures CountIn(Insert(x, s), lo, hi) == CountIn([x], lo, hi) + CountIn(s, lo, hi)
    decreases |s|
  {
    if s != [] && x > s[0] {
      var t := Insert(x, s[1..]);
      assert ([s[0]] + t)[1..] == t;
      CountInsert(x, s[1..], lo, hi);
    }
  }

  /** Sorting keeps the number of readings in every band. */
  lemma {:induction false} CountSort(xs: seq<int>, lo: int, hi: int)
    ensures CountIn(Sort(xs), lo, hi) == CountIn(xs, lo, hi)
    decreases |xs|
  {
    if xs != [] {
      CountSort(xs[1..], lo, hi);
      CountInsert(xs[0], Sort(xs[1..]), lo, hi);
    }
  }

  /** A list none of whose readings lies in the band counts 0. */
  lemma {:induction false} CountNone(xs: seq<int>, lo: int, hi: int)
    requires forall k :: 0 <= k < |xs| ==> xs[k] < lo || xs[k] > hi
    ensures CountIn(xs, lo, hi) == 0
    decreases |xs|
  {
    if xs != [] {
      CountNone(xs[1..], lo, hi);
    }
  }

  /** In a sorted list with a strict majority in the band, the element at index `k` is
      not below the band when at most half of the list lies before it, ... */
  lemma NotBelowBand(s: seq<int>, k: int, lo: int, hi: int)
    requires Sorted(s) && 0 <= k < |s|
    requires 2 * CountIn(s, lo, hi) > |s|
    requires 2 * (k + 1) >= |s|
    ensures lo <= s[k]
  {
    if s[k] < lo {
      var a, b := s[..k + 1], s[k + 1..];
      assert a + b == s;
      CountAppend(a, b, lo, hi);
      CountNone(a, lo, hi);
    }
  }

  /** ... and not above it when at most half of the list lies from it on. */
  lemma NotAboveBand(s: seq<int>, k: int, lo: int, hi: int)
    requires Sorted(s) && 0 <= k < |s|
    requires 2 * CountIn(s, lo, hi) > |s|
    requires 2 * (|s| - k) >= |s|
    ensures s[k] <= hi
  {
    if s[k] > hi {
      var a, b := s[..k], s[k..];
      assert a + b == s;
      CountAppend(a, b, lo, hi);
      CountNone(b, lo, hi);
    }
  }

  /** The classification is robust: when a strict majority of the readings lies in a
      band, so does the median. */
  lemma MajorityDecides(xs: seq<int>, lo: int, hi: int)
    requires |xs| > 0
    requires 2 * CountIn(xs, lo, hi) > |xs|
    ensures 2 * lo <= Median2(xs) <= 2 * hi
  {
    var s := Sort(xs);
    var n := |s|;
    CountSort(xs, lo, hi);
    if n % 2 == 1 {
      NotBelowBand(s, n / 2, lo, hi);
      NotAboveBand(s, n / 2, lo, hi);
    } else {
      NotBelowBand(s, n / 2 - 1, lo, hi);
      NotAboveBand(s, n / 2, lo, hi);
    }
  }

  /** The median lies between the smallest and the largest reading. */
  lemma MedianBetween(xs: seq<int>, lo: int, hi: int)
    requires |xs| > 0
    requires forall k :: 0 <= k < |xs| ==> lo <= xs[k] <= hi
    ensures 2 * lo <= Median2(xs) <= 2 * hi
  {
    var s := Sort(xs);
    forall k | 0 <= k < |s| ensures lo <= s[k] <= hi {
      assert s[k] in multiset(xs);
    }
  }
}

=== FILE: modbus_gripper.dfy ===
/** The Modbus variant of the 3-axis gripper cell: a per-tick state machine that homes
    the axes, drains the de-duplicated task queue, asks the storage for approval before
    entering it, drives the axes one after another into the tolerance band, grips or
    releases, retracts, and seeds new work when idle. */
module ModbusGripper {
  import opened Io
  import opened TaskQueue
  import opened Axis

  /** Both endpoints of the task name known locations (an unknown key is a KeyError
      in the source). */
  predicate ValidTask(t: Task)
  {
    t.pickup in Positions && t.dropoff in Positions
  }

  datatype State =
    | Default | WaitForPickupReady | WaitForDropOffReady | Idle
    | MoveToPos | Grap | UpAndIn | Drop

  /** Every variable the control function keeps between ticks, the global queue and its
      membership set included. */
  datatype Vars = Vars(
    state: State,
    task: Option<Task>,
    pickingUp: bool,
    zyklus: int,
    delay: int,
    first: bool,
    axis: AxisState,
    position: Option<Target>,
    queue: Queue)

  /** The values read during one tick: the three home switches, the three axis
      counters, the storage approval word and the multistation approval word. */
  datatype Inputs = Inputs(
    i1: bool, i2: bool, i3: bool,
    counter5: int, counter7: int, counter9: int,
    inputWord1: int, inputWord1I05: int)

  datatype Outcome = Outcome(vars: Vars, writes: Writes)

  /** The variables right after the start-up branch of the control function. */
  const Initial: Vars := Vars(Default, None, true, 0, 0, false, Axis1, None, Empty)

  /** The three tasks the IDLE state enqueues for each value of `zyklus`. */
  const Seeds: seq<seq<Task>> := [
    [Task("storage", "multi_drop_off", 1), Task("storage", "multi_drop_off", 2), Task("storage", "multi_drop_off", 3)],
    [Task("white_pick_up", "storage", 3), Task("red_pick_up", "storage", 2), Task("blue_pick_up", "storage", 1)],
    [Task("storage", "multi_drop_off", 4), Task("storage", "multi_drop_off", 5), Task("storage", "multi_drop_off", 6)],
    [Task("white_pick_up", "storage", 6), Task("red_pick_up", "storage", 5), Task("blue_pick_up", "storage", 4)],
    [Task("storage", "multi_drop_off", 7), Task("storage", "multi_drop_off", 8), Task("storage", "multi_drop_off", 9)],
    [Task("white_pick_up", "storage", 9), Task("red_pick_up", "storage", 8), Task("blue_pick_up", "storage", 7)]
  ]

  /** The location of the leg being driven. */
  function LegLocation(t: Task, pickingUp: bool): string
  {
    if pickingUp then t.pickup else t.dropoff
  }

  /** The invariant every reachable state keeps: queue and set agree, every queued task
      is valid, a task is held exactly outside DEFAULT and IDLE and its current leg is
      the position being approached, GRAP belongs to the pick-up leg and DROP to the
      drop-off leg, and each approval wait is entered only for an arbitrated endpoint. */
  ghost predicate Inv(v: Vars)
  {
    && Consistent(v.queue)
    && (forall t :: t in v.queue.items ==> ValidTask(t))
    && 0 <= v.zyklus <= 5
    && 0 <= v.delay <= 100
    && (v.task.None? <==> v.state in {Default, Idle})
    && (v.task.Some? ==>
          ValidTask(v.task.value)
          && v.position == Some(Positions[LegLocation(v.task.value, v.pickingUp)]))
    && (v.state == Grap ==> v.pickingUp)
    && (v.state == Drop ==> !v.pickingUp)
    && (v.state == WaitForPickupReady ==> v.pickingUp && v.task.value.pickup == "storage")
    && (v.state == WaitForDropOffReady ==>
          !v.pickingUp && v.task.value.dropoff in {"storage", "multi_drop_off"})
  }

  // ---------------------------------------------------------------------------------
  // One tick, state by state

  /** DEFAULT: home axis 1, then 2, then 3; once all are home wait 50 ticks, reset the
      counters, wait up to 100, then dispatch the queue head or go IDLE. */
  function StepDefault(v: Vars, i: Inputs): Outcome
    requires Inv(v) && v.state == Default
  {
    if !i.i1 then Outcome(v, map[O(7) := 1])
    else if !i.i2 then Outcome(v, map[O(7) := 0, O(9) := 1])
    else if !i.i3 then Outcome(v, map[O(9) := 0, O(11) := 1])
    else
      var w := map[O(11) := 0];
      if v.delay < 50 then Outcome(v.(delay := v.delay + 1), w)
      else if v.delay == 50 then
        Outcome(v.(delay := v.delay + 1), w[Counter(5) := 0][Counter(7) := 0][Counter(9) := 0])
      else if v.delay < 100 then Outcome(v.(delay := v.delay + 1), w)
      else if v.queue.items != [] then
        var (t, q) := Dequeue(v.queue);
        assert t in v.queue.items;
        var v1 := v.(delay := 0, task := Some(t), queue := q, pickingUp := true,
                     position := Some(Positions[t.pickup]));
        if t.pickup == "storage" then Outcome(v1.(first := false, state := WaitForPickupReady), w)
        else Outcome(v1.(state := MoveToPos, axis := Axis1), w)
      else Outcome(v.(delay := 0, state := Idle), w)
  }

  /** The storage request/approval exchange: on the first tick write the slot to
      `Output_Word_1` (and 0 to `Output_Word_2`); start moving as soon as
      `Input_Word_1` is nonzero. */
  function StorageRequest(v: Vars, approval: int): Outcome
    requires v.task.Some?
  {
    var w := if !v.first then map[OutputWord(2) := 0, OutputWord(1) := v.task.value.slot] else map[];
    if approval != 0 then Outcome(v.(first := false, state := MoveToPos, axis := Axis1), w)
    else Outcome(v.(first := true), w)
  }

  function StepWaitPickup(v: Vars, i: Inputs): Outcome
    requires v.state == WaitForPickupReady
  {
    if v.task.Some? && v.task.value.pickup == "storage" then StorageRequest(v, i.inputWord1)
    else Outcome(v, map[])
  }

  function StepWaitDropOff(v: Vars, i: Inputs): Outcome
    requires v.state == WaitForDropOffReady
  {
    if v.task.Some? && v.task.value.dropoff == "storage" then StorageRequest(v, i.inputWord1)
    else if v.task.Some? && v.task.value.dropoff == "multi_drop_off" then
      if i.inputWord1I05 == 1 then Outcome(v.(first := false, state := MoveToPos, axis := Axis1), map[])
      else Outcome(v, map[])
    else Outcome(v, map[])
  }

  /** IDLE: enqueue the three tasks of this `zyklus`, advance `zyklus` cyclically and go
      back to DEFAULT. */
  function StepIdle(v: Vars): Outcome
    requires Inv(v) && v.state == Idle
  {
    Outcome(v.(queue := EnqueueAll(v.queue, Seeds[v.zyklus]),
               zyklus := if v.zyklus == 5 then 0 else v.zyklus + 1,
               state := Default),
            map[])
  }

  /** The counter each axis is measured by. */
  function Reading(i: Inputs, a: AxisState): int
  {
    match a
    case Axis1 => i.counter9
    case Axis2 => i.counter7
    case Axis3 => i.counter5
  }

  /** The outputs written for one axis command: both low in position, otherwise the
      driving one high and the opposite one low. */
  function AxisWrites(c: Axis.Command, a: AxisState): Writes
  {
    match c
    case InPosition => map[O(ForwardPin(a)) := 0, O(BackwardPin(a)) := 0]
    case Forward => map[O(ForwardPin(a)) := 1, O(BackwardPin(a)) := 0]
    case Backward => map[O(ForwardPin(a)) := 0, O(BackwardPin(a)) := 1]
  }

  /** MOVE_TO_POS: drive the current axis; an axis in position hands over to the next
      one; the last one waits 50 ticks and then grips or releases. */
  function StepMove(v: Vars, i: Inputs): Outcome
    requires v.state == MoveToPos && v.position.Some?
  {
    var c := Axis.Drive(Reading(i, v.axis), Coordinate(v.position.value, v.axis));
    var w := AxisWrites(c, v.axis);
    if c != Axis.InPosition then Outcome(v, w)
    else match v.axis
      case Axis1 => Outcome(v.(axis := Axis2), w)
      case Axis2 => Outcome(v.(axis := Axis3), w)
      case Axis3 =>
        if v.delay < 50 then Outcome(v.(delay := v.delay + 1), w)
        else Outcome(v.(delay := 0, state := if v.pickingUp then Grap else Drop), w)
  }

  /** GRAP: clear the storage request, compressor on, after 50 ticks magnet on. */
  function StepGrap(v: Vars): Outcome
    requires v.state == Grap
  {
    var w := if v.task.Some? && v.task.value.pickup == "storage" then map[OutputWord(1) := 0] else map[];
    if v.delay < 50 then Outcome(v.(first := false, delay := v.delay + 1), w[O(13) := 1])
    else Outcome(v.(first := false, delay := 0, state := UpAndIn), w[O(13) := 1][O(14) := 1])
  }

  /** DROP: clear the storage request, magnet off, after 50 ticks retract. */
  function StepDrop(v: Vars): Outcome
    requires v.state == Drop
  {
    var w := if v.task.Some? && v.task.value.dropoff == "storage" then map[OutputWord(1) := 0] else map[];
    if v.delay < 50 then Outcome(v.(first := false, delay := v.delay + 1), w[O(14) := 0])
    else Outcome(v.(first := false, delay := 0, state := UpAndIn), w[O(14) := 0])
  }

  /** UP_AND_IN: home axes 1 and 2, wait, reset counters 5 and 7, wait, release the
      storage pallet, then start the drop-off leg or finish the task. */
  function StepUpAndIn(v: Vars, i: Inputs): Outcome
    requires Inv(v) && v.state == UpAndIn
  {
    if !i.i1 then Outcome(v, map[O(7) := 1])
    else if !i.i2 then Outcome(v, map[O(7) := 0, O(9) := 1])
    else
      var w := map[O(9) := 0];
      if v.delay < 50 then Outcome(v.(delay := v.delay + 1), w)
      else if v.delay == 50 then Outcome(v.(delay := v.delay + 1), w[Counter(5) := 0][Counter(7) := 0])
      else if v.delay < 100 then Outcome(v.(delay := v.delay + 1), w)
      else
        var t := v.task.value;
        var w1 := if t.pickup == "storage" then w[OutputWord(2) := 1] else w;
        var w2 := if t.dropoff == "storage" then w1[OutputWord(2) := 1] else w1;
        if v.pickingUp then
          var v1 := v.(delay := 0, pickingUp := false, position := Some(Positions[t.dropoff]), first := false);
          if t.dropoff in {"storage", "multi_drop_off"} then Outcome(v1.(state := WaitForDropOffReady), w2)
          else Outcome(v1.(state := MoveToPos, axis := Axis1), w2)
        else Outcome(v.(delay := 0, task := None, state := Default), w2)
  }

  /** One call of the control function after start-up. */
  function Step(v: Vars, i: Inputs): Outcome
    requires Inv(v)
  {
    match v.state
    case Default => StepDefault(v, i)
    case WaitForPickupReady => StepWaitPickup(v, i)
    case WaitForDropOffReady => StepWaitDropOff(v, i)
    case Idle => StepIdle(v)
    case MoveToPos => StepMove(v, i)
    case Grap => StepGrap(v)
    case UpAndIn => StepUpAndIn(v, i)
    case Drop => StepDrop(v)
  }

  // ---------------------------------------------------------------------------------
  // The invariant

  lemma InitialInv()
    ensures Inv(Initial)
  {
    EmptyConsistent();
  }

  lemma SeedsValid(z: int)
    requires 0 <= z < |Seeds|
    ensures forall t :: t in Seeds[z] ==> ValidTask(t)
  {
  }

  /** Every tick keeps the invariant. */
  lemma DefaultKeepsInv(v: Vars, i: Inputs)
    requires Inv(v) && v.state == Default
    ensures Inv(StepDefault(v, i).vars)
  {
    if v.queue.items != [] {
      DequeueKeepsConsistent(v.queue);
    }
  }

  lemma IdleKeepsInv(v: Vars)
    requires Inv(v) && v.state == Idle
    ensures Inv(StepIdle(v).vars)
  {
    SeedsValid(v.zyklus);
    EnqueueAllKeepsConsistent(v.queue, Seeds[v.zyklus]);
    EnqueueAllAppends(v.queue, Seeds[v.zyklus]);
  }

  lemma MoveKeepsInv(v: Vars, i: Inputs)
    requires Inv(v) && v.state == MoveToPos
    ensures Inv(StepMove(v, i).vars)
  {
  }

  lemma UpAndInKeepsInv(v: Vars, i: Inputs)
    requires Inv(v) && v.state == UpAndIn
    ensures Inv(StepUpAndIn(v, i).vars)
  {
  }

  lemma StepKeepsInv(v: Vars, i: Inputs)
    requires Inv(v)
    ensures Inv(Step(v, i).vars)
  {
    match v.state
    case Default => DefaultKeepsInv(v, i);
    case Idle => IdleKeepsInv(v);
    case MoveToPos => MoveKeepsInv(v, i);
    case UpAndIn => UpAndInKeepsInv(v, i);
    case _ =>
  }

  // ---------------------------------------------------------------------------------
  // Properties of one tick

  /** Homing drives the axes strictly one after another: axis 2 only once axis 1 is
      home, axis 3 only once axes 1 and 2 are; the counters are reset exactly on the tick
      the settle delay reaches 50; the delay runs to 100 and is set back to 0 before the
      state is left. */
  lemma DefaultHoming(v: Vars, i: Inputs)
    requires Inv(v) && v.state == Default
    ensures var w := Step(v, i).writes;
            && (O(7) in w && w[O(7)] == 1 <==> !i.i1)
            && (O(9) in w && w[O(9)] == 1 <==> i.i1 && !i.i2)
            && (O(11) in w && w[O(11)] == 1 <==> i.i1 && i.i2 && !i.i3)
            && (Counter(5) in w <==> i.i1 && i.i2 && i.i3 && v.delay == 50)
            && (Counter(7) in w <==> i.i1 && i.i2 && i.i3 && v.delay == 50)
            && (Counter(9) in w <==> i.i1 && i.i2 && i.i3 && v.delay == 50)
            && (Counter(9) in w ==> w[Counter(5)] == 0 && w[Counter(7)] == 0 && w[Counter(9)] == 0)
    ensures var r := Step(v, i).vars;
            && (!(i.i1 && i.i2 && i.i3) ==> r == v)
            && (i.i1 && i.i2 && i.i3 && v.delay < 100 ==> r == v.(delay := v.delay + 1))
            && (r.state != Default ==> i.i1 && i.i2 && i.i3 && v.delay == 100 && r.delay == 0)
  {
  }

  /** Dispatch takes the oldest queued task, removes it from the queue and from the
      set, starts its pick-up leg, and asks the storage first exactly when the pick-up is
      the storage; with an empty queue the robot goes IDLE. */
  lemma DefaultDispatch(v: Vars, i: Inputs)
    requires Inv(v) && v.state == Default && i.i1 && i.i2 && i.i3 && v.delay == 100
    ensures var r := Step(v, i).vars;
            if v.queue.items == [] then r == v.(delay := 0, state := Idle)
            else
              && r.task == Some(v.queue.items[0])
              && r.queue.items == v.queue.items[1..]
              && v.queue.items[0] !in r.queue.members
              && r.pickingUp
              && ValidTask(v.queue.items[0])
              && r.position == Some(Positions[v.queue.items[0].pickup])
              && (r.state == WaitForPickupReady <==> v.queue.items[0].pickup == "storage")
              && (r.state != WaitForPickupReady ==> r.state == MoveToPos && r.axis == Axis1)
  {
  }

  /** Axis step: only the outputs of the axis being driven are written. Inside the band
      both are written 0 and the next axis takes over; outside it exactly one is 1,
      forward if the counter is below the target and backward if above. */
  lemma AxisStep(v: Vars, i: Inputs)
    requires Inv(v) && v.state == MoveToPos
    ensures v.position.Some?
    ensures var w := Step(v, i).writes;
            var r := Step(v, i).vars;
            var current := Reading(i, v.axis);
            var target := Coordinate(v.position.value, v.axis);
            var f, b := O(ForwardPin(v.axis)), O(BackwardPin(v.axis));
            && w.Keys == {f, b}
            && (Axis.Abs(current - target) <= Axis.Tolerance ==> w[f] == 0 && w[b] == 0)
            && (Axis.Abs(current - target) > Axis.Tolerance ==>
                  w[f] + w[b] == 1 && (w[f] == 1 <==> current < target))
            && (v.axis == Axis1 ==> r == (if w[f] + w[b] == 0 then v.(axis := Axis2) else v))
            && (v.axis == Axis2 ==> r == (if w[f] + w[b] == 0 then v.(axis := Axis3) else v))
  {
  }

  /** GRAP and DROP are entered only from MOVE_TO_POS, on axis 3, inside the band, after
      the 50-tick delay; GRAP exactly on the pick-up leg. */
  lemma EnterGrapOrDrop(v: Vars, i: Inputs)
    requires Inv(v)
    requires v.state !in {Grap, Drop} && Step(v, i).vars.state in {Grap, Drop}
    ensures v.state == MoveToPos && v.axis == Axis3 && v.position.Some?
    ensures Axis.Abs(i.counter5 - v.position.value.a3) <= Axis.Tolerance
    ensures v.delay >= 50 && Step(v, i).vars.delay == 0
    ensures Step(v, i).vars.state == Grap <==> v.pickingUp
  {
  }

  /** Storage handshake of the pick-up leg: the request (slot to `Output_Word_1`, 0 to
      `Output_Word_2`) is written only on the first tick; a zero approval keeps waiting
      and writes nothing more; a nonzero approval starts axis 1. */
  lemma PickupHandshake(v: Vars, i: Inputs)
    requires Inv(v) && v.state == WaitForPickupReady
    ensures var o := Step(v, i);
            && (!v.first ==> o.writes == map[OutputWord(2) := 0, OutputWord(1) := v.task.value.slot])
            && (v.first ==> o.writes == map[])
            && (i.inputWord1 == 0 ==> o.vars == v.(first := true))
            && (i.inputWord1 != 0 ==> o.vars == v.(first := false, state := MoveToPos, axis := Axis1))
  {
  }

  /** Drop-off approval: the storage uses the same request/approval exchange; the
      multistation is approved by `Input_Word_1_i05 == 1` and is sent no request. */
  lemma DropOffHandshake(v: Vars, i: Inputs)
    requires Inv(v) && v.state == WaitForDropOffReady
    ensures var o := Step(v, i);
            var t := v.task.value;
            && (t.dropoff == "storage" ==>
                  && (!v.first ==> o.writes == map[OutputWord(2) := 0, OutputWord(1) := t.slot])
                  && (v.first ==> o.writes == map[])
                  && (i.inputWord1 == 0 ==> o.vars == v.(first := true))
                  && (i.inputWord1 != 0 ==> o.vars == v.(first := false, state := MoveToPos, axis := Axis1)))
            && (t.dropoff == "multi_drop_off" ==>
                  && o.writes == map[]
                  && o.vars == if i.inputWord1I05 == 1 then v.(first := false, state := MoveToPos, axis := Axis1) else v)
  {
  }

  /** End of UP_AND_IN: the storage pallet is released when either endpoint is the
      storage; after a pick-up the drop-off leg starts (through the approval wait for the
      storage and the multistation), after a drop-off the task is finished. */
  lemma UpAndInCompletion(v: Vars, i: Inputs)
    requires Inv(v) && v.state == UpAndIn && i.i1 && i.i2 && v.delay == 100
    ensures var o := Step(v, i);
            var t := v.task.value;
            && (OutputWord(2) in o.writes <==> t.pickup == "storage" || t.dropoff == "storage")
            && (OutputWord(2) in o.writes ==> o.writes[OutputWord(2)] == 1)
            && o.vars.delay == 0
            && (v.pickingUp ==>
                  && !o.vars.pickingUp && o.vars.task == v.task
                  && o.vars.position == Some(Positions[t.dropoff])
                  && (o.vars.state == WaitForDropOffReady <==> t.dropoff in {"storage", "multi_drop_off"})
                  && (o.vars.state != WaitForDropOffReady ==> o.vars.state == MoveToPos && o.vars.axis == Axis1))
            && (!v.pickingUp ==> o.vars.task.None? && o.vars.state == Default)
  {
  }

  /** IDLE enqueues this cycle's three tasks (each only if absent), advances `zyklus`
      through 0..5 cyclically, writes nothing and always returns to DEFAULT. */
  lemma IdleSeeding(v: Vars, i: Inputs)
    requires Inv(v) && v.state == Idle
    ensures var o := Step(v, i);
            && o.writes == map[]
            && o.vars.state == Default
            && o.vars.zyklus == (v.zyklus + 1) % 6
            && o.vars.queue == Enqueue(Enqueue(Enqueue(v.queue, Seeds[v.zyklus][0]).0, Seeds[v.zyklus][1]).0, Seeds[v.zyklus][2]).0
  {
    EnqueueThree(v.queue, Seeds[v.zyklus]);
  }

  /** Enqueueing a three-task batch is enqueueing its tasks one by one. */
  lemma EnqueueThree(q: Queue, ts: seq<Task>)
    requires |ts| == 3
    ensures EnqueueAll(q, ts) == Enqueue(Enqueue(Enqueue(q, ts[0]).0, ts[1]).0, ts[2]).0
  {
    var q1 := Enqueue(q, ts[0]).0;
    var q2 := Enqueue(q1, ts[1]).0;
    var q3 := Enqueue(q2, ts[2]).0;
    assert EnqueueAll(q3, ts[3..]) == q3;
    assert EnqueueAll(q2, ts[2..]) == q3;
    assert EnqueueAll(q1, ts[1..]) == q3;
  }

  // ---------------------------------------------------------------------------------
  // Several ticks

  /** The variables after running one tick per input record. */
  function Run(v: Vars, ins: seq<Inputs>): (r: Vars)
    requires Inv(v)
    ensures Inv(r)
    decreases |ins|
  {
    if ins == [] then v
    else
      StepKeepsInv(v, ins[0]);
      Run(Step(v, ins[0]).vars, ins[1..])
  }

  /** The writes of each of those ticks. */
  function Trace(v: Vars, ins: seq<Inputs>): (ws: seq<Writes>)
    requires Inv(v)
    ensures |ws| == |ins|
    decreases |ins|
  {
    if ins == [] then []
    else
      StepKeepsInv(v, ins[0]);
      [Step(v, ins[0]).writes] + Trace(Step(v, ins[0]).vars, ins[1..])
  }

  /** An approval wait whose endpoint is the storage: the pick-up wait (only ever
      entered for the storage) or the drop-off wait of a task delivered to it. */
  ghost predicate AwaitsStorage(v: Vars)
    requires Inv(v)
  {
    v.state == WaitForPickupReady || (v.state == WaitForDropOffReady && v.task.value.dropoff == "storage")
  }

  /** While the storage keeps answering 0, a request already sent is not repeated and
      the gripper keeps waiting, in either approval wait. */
  lemma {:induction false} Polling(v: Vars, ins: seq<Inputs>)
    requires Inv(v) && AwaitsStorage(v) && v.first
    requires forall k :: 0 <= k < |ins| ==> ins[k].inputWord1 == 0
    ensures Run(v, ins) == v
    ensures forall k :: 0 <= k < |ins| ==> Trace(v, ins)[k] == map[]
    decreases |ins|
  {
    if ins != [] {
      Polling(Step(v, ins[0]).vars, ins[1..]);
    }
  }

  /** The storage request is written exactly once per entry into either approval wait:
      on the first tick, with the task's slot, however long the approval takes. */
  lemma {:induction false} RequestWrittenOnce(v: Vars, ins: seq<Inputs>)
    requires Inv(v) && AwaitsStorage(v) && !v.first
    requires forall k :: 0 <= k < |ins| ==> ins[k].inputWord1 == 0
    ensures Run(v, ins) == if ins == [] then v else v.(first := true)
    ensures forall k :: 0 <= k < |ins| ==> (OutputWord(1) in Trace(v, ins)[k] <==> k == 0)
    ensures ins != [] ==> Trace(v, ins)[0][OutputWord(1)] == v.task.value.slot
  {
    if ins != [] {
      var v1 := Step(v, ins[0]).vars;
      assert v1 == v.(first := true);
      Polling(v1, ins[1..]);
      assert Trace(v, ins) == [Step(v, ins[0]).writes] + Trace(v1, ins[1..]);
    }
  }

  /** GRAP: for its first 50 ticks the compressor `O_13` is held on, the storage
      request is cleared when the pick-up is at the storage, the delay counts up and
      the magnet stays off, whatever is read. */
  lemma {:induction false} GrapDwell(v: Vars, ins: seq<Inputs>)
    requires Inv(v) && v.state == Grap && v.delay + |ins| <= 50
    ensures Run(v, ins) == if ins == [] then v else v.(first := false, delay := v.delay + |ins|)
    ensures forall k :: 0 <= k < |ins| ==>
              Trace(v, ins)[k] == (if v.task.value.pickup == "storage" then map[OutputWord(1) := 0] else map[])[O(13) := 1]
    decreases |ins|
  {
    if ins != [] {
      var v1 := Step(v, ins[0]).vars;
      GrapDwell(v1, ins[1..]);
      assert Trace(v, ins) == [Step(v, ins[0]).writes] + Trace(v1, ins[1..]);
    }
  }

  /** DROP: for its first 50 ticks the magnet `O_14` is held off, the storage request
      is cleared when the drop-off is at the storage, the delay counts up and the arm
      stays down, whatever is read. */
  lemma {:induction false} DropDwell(v: Vars, ins: seq<Inputs>)
    requires Inv(v) && v.state == Drop && v.delay + |ins| <= 50
    ensures Run(v, ins) == if ins == [] then v else v.(first := false, delay := v.delay + |ins|)
    ensures forall k :: 0 <= k < |ins| ==>
              Trace(v, ins)[k] == (if v.task.value.dropoff == "storage" then map[OutputWord(1) := 0] else map[])[O(14) := 0]
    decreases |ins|
  {
    if ins != [] {
      var v1 := Step(v, ins[0]).vars;
      DropDwell(v1, ins[1..]);
      assert Trace(v, ins) == [Step(v, ins[0]).writes] + Trace(v1, ins[1..]);
    }
  }

  /** The tick that ends a GRAP or DROP dwell: the magnet is switched on after GRAP (and
      stays off after DROP) and the arm goes UP_AND_IN with the delay reset. */
  lemma GrapDropDone(v: Vars, i: Inputs)
    requires Inv(v) && v.state in {Grap, Drop} && v.delay >= 50
    ensures var o := Step(v, i);
            && o.vars == v.(first := false, delay := 0, state := UpAndIn)
            && O(14) in o.writes && (o.writes[O(14)] == 1 <==> v.state == Grap)
            && (v.state == Grap ==> O(13) in o.writes && o.writes[O(13)] == 1)
  {
  }

  // ---------------------------------------------------------------------------------
  // The controller as the source runs it: variables updated in place every tick

  class Cell {
    var state: State
    var task: Option<Task>
    var pickingUp: bool
    var zyklus: int
    var delay: int
    var first: bool
    var axis: AxisState
    var position: Option<Target>
    var items: seq<Task>
    var members: set<Task>

    function Snapshot(): Vars
      reads this
    {
      Vars(state, task, pickingUp, zyklus, delay, first, axis, position, Queue(items, members))
    }

    ghost predicate Valid()
      reads this
    {
      Inv(Snapshot())
    }

    /** The start-up branch of the control function (its output writes are those of
        `ProgramEnd`). */
    constructor ()
      ensures Snapshot() == Initial && Valid()
    {
      state, task, pickingUp, zyklus, delay := Default, None, true, 0, 0;
      first, axis, position := false, Axis1, None;
      items, members := [], {};
      new;
      InitialInv();
    }

    /** `add_task_to_queue`. */
    method AddTask(t: Task) returns (added: bool)
      requires Valid() && ValidTask(t)
      modifies this
      ensures Valid()
      ensures (Snapshot().queue, added) == Enqueue(old(Snapshot().queue), t)
      ensures Snapshot() == old(Snapshot()).(queue := Snapshot().queue)
    {
      EnqueueKeepsConsistent(Queue(items, members), t);
      if t !in members {
        items := items + [t];
        members := members + {t};
        added := true;
      } else {
        added := false;
      }
    }

    /** The axis sub-state of MOVE_TO_POS. */
    method MoveAxis(i: Inputs) returns (w: Writes)
      requires Valid() && state == MoveToPos
      modifies this
      ensures Snapshot() == StepMove(old(Snapshot()), i).vars && w == StepMove(old(Snapshot()), i).writes
    {
      var target := position.value;
      var current, goal, f, b;
      if axis == Axis1 {
        current, goal, f, b := i.counter9, target.a1, 12, 11;
      } else if axis == Axis2 {
        current, goal, f, b := i.counter7, target.a2, 10, 9;
      } else {
        current, goal, f, b := i.counter5, target.a3, 8, 7;
      }
      if Axis.Abs(current - goal) <= Axis.Tolerance {
        w := map[O(f) := 0, O(b) := 0];
        if axis == Axis1 {
          axis := Axis2;
        } else if axis == Axis2 {
          axis := Axis3;
        } else if delay < 50 {
          delay := delay + 1;
        } else {
          delay := 0;
          state := if pickingUp then Grap else Drop;
        }
      } else if current < goal {
        w := map[O(f) := 1, O(b) := 0];
      } else {
        w := map[O(f) := 0, O(b) := 1];
      }
    }

    /** The approval wait on the storage, shared by both legs. */
    method RequestStorage(approval: int) returns (w: Writes)
      requires task.Some?
      modifies this
      ensures Snapshot() == StorageRequest(old(Snapshot()), approval).vars
      ensures w == StorageRequest(old(Snapshot()), approval).writes
    {
      w := map[];
      if !first {
        w := w[OutputWord(2) := 0][OutputWord(1) := task.value.slot];
        first := true;
      }
      if approval != 0 {
        first := false;
        state := MoveToPos;
        axis := Axis1;
      }
    }

    /** DEFAULT: homing, settle delay with counter reset, dispatch. */
    method Home(i: Inputs) returns (w: Writes)
      requires Valid() && state == Default
      modifies this
      ensures Snapshot() == StepDefault(old(Snapshot()), i).vars
      ensures w == StepDefault(old(Snapshot()), i).writes
    {
      w := map[];
      if !i.i1 {
        w := w[O(7) := 1];
      } else if !i.i2 {
        w := w[O(7) := 0][O(9) := 1];
      } else if !i.i3 {
        w := w[O(9) := 0][O(11) := 1];
      } else {
        w := w[O(11) := 0];
        if delay < 50 {
          delay := delay + 1;
        } else if delay == 50 {
          w := w[Counter(5) := 0][Counter(7) := 0][Counter(9) := 0];
          delay := delay + 1;
        } else if delay < 100 {
          delay := delay + 1;
        } else {
          delay := 0;
          if items != [] {
            var t := items[0];
            assert t in items;
            items, members := items[1..], members - {t};
            task := Some(t);
            pickingUp := true;
            position := Some(Positions[t.pickup]);
            if t.pickup == "storage" {
              first := false;
              state := WaitForPickupReady;
            } else {
              state := MoveToPos;
              axis := Axis1;
            }
          } else {
            state := Idle;
          }
        }
      }
    }

    /** IDLE: seed three tasks for this `zyklus`. */
    method Seed() returns (w: Writes)
      requires Valid() && state == Idle
      modifies this
      ensures Snapshot() == StepIdle(old(Snapshot())).vars
      ensures w == StepIdle(old(Snapshot())).writes
    {
      ghost var v := Snapshot();
      var ts := Seeds[zyklus];
      SeedsValid(zyklus);
      var added := AddTask(ts[0]);
      ghost var v1 := Snapshot();
      added := AddTask(ts[1]);
      ghost var v2 := Snapshot();
      added := AddTask(ts[2]);
      EnqueueThree(v.queue, ts);
      assert Snapshot().queue == EnqueueAll(v.queue, ts);
      zyklus := if zyklus == 5 then 0 else zyklus + 1;
      state := Default;
      w := map[];
    }

    /** UP_AND_IN: retract, settle, release the pallet, next leg or task done. */
    method Retract(i: Inputs) returns (w: Writes)
      requires Valid() && state == UpAndIn
      modifies this
      ensures Snapshot() == StepUpAndIn(old(Snapshot()), i).vars
      ensures w == StepUpAndIn(old(Snapshot()), i).writes
    {
      w := map[];
      if !i.i1 {
        w := w[O(7) := 1];
      } else if !i.i2 {
        w := w[O(7) := 0][O(9) := 1];
      } else {
        w := w[O(9) := 0];
        if delay < 50 {
          delay := delay + 1;
        } else if delay == 50 {
          w := w[Counter(5) := 0][Counter(7) := 0];
          delay := delay + 1;
        } else if delay < 100 {
          delay := delay + 1;
        } else {
          delay := 0;
          var t := task.value;
          if t.pickup == "storage" {
            w := w[OutputWord(2) := 1];
          }
          if t.dropoff == "storage" {
            w := w[OutputWord(2) := 1];
          }
          if pickingUp {
            pickingUp := false;
            position := Some(Positions[t.dropoff]);
            first := false;
            if t.dropoff in {"storage", "multi_drop_off"} {
              state := WaitForDropOffReady;
            } else {
              state := MoveToPos;
              axis := Axis1;
            }
          } else {
            task := None;
            state := Default;
          }
        }
      }
    }

    /** WAIT_FOR_PICKUP_READY and WAIT_FOR_DROP_OFF_READY. */
    method AwaitApproval(i: Inputs) returns (w: Writes)
      requires Valid() && (state == WaitForPickupReady || state == WaitForDropOffReady)
      modifies this
      ensures Snapshot() == Step(old(Snapshot()), i).vars
      ensures w == Step(old(Snapshot()), i).writes
    {
      w := map[];
      if state == WaitForPickupReady {
        if task.Some? && task.value.pickup == "storage" {
          w := RequestStorage(i.inputWord1);
        }
      } else if task.Some? && task.value.dropoff == "storage" {
        w := RequestStorage(i.inputWord1);
      } else if task.Some? && task.value.dropoff == "multi_drop_off" {
        if i.inputWord1I05 == 1 {
          first := false;
          state := MoveToPos;
          axis := Axis1;
        }
      }
    }

    /** GRAP. */
    method Grip() returns (w: Writes)
      requires state == Grap
      modifies this
      ensures Snapshot() == StepGrap(old(Snapshot())).vars
      ensures w == StepGrap(old(Snapshot())).writes
    {
      w := map[];
      if task.Some? && task.value.pickup == "storage" {
        w := w[OutputWord(1) := 0];
      }
      first := false;
      w := w[O(13) := 1];
      if delay < 50 {
        delay := delay + 1;
      } else {
        w := w[O(14) := 1];
        delay := 0;
        state := UpAndIn;
      }
    }

    /** DROP. */
    method Release() returns (w: Writes)
      requires state == Drop
      modifies this
      ensures Snapshot() == StepDrop(old(Snapshot())).vars
      ensures w == StepDrop(old(Snapshot())).writes
    {
      w := map[];
      if task.Some? && task.value.dropoff == "storage" {
        w := w[OutputWord(1) := 0];
      }
      first := false;
      w := w[O(14) := 0];
      if delay < 50 {
        delay := delay + 1;
      } else {
        delay := 0;
        state := UpAndIn;
      }
    }

    /** One call of `cycleprogram` after start-up. */
    method Tick(i: Inputs) returns (w: Writes)
      requires Valid()
      modifies this
      ensures Valid()
      ensures Snapshot() == Step(old(Snapshot()), i).vars
      ensures w == Step(old(Snapshot()), i).writes
    {
      StepKeepsInv(Snapshot(), i);
      w := map[];
      if state == Default {
        w := Home(i);
      } else if state == WaitForPickupReady || state == WaitForDropOffReady {
        w := AwaitApproval(i);
      } else if state == Idle {
        w := Seed();
      } else if state == MoveToPos {
        w := MoveAxis(i);
      } else if state == Grap {
        w := Grip();
      } else if state == UpAndIn {
        w := Retract(i);
      } else {
        w := Release();
      }
    }
  }
}

=== FILE: modbus_warehouse.dfy ===
/** The Modbus variant of the high-bay warehouse shuttle: a stepped state machine on top
    of the `RobotCommander` rules that fetches a pallet from the slot the Modbus master
    names, sets it on the belt, waits for the workpiece to be taken, takes the pallet
    back and returns it to its slot. */
module ModbusWarehouse {
  import opened Io
  import opened Commander

  datatype State =
    | Default | Idle | MoveStoragePickup | MoveBeltDropoff
    | BeltFront | BeltBack | BeltPickup | MoveStorageDropoff

  /** The variables the control function keeps between ticks. `pos` is 0 in the source
      until IDLE chooses a slot; it is only read after that. */
  datatype Vars = Vars(
    state: State,
    step: int,
    delay: int,
    pos: Coord,
    first: bool,
    first2: bool)

  /** One tick's reads: the sensors and counters, the slot request word `Input_1` and
      the "workpiece taken" word `Input_2`. */
  datatype Inputs = Inputs(s: Sensors, input1: int, input2: int)

  datatype Outcome = Outcome(vars: Vars, writes: Writes)

  /** The variables right after the start-up branch. */
  const Initial: Vars := Vars(Default, 0, 0, Coord(0, 0), false, false)

  /** A request in IDLE names a slot of the table (any other nonzero word is a KeyError
      in the source). */
  predicate Admissible(v: Vars, i: Inputs)
  {
    v.state == Idle && i.input1 != 0 ==> i.input1 in Slots
  }

  /** The two storage legs: fetching a pallet and returning it. */
  predicate StorageLeg(st: State)
  {
    st == MoveStoragePickup || st == MoveStorageDropoff
  }

  // ---------------------------------------------------------------------------------
  // Delay patterns

  /** "reset, then wait": reset the counters once, then count `delay` to 100. Done when
      the wait is over, with `delay` and `first` cleared. */
  function Settle(v: Vars): (Vars, Writes, bool)
  {
    if !v.first then (v.(first := true), ResetCounters(), false)
    else if v.delay < 100 then (v.(delay := v.delay + 1), map[], false)
    else (v.(delay := 0, first := false), map[], true)
  }

  /** "wait after completion": count `delay` past 100, then clear it. */
  function Hold(v: Vars): (Vars, bool)
  {
    if v.delay <= 100 then (v.(delay := v.delay + 1), false)
    else (v.(delay := 0), true)
  }

  // ---------------------------------------------------------------------------------
  // One tick, state by state

  /** DEFAULT: home the shuttle, then wait before going idle. */
  function StepDefault(v: Vars, i: Inputs): Outcome
  {
    var c := Home(i.s, true);
    if !c.done then Outcome(v, c.writes)
    else
      var (h, done) := Hold(v);
      Outcome(if done then h.(state := Idle) else h, c.writes)
  }

  /** IDLE: wait for the master to name a slot. */
  function StepIdle(v: Vars, i: Inputs): Outcome
    requires v.state == Idle && Admissible(v, i)
  {
    if i.input1 != 0 then Outcome(v.(pos := Slots[i.input1], state := MoveStoragePickup), map[])
    else Outcome(v, map[])
  }

  /** The storage target of a leg: above the pallet to lift it out (+50), below the
      shelf to set it down (-150). */
  function StorageTarget(pos: Coord, dropoff: bool): Coord
  {
    if dropoff then Coord(pos.x, pos.y - 150) else Coord(pos.x, pos.y + 50)
  }

  /** MOVE_STORAGE_PICKUP and MOVE_STORAGE_DROPOFF: reset and wait (step 0), drive to
      the storage target and reset and wait (1), extend and reset and wait (2), lift
      the pallet or set it down (3), retract (4), leave (5). */
  function StepStorage(v: Vars, i: Inputs): Outcome
    requires StorageLeg(v.state)
  {
    var dropoff := v.state == MoveStorageDropoff;
    if v.step == 0 then
      var (r, w, done) := Settle(v);
      Outcome(if done then r.(step := 1) else r, w)
    else if v.step == 1 then
      if !v.first2 then
        var t := StorageTarget(v.pos, dropoff);
        var c := Lager(i.s, t.x, t.y);
        Outcome(if c.done then v.(first2 := true) else v, c.writes)
      else
        var (r, w, done) := Settle(v);
        Outcome(if done then r.(step := 2, first2 := false) else r, w)
    else if v.step == 2 then
      var c := Out(i.s);
      if !c.done then Outcome(v, c.writes)
      else
        var (r, w, done) := Settle(v);
        Outcome(if done then r.(step := 3) else r, c.writes + w)
    else if v.step == 3 then
      var c := if dropoff then Down(i.s, DownTarget) else Lift(i.s, LiftMargin);
      if !c.done then Outcome(v, c.writes)
      else
        var (h, done) := Hold(v);
        Outcome(if done then h.(step := 4) else h, c.writes)
    else if v.step == 4 then
      var c := In(i.s);
      if !c.done then Outcome(v, c.writes)
      else
        var (h, done) := Hold(v);
        Outcome(if done then h.(step := 5) else h, c.writes)
    else if v.step == 5 then
      Outcome(v.(step := 0, state := if dropoff then Default else MoveBeltDropoff), map[])
    else Outcome(v, map[])
  }

  /** The depth the arm lowers the pallet onto the belt. */
  const BeltDepth: int := 1400

  /** MOVE_BELT_DROPOFF: home to the belt (step 0), extend and reset and wait (1), lower
      the pallet onto the belt (2). */
  function StepBeltDropoff(v: Vars, i: Inputs): Outcome
  {
    if v.step == 0 then
      var c := Home(i.s, true);
      if !c.done then Outcome(v, c.writes)
      else
        var (h, done) := Hold(v);
        Outcome(if done then h.(step := 1) else h, c.writes)
    else if v.step == 1 then
      var c := Out(i.s);
      if !c.done then Outcome(v, c.writes)
      else
        var (r, w, done) := Settle(v);
        Outcome(if done then r.(step := 2) else r, c.writes + w)
    else if v.step == 2 then
      var c := Down(i.s, BeltDepth);
      if !c.done then Outcome(v, c.writes)
      else
        var (h, done) := Hold(v);
        Outcome(if done then h.(step := 0, state := BeltFront) else h, c.writes)
    else Outcome(v, map[])
  }

  /** BELT_FRONT: run the belt forward (`O_1`) until `I_2`, then until `I_3` plus 26
      ticks, showing `Output_1`; leave once the master reports the workpiece taken. */
  function StepBeltFront(v: Vars, i: Inputs): Outcome
  {
    var (v1, w1) :=
      if !i.s.i2 then (v, map[O(1) := 1])
      else if !i.s.i3 then
        if v.delay <= 25 then (v.(delay := v.delay + 1), map[Output(1) := 1])
        else (v.(delay := 0), map[O(1) := 0, Output(1) := 1])
      else (v, map[]);
    if i.input2 == 1 then Outcome(v1.(state := BeltBack), w1[Output(1) := 0])
    else Outcome(v1, w1)
  }

  /** BELT_BACK: run the belt backwards (`O_2`) while `I_3` is clear, and stop it and
      leave once `I_3` is interrupted and `I_2` clear. */
  function StepBeltBack(v: Vars, i: Inputs): Outcome
  {
    if !i.s.i3 then Outcome(v, map[O(2) := 1])
    else if !i.s.i2 then Outcome(v.(state := BeltPickup), map[O(2) := 0])
    else Outcome(v, map[])
  }

  /** BELT_PICKUP: home without retracting first (step 0), then retract (1). */
  function StepBeltPickup(v: Vars, i: Inputs): Outcome
  {
    if v.step == 0 then
      var c := Home(i.s, false);
      Outcome(if c.done then v.(step := 1) else v, c.writes)
    else if v.step == 1 then
      var c := In(i.s);
      Outcome(if c.done then v.(step := 0, state := MoveStorageDropoff) else v, c.writes)
    else Outcome(v, map[])
  }

  /** One call of the control function. */
  function Step(v: Vars, i: Inputs): Outcome
    requires Admissible(v, i)
  {
    match v.state
    case Default => StepDefault(v, i)
    case Idle => StepIdle(v, i)
    case MoveStoragePickup => StepStorage(v, i)
    case MoveBeltDropoff => StepBeltDropoff(v, i)
    case BeltFront => StepBeltFront(v, i)
    case BeltBack => StepBeltBack(v, i)
    case BeltPickup => StepBeltPickup(v, i)
    case MoveStorageDropoff => StepStorage(v, i)
  }

  // ---------------------------------------------------------------------------------
  // Invariant

  /** Every reachable state: the step counter stays within the steps of its state and is
      0 outside the stepped states; the counters stay bounded; the two latches are set
      only inside the step that uses them; a slot has been chosen whenever the shuttle
      is out of DEFAULT and IDLE, and IDLE is entered with a cleared delay. */
  ghost predicate Inv(v: Vars)
  {
    && 0 <= v.step <= 5
    && (v.state in {Default, Idle, BeltFront, BeltBack} ==> v.step == 0)
    && (v.state == MoveBeltDropoff ==> v.step <= 2)
    && (v.state == BeltPickup ==> v.step <= 1)
    && 0 <= v.delay <= 101
    && (v.state == Idle ==> v.delay == 0)
    && (v.first2 ==> StorageLeg(v.state) && v.step == 1)
    && (v.first ==> (StorageLeg(v.state) && v.step <= 2) || (v.state == MoveBeltDropoff && v.step == 1))
    && (v.state != Default && v.state != Idle ==> v.pos in Slots.Values)
  }

  lemma InitialInv()
    ensures Inv(Initial)
  {
  }

  lemma StorageKeepsInv(v: Vars, i: Inputs)
    requires Inv(v) && StorageLeg(v.state)
    ensures Inv(StepStorage(v, i).vars)
  {
  }

  lemma BeltDropoffKeepsInv(v: Vars, i: Inputs)
    requires Inv(v) && v.state == MoveBeltDropoff
    ensures Inv(StepBeltDropoff(v, i).vars)
  {
  }

  /** Every step keeps the invariant. */
  lemma StepKeepsInv(v: Vars, i: Inputs)
    requires Inv(v) && Admissible(v, i)
    ensures Inv(Step(v, i).vars)
  {
    match v.state
    case MoveStoragePickup => StorageKeepsInv(v, i);
    case MoveStorageDropoff => StorageKeepsInv(v, i);
    case MoveBeltDropoff => BeltDropoffKeepsInv(v, i);
    case Idle =>
      if i.input1 != 0 {
        assert Slots[i.input1] in Slots.Values;
      }
    case _ =>
  }

  // ---------------------------------------------------------------------------------
  // Properties

  /** The fixed order of the work cycle. */
  function Next(st: State): State
  {
    match st
    case Default => Idle
    case Idle => MoveStoragePickup
    case MoveStoragePickup => MoveBeltDropoff
    case MoveBeltDropoff => BeltFront
    case BeltFront => BeltBack
    case BeltBack => BeltPickup
    case BeltPickup => MoveStorageDropoff
    case MoveStorageDropoff => Default
  }

  /** The shuttle only ever stays or moves on to the next state of the cycle; every
      state is entered at step 0, and inside a state the step only stays or moves
      one on. */
  lemma CycleOrder(v: Vars, i: Inputs)
    requires Inv(v) && Admissible(v, i)
    ensures var r := Step(v, i).vars;
            r.state == v.state || r.state == Next(v.state)
    ensures var r := Step(v, i).vars;
            r.state != v.state ==> r.step == 0
    ensures var r := Step(v, i).vars;
            r.state == v.state ==> r.step == v.step || r.step == v.step + 1
  {
  }

  /** DEFAULT goes idle only once homing reports done and more than 100 further ticks
      have been counted; the delay is then back at 0. */
  lemma DefaultToIdle(v: Vars, i: Inputs)
    requires v.state == Default
    ensures Step(v, i).vars.state == Idle <==> Home(i.s, true).done && v.delay > 100
    ensures Step(v, i).vars.state == Idle ==> Step(v, i).vars.delay == 0
    ensures Step(v, i).writes == Home(i.s, true).writes
  {
  }

  /** IDLE: a nonzero request word selects that slot and starts the pickup leg; a zero
      word leaves every variable as it is and writes nothing. */
  lemma IdleSelectsSlot(v: Vars, i: Inputs)
    requires v.state == Idle && Admissible(v, i)
    ensures i.input1 != 0 ==>
              Step(v, i).vars == v.(pos := Slots[i.input1], state := MoveStoragePickup)
    ensures i.input1 == 0 ==> Step(v, i) == Outcome(v, map[])
  {
  }

  /** The storage drive of a leg goes to the chosen slot's column, 50 pulses above its
      row when fetching and 150 below it when returning; it moves on only when both
      axes are there. */
  lemma StorageTargets(v: Vars, i: Inputs)
    requires StorageLeg(v.state) && v.step == 1 && !v.first2
    ensures v.state == MoveStoragePickup ==>
              Step(v, i).writes == Lager(i.s, v.pos.x, v.pos.y + 50).writes
    ensures v.state == MoveStorageDropoff ==>
              Step(v, i).writes == Lager(i.s, v.pos.x, v.pos.y - 150).writes
    ensures Step(v, i).vars.first2 <==> i.s.c5 >= v.pos.x && i.s.c7 >= StorageTarget(v.pos, v.state == MoveStorageDropoff).y
  {
  }

  /** Fetching lifts the pallet, returning sets it down; each leg leaves after step 5,
      the pickup leg for the belt and the drop-off leg for DEFAULT. */
  lemma StorageLegs(v: Vars, i: Inputs)
    requires StorageLeg(v.state) && v.step == 3
    ensures v.state == MoveStoragePickup ==> Step(v, i).writes == Lift(i.s, LiftMargin).writes
    ensures v.state == MoveStorageDropoff ==> Step(v, i).writes == Down(i.s, DownTarget).writes
  {
  }

  lemma StorageExits(v: Vars, i: Inputs)
    requires StorageLeg(v.state)
    ensures Step(v, i).vars.state != v.state <==> v.step == 5
    ensures v.step == 5 && v.state == MoveStoragePickup ==> Step(v, i).vars.state == MoveBeltDropoff
    ensures v.step == 5 && v.state == MoveStorageDropoff ==> Step(v, i).vars.state == Default
  {
  }

  /** BELT_FRONT is left exactly when the master reports the workpiece taken, and the
      ready word `Output_1` is then written 0. The belt is switched off only on the tick
      the 26-tick run-on ends, and the run-on count is cleared only then: a workpiece
      reported taken earlier leaves the state with the count carried over and the belt
      not switched off. */
  lemma BeltFrontExit(v: Vars, i: Inputs)
    requires v.state == BeltFront
    ensures Step(v, i).vars.state == BeltBack <==> i.input2 == 1
    ensures i.input2 == 1 ==> Output(1) in Step(v, i).writes && Step(v, i).writes[Output(1)] == 0
    ensures O(1) in Step(v, i).writes && Step(v, i).writes[O(1)] == 0 <==>
              i.s.i2 && !i.s.i3 && v.delay > 25
    ensures Step(v, i).vars.delay ==
              if i.s.i2 && !i.s.i3 then (if v.delay <= 25 then v.delay + 1 else 0) else v.delay
  {
  }

  /** BELT_BACK runs the belt backwards until the pallet is back under the arm (`I_3`)
      with the front barrier `I_2` clear, then switches it off and goes on to pick the
      pallet up; with both barriers interrupted it waits and writes nothing. */
  lemma BeltBackExit(v: Vars, i: Inputs)
    requires v.state == BeltBack
    ensures Step(v, i).vars.state == BeltPickup <==> i.s.i3 && !i.s.i2
    ensures !i.s.i3 ==> Step(v, i).writes == map[O(2) := 1]
    ensures Step(v, i).vars.state == BeltPickup ==> Step(v, i).writes == map[O(2) := 0]
    ensures i.s.i3 && i.s.i2 ==> Step(v, i).vars == v && Step(v, i).writes == map[]
  {
  }

  /** The counters are reset only inside the storage legs and while extending over the
      belt, never while homing or on the belt. */
  lemma ResetsOnlyWhenExtending(v: Vars, i: Inputs)
    requires Inv(v) && Admissible(v, i)
    requires Counter(5) in Step(v, i).writes
    ensures StorageLeg(v.state) || (v.state == MoveBeltDropoff && v.step == 1)
    ensures v.state == MoveBeltDropoff ==> i.s.i9
  {
  }

  /** The run of the control function over a sequence of ticks. */
  function Run(v: Vars, ins: seq<Inputs>): Vars
    decreases |ins|
  {
    if ins == [] || !Admissible(v, ins[0]) then v else Run(Step(v, ins[0]).vars, ins[1..])
  }

  /** Every run from the start-up state keeps the invariant. */
  lemma {:induction false} RunKeepsInv(v: Vars, ins: seq<Inputs>)
    requires Inv(v)
    ensures Inv(Run(v, ins))
    decreases |ins|
  {
    if ins != [] && Admissible(v, ins[0]) {
      StepKeepsInv(v, ins[0]);
      RunKeepsInv(Step(v, ins[0]).vars, ins[1..]);
    }
  }

  // ---------------------------------------------------------------------------------
  // The controller

  class Shuttle {
    var state: State
    var step: int
    var delay: int
    var pos: Coord
    var first: bool
    var first2: bool

    function Snapshot(): Vars
      reads this
    {
      Vars(state, step, delay, pos, first, first2)
    }

    ghost predicate Valid()
      reads this
    {
      Inv(Snapshot())
    }

    /** The start-up branch of the control function. */
    constructor ()
      ensures Snapshot() == Initial && Valid()
    {
      state, step, delay, pos, first, first2 := Default, 0, 0, Coord(0, 0), false, false;
    }

    /** The reset-then-wait pattern; `done` once the wait is over. */
    method ResetThenWait() returns (w: Writes, done: bool)
      modifies this`delay, this`first
      ensures (Snapshot(), w, done) == Settle(old(Snapshot()))
    {
      w, done := map[], false;
      if !first {
        w := ResetCounters();
        first := true;
      } else if delay < 100 {
        delay := delay + 1;
      } else {
        delay := 0;
        first := false;
        done := true;
      }
    }

    /** The wait-after-completion pattern; `done` once it is over. */
    method HoldDelay() returns (done: bool)
      modifies this`delay
      ensures (Snapshot(), done) == Hold(old(Snapshot()))
    {
      done := false;
      if delay <= 100 {
        delay := delay + 1;
      } else {
        delay := 0;
        done := true;
      }
    }

    method StorageStep(i: Inputs) returns (w: Writes)
      requires StorageLeg(state)
      modifies this
      ensures Snapshot() == StepStorage(old(Snapshot()), i).vars
      ensures w == StepStorage(old(Snapshot()), i).writes
    {
      var dropoff := state == MoveStorageDropoff;
      w := map[];
      if step == 0 {
        var done;
        w, done := ResetThenWait();
        if done {
          step := 1;
        }
      } else if step == 1 {
        if !first2 {
          var t := StorageTarget(pos, dropoff);
          var c := Lager(i.s, t.x, t.y);
          w := c.writes;
          if c.done {
            first2 := true;
          }
        } else {
          var done;
          w, done := ResetThenWait();
          if done {
            step := 2;
            first2 := false;
          }
        }
      } else if step == 2 {
        var c := Out(i.s);
        w := c.writes;
        if c.done {
          var sw, done := ResetThenWait();
          w := w + sw;
          if done {
            step := 3;
          }
        }
      } else if step == 3 {
        var c := if dropoff then Down(i.s, DownTarget) else Lift(i.s, LiftMargin);
        w := c.writes;
        if c.done {
          var done := HoldDelay();
          if done {
            step := 4;
          }
        }
      } else if step == 4 {
        var c := In(i.s);
        w := c.writes;
        if c.done {
          var done := HoldDelay();
          if done {
            step := 5;
          }
        }
      } else if step == 5 {
        step := 0;
        state := if dropoff then Default else MoveBeltDropoff;
      }
    }

    method BeltDropoffStep(i: Inputs) returns (w: Writes)
      requires state == MoveBeltDropoff
      modifies this
      ensures Snapshot() == StepBeltDropoff(old(Snapshot()), i).vars
      ensures w == StepBeltDropoff(old(Snapshot()), i).writes
    {
      w := map[];
      if step == 0 {
        var c := Home(i.s, true);
        w := c.writes;
        if c.done {
          var done := HoldDelay();
          if done {
            step := 1;
          }
        }
      } else if step == 1 {
        var c := Out(i.s);
        w := c.writes;
        if c.done {
          var sw, done := ResetThenWait();
          w := w + sw;
          if done {
            step := 2;
          }
        }
      } else if step == 2 {
        var c := Down(i.s, BeltDepth);
        w := c.writes;
        if c.done {
          var done := HoldDelay();
          if done {
            step := 0;
            state := BeltFront;
          }
        }
      }
    }

    method BeltStep(i: Inputs) returns (w: Writes)
      requires state == BeltFront || state == BeltBack || state == BeltPickup
      modifies this
      ensures Snapshot() == Step(old(Snapshot()), i).vars
      ensures w == Step(old(Snapshot()), i).writes
    {
      w := map[];
      if state == BeltFront {
        if !i.s.i2 {
          w := w[O(1) := 1];
        } else if !i.s.i3 {
          if delay <= 25 {
            delay := delay + 1;
          } else {
            delay := 0;
            w := w[O(1) := 0];
          }
          w := w[Output(1) := 1];
        }
        if i.input2 == 1 {
          w := w[Output(1) := 0];
          state := BeltBack;
        }
      } else if state == BeltBack {
        if !i.s.i3 {
          w := w[O(2) := 1];
        } else if !i.s.i2 {
          w := w[O(2) := 0];
          state := BeltPickup;
        }
      } else if step == 0 {
        var c := Home(i.s, false);
        w := c.writes;
        if c.done {
          step := 1;
        }
      } else if step == 1 {
        var c := In(i.s);
        w := c.writes;
        if c.done {
          step := 0;
          state := MoveStorageDropoff;
        }
      }
    }

    /** One call of the control function. */
    method Tick(i: Inputs) returns (w: Writes)
      requires Valid() && Admissible(Snapshot(), i)
      modifies this
      ensures Valid()
      ensures Snapshot() == Step(old(Snapshot()), i).vars
      ensures w == Step(old(Snapshot()), i).writes
    {
      StepKeepsInv(Snapshot(), i);
      match state
      case Default =>
        var c := Home(i.s, true);
        w := c.writes;
        if c.done {
          var done := HoldDelay();
          if done {
            state := Idle;
          }
        }
      case Idle =>
        w := map[];
        if i.input1 != 0 {
          pos := Slots[i.input1];
          state := MoveStoragePickup;
        }
      case MoveStoragePickup => w := StorageStep(i);
      case MoveStorageDropoff => w := StorageStep(i);
      case MoveBeltDropoff => w := BeltDropoffStep(i);
      case BeltFront => w := BeltStep(i);
      case BeltBack => w := BeltStep(i);
      case BeltPickup => w := BeltStep(i);
    }

    /** `programend`. */
    method Stop() returns (w: Writes)
      ensures w == Shutdown()
    {
      w := Zeroes(Outputs({1, 2, 3, 4, 5, 6, 7, 8}));
    }
  }
}

=== FILE: opcua_gripper.dfy ===
/** The OPC UA variant of the 3-axis gripper cell: the same homing and queue dispatch as
    the Modbus cell, but no approval exchange, an axis step that only ever raises the
    driving output, and no behaviour at all in UP_AND_IN and IDLE. */
module OpcuaGripper {
  import opened Io
  import opened TaskQueue
  import opened Axis

  /** The pick-up location of the task names a known location (an unknown key is a
      KeyError in the source); the drop-off location is never looked up. */
  predicate ValidTask(t: Task)
  {
    t.pickup in Positions
  }

  datatype State = Default | MoveToPos | Grab | Drop | UpAndIn | Idle

  /** Every variable the control function reads back between ticks, the global queue
      and its membership set included. */
  datatype Vars = Vars(
    state: State,
    task: Option<Task>,
    pickingUp: bool,
    delay: int,
    axis: AxisState,
    position: Option<Target>,
    queue: Queue)

  /** The values read during one tick: the three home switches and the three axis
      counters. */
  datatype Inputs = Inputs(i1: bool, i2: bool, i3: bool, counter5: int, counter7: int, counter9: int)

  datatype Outcome = Outcome(vars: Vars, writes: Writes)

  /** The variables right after the start-up branch of the control function. */
  const Initial: Vars := Vars(Default, None, true, 0, Axis1, None, Empty)

  /** The invariant every reachable state keeps: queue and set agree, every queued task
      is valid, a task is held exactly outside DEFAULT and IDLE and is approached at its
      pick-up position, and the cell is always on the pick-up leg. */
  ghost predicate Inv(v: Vars)
  {
    && Consistent(v.queue)
    && (forall t :: t in v.queue.items ==> ValidTask(t))
    && 0 <= v.delay <= 100
    && (v.task.None? <==> v.state in {Default, Idle})
    && (v.task.Some? ==> ValidTask(v.task.value) && v.position == Some(Positions[v.task.value.pickup]))
    && v.pickingUp
  }

  /** The counter each axis is measured by. */
  function Reading(i: Inputs, a: AxisState): int
  {
    match a
    case Axis1 => i.counter9
    case Axis2 => i.counter7
    case Axis3 => i.counter5
  }

  // ---------------------------------------------------------------------------------
  // One tick, state by state

  /** DEFAULT: home axis 1, then 2, then 3; once all are home wait 50 ticks, reset the
      counters, wait up to 100, then start the queue head's pick-up or go IDLE. */
  function StepDefault(v: Vars, i: Inputs): Outcome
    requires Inv(v) && v.state == Default
  {
    if !i.i1 then Outcome(v, map[O(7) := 1])
    else if !i.i2 then Outcome(v, map[O(7) := 0, O(9) := 1])
    else if !i.i3 then Outcome(v, map[O(9) := 0, O(11) := 1])
    else
      var w := map[O(11) := 0];
      if v.delay < 50 then Outcome(v.(delay := v.delay + 1), w)
      else if v.delay == 50 then
        Outcome(v.(delay := v.delay + 1), w[Counter(5) := 0][Counter(7) := 0][Counter(9) := 0])
      else if v.delay < 100 then Outcome(v.(delay := v.delay + 1), w)
      else if v.queue.items != [] then
        var (t, q) := Dequeue(v.queue);
        assert t in v.queue.items;
        Outcome(v.(delay := 0, task := Some(t), queue := q, pickingUp := true,
                   position := Some(Positions[t.pickup]), state := MoveToPos, axis := Axis1), w)
      else Outcome(v.(delay := 0, state := Idle), w)
  }

  /** The outputs written for one axis command: both low in position, otherwise only the
      driving one, high; the opposite output is left as it is. */
  function AxisWrites(c: Command, a: AxisState): Writes
  {
    match c
    case InPosition => map[O(ForwardPin(a)) := 0, O(BackwardPin(a)) := 0]
    case Forward => map[O(ForwardPin(a)) := 1]
    case Backward => map[O(BackwardPin(a)) := 1]
  }

  /** MOVE_TO_POS: drive the current axis; an axis in position hands over to the next
      one; the last one waits 50 ticks and then grabs or drops. */
  function StepMove(v: Vars, i: Inputs): Outcome
    requires v.state == MoveToPos && v.position.Some?
  {
    var c := Drive(Reading(i, v.axis), Coordinate(v.position.value, v.axis));
    var w := AxisWrites(c, v.axis);
    if c != InPosition then Outcome(v, w)
    else match v.axis
      case Axis1 => Outcome(v.(axis := Axis2), w)
      case Axis2 => Outcome(v.(axis := Axis3), w)
      case Axis3 =>
        if v.delay < 50 then Outcome(v.(delay := v.delay + 1), w)
        else Outcome(v.(delay := 0, state := if v.pickingUp then Grab else Drop), w)
  }

  /** GRAB: compressor on every tick, after 50 ticks magnet on. */
  function StepGrab(v: Vars): Outcome
    requires v.state == Grab
  {
    if v.delay < 50 then Outcome(v.(delay := v.delay + 1), map[O(13) := 1])
    else Outcome(v.(delay := 0, state := UpAndIn), map[O(13) := 1, O(14) := 1])
  }

  /** DROP: magnet off every tick, after 50 ticks retract. */
  function StepDrop(v: Vars): Outcome
    requires v.state == Drop
  {
    if v.delay < 50 then Outcome(v.(delay := v.delay + 1), map[O(14) := 0])
    else Outcome(v.(delay := 0, state := UpAndIn), map[O(14) := 0])
  }

  /** One call of the control function after start-up; UP_AND_IN and IDLE have no
      branch. */
  function Step(v: Vars, i: Inputs): Outcome
    requires Inv(v)
  {
    match v.state
    case Default => StepDefault(v, i)
    case MoveToPos => StepMove(v, i)
    case Grab => StepGrab(v)
    case Drop => StepDrop(v)
    case UpAndIn => Outcome(v, map[])
    case Idle => Outcome(v, map[])
  }

  // ---------------------------------------------------------------------------------
  // The invariant

  lemma InitialInv()
    ensures Inv(Initial)
  {
    EmptyConsistent();
  }

  /** Every tick keeps the invariant; since `is_picking_up` is never cleared, DROP is
      never entered. */
  lemma StepKeepsInv(v: Vars, i: Inputs)
    requires Inv(v)
    ensures Inv(Step(v, i).vars)
    ensures v.state != Drop ==> Step(v, i).vars.state != Drop
  {
    if v.state == Default && v.queue.items != [] {
      DequeueKeepsConsistent(v.queue);
    }
  }

  // ---------------------------------------------------------------------------------
  // Properties of one tick

  /** Dispatch takes the oldest queued task, removes it from the queue and from the
      set, and drives straight to its pick-up position with axis 1 first; with an empty
      queue the robot goes IDLE. */
  lemma DefaultDispatch(v: Vars, i: Inputs)
    requires Inv(v) && v.state == Default && i.i1 && i.i2 && i.i3 && v.delay == 100
    ensures var r := Step(v, i).vars;
            if v.queue.items == [] then r == v.(delay := 0, state := Idle)
            else
              && r.task == Some(v.queue.items[0])
              && r.queue.items == v.queue.items[1..]
              && v.queue.items[0] !in r.queue.members
              && r.state == MoveToPos && r.axis == Axis1 && r.delay == 0
              && ValidTask(v.queue.items[0])
              && r.position == Some(Positions[v.queue.items[0].pickup])
  {
  }

  /** Axis step: outside the band exactly one output is written, 1, forward if the
      counter is below the target and backward if above, and the axis does not change;
      inside the band both are written 0 and axes 1 and 2 hand over to the next one. */
  lemma AxisStep(v: Vars, i: Inputs)
    requires Inv(v) && v.state == MoveToPos
    ensures v.position.Some?
    ensures var o := Step(v, i);
            var current := Reading(i, v.axis);
            var target := Coordinate(v.position.value, v.axis);
            var f, b := O(ForwardPin(v.axis)), O(BackwardPin(v.axis));
            && (Abs(current - target) <= Tolerance ==> o.writes == map[f := 0, b := 0])
            && (Abs(current - target) > Tolerance && current < target ==> o.writes == map[f := 1] && o.vars == v)
            && (Abs(current - target) > Tolerance && current > target ==> o.writes == map[b := 1] && o.vars == v)
            && (Abs(current - target) <= Tolerance && v.axis == Axis1 ==> o.vars == v.(axis := Axis2))
            && (Abs(current - target) <= Tolerance && v.axis == Axis2 ==> o.vars == v.(axis := Axis3))
  {
  }

  /** GRAB is entered only from MOVE_TO_POS, on axis 3, inside the band, after the
      50-tick delay. */
  lemma EnterGrab(v: Vars, i: Inputs)
    requires Inv(v)
    requires v.state != Grab && Step(v, i).vars.state == Grab
    ensures v.state == MoveToPos && v.axis == Axis3 && v.position.Some?
    ensures Abs(i.counter5 - v.position.value.a3) <= Tolerance
    ensures v.delay >= 50 && Step(v, i).vars.delay == 0
  {
  }

  /** The tick that ends the GRAB wait: the magnet `O_14` is switched on with the
      compressor still on, and the cell goes UP_AND_IN with the delay reset. */
  lemma GrabDone(v: Vars, i: Inputs)
    requires Inv(v) && v.state == Grab && v.delay >= 50
    ensures Step(v, i) == Outcome(v.(delay := 0, state := UpAndIn), map[O(13) := 1, O(14) := 1])
  {
  }

  // ---------------------------------------------------------------------------------
  // Several ticks

  /** The variables after running one tick per input record. */
  function Run(v: Vars, ins: seq<Inputs>): (r: Vars)
    requires Inv(v)
    ensures Inv(r)
    ensures v.state != Drop ==> r.state != Drop
    decreases |ins|
  {
    if ins == [] then v
    else
      StepKeepsInv(v, ins[0]);
      Run(Step(v, ins[0]).vars, ins[1..])
  }

  /** The writes of each of those ticks. */
  function Trace(v: Vars, ins: seq<Inputs>): (ws: seq<Writes>)
    requires Inv(v)
    ensures |ws| == |ins|
    decreases |ins|
  {
    if ins == [] then []
    else
      StepKeepsInv(v, ins[0]);
      [Step(v, ins[0]).writes] + Trace(Step(v, ins[0]).vars, ins[1..])
  }

  /** From start-up the cell never drops: DROP is unreachable. */
  lemma NeverDrops(ins: seq<Inputs>)
    ensures Inv(Initial)
    ensures Run(Initial, ins).state != Drop
  {
    InitialInv();
  }

  /** The compressor dwell: while the delay has not reached 50, every GRAB tick writes
      only the compressor and counts the delay up, whatever is read. */
  lemma {:induction false} GrabDwell(v: Vars, ins: seq<Inputs>)
    requires Inv(v) && v.state == Grab && v.delay + |ins| <= 50
    ensures Run(v, ins) == v.(delay := v.delay + |ins|)
    ensures forall k :: 0 <= k < |ins| ==> Trace(v, ins)[k] == map[O(13) := 1]
    decreases |ins|
  {
    if ins != [] {
      var v1 := Step(v, ins[0]).vars;
      GrabDwell(v1, ins[1..]);
      assert Trace(v, ins) == [map[O(13) := 1]] + Trace(v1, ins[1..]);
    }
  }

  /** UP_AND_IN and IDLE are final: once there, the cell stays, holds its task, and
      writes nothing more, so the magnet switched on in GRAB stays on. */
  lemma {:induction false} FinalStates(v: Vars, ins: seq<Inputs>)
    requires Inv(v) && v.state in {UpAndIn, Idle}
    ensures Run(v, ins) == v
    ensures forall k :: 0 <= k < |ins| ==> Trace(v, ins)[k] == map[]
    decreases |ins|
  {
    if ins != [] {
      FinalStates(v, ins[1..]);
      assert Trace(v, ins) == [map[]] + Trace(v, ins[1..]);
    }
  }

  // ---------------------------------------------------------------------------------
  // The controller as the source runs it: variables updated in place every tick

  class Cell {
    var state: State
    var task: Option<Task>
    var pickingUp: bool
    var delay: int
    var axis: AxisState
    var position: Option<Target>
    var items: seq<Task>
    var members: set<Task>

    function Snapshot(): Vars
      reads this
    {
      Vars(state, task, pickingUp, delay, axis, position, Queue(items, members))
    }

    ghost predicate Valid()
      reads this
    {
      Inv(Snapshot())
    }

    /** The start-up branch of the control function (its output writes are those of
        `ProgramEnd`). */
    constructor ()
      ensures Snapshot() == Initial && Valid()
    {
      state, task, pickingUp, delay := Default, None, true, 0;
      axis, position := Axis1, None;
      items, members := [], {};
      new;
      InitialInv();
    }

    /** `add_task_to_queue`. */
    method AddTask(t: Task) returns (added: bool)
      requires Valid() && ValidTask(t)
      modifies this
      ensures Valid()
      ensures (Snapshot().queue, added) == Enqueue(old(Snapshot().queue), t)
      ensures Snapshot() == old(Snapshot()).(queue := Snapshot().queue)
    {
      EnqueueKeepsConsistent(Queue(items, members), t);
      if t !in members {
        items := items + [t];
        members := members + {t};
        added := true;
      } else {
        added := false;
      }
    }

    /** DEFAULT: homing, settle delay with counter reset, dispatch. */
    method Home(i: Inputs) returns (w: Writes)
      requires Valid() && state == Default
      modifies this
      ensures Snapshot() == StepDefault(old(Snapshot()), i).vars
      ensures w == StepDefault(old(Snapshot()), i).writes
    {
      w := map[];
      if !i.i1 {
        w := w[O(7) := 1];
      } else if !i.i2 {
        w := w[O(7) := 0][O(9) := 1];
      } else if !i.i3 {
        w := w[O(9) := 0][O(11) := 1];
      } else {
        w := w[O(11) := 0];
        if delay < 50 {
          delay := delay + 1;
        } else if delay == 50 {
          w := w[Counter(5) := 0][Counter(7) := 0][Counter(9) := 0];
          delay := delay + 1;
        } else if delay < 100 {
          delay := delay + 1;
        } else {
          delay := 0;
          if items != [] {
            var t := items[0];
            assert t in items;
            items, members := items[1..], members - {t};
            task := Some(t);
            pickingUp := true;
            position := Some(Positions[t.pickup]);
            state := MoveToPos;
            axis := Axis1;
          } else {
            state := Idle;
          }
        }
      }
    }

    /** The axis sub-state of MOVE_TO_POS. */
    method MoveAxis(i: Inputs) returns (w: Writes)
      requires Valid() && state == MoveToPos
      modifies this
      ensures Snapshot() == StepMove(old(Snapshot()), i).vars && w == StepMove(old(Snapshot()), i).writes
    {
      var target := position.value;
      var current, goal, f, b;
      if axis == Axis1 {
        current, goal, f, b := i.counter9, target.a1, 12, 11;
      } else if axis == Axis2 {
        current, goal, f, b := i.counter7, target.a2, 10, 9;
      } else {
        current, goal, f, b := i.counter5, target.a3, 8, 7;
      }
      if Abs(current - goal) <= Tolerance {
        w := map[O(f) := 0, O(b) := 0];
        if axis == Axis1 {
          axis := Axis2;
        } else if axis == Axis2 {
          axis := Axis3;
        } else if delay < 50 {
          delay := delay + 1;
        } else {
          delay := 0;
          state := if pickingUp then Grab else Drop;
        }
      } else if current < goal {
        w := map[O(f) := 1];
      } else {
        w := map[O(b) := 1];
      }
    }

    /** One call of `cycleprogram` after start-up. */
    method Tick(i: Inputs) returns (w: Writes)
      requires Valid()
      modifies this
      ensures Valid()
      ensures Snapshot() == Step(old(Snapshot()), i).vars
      ensures w == Step(old(Snapshot()), i).writes
    {
      StepKeepsInv(Snapshot(), i);
      w := map[];
      if state == Default {
        w := Home(i);
      } else if state == MoveToPos {
        w := MoveAxis(i);
      } else if state == Grab {
        w := w[O(13) := 1];
        if delay < 50 {
          delay := delay + 1;
        } else {
          w := w[O(14) := 1];
          delay := 0;
          state := UpAndIn;
        }
      } else if state == Drop {
        w := w[O(14) := 0];
        if delay < 50 {
          delay := delay + 1;
        } else {
          delay := 0;
          state := UpAndIn;
        }
      }
    }
  }
}

=== FILE: opcua_warehouse.dfy ===
/** The OPC UA variant of the high-bay warehouse shuttle. The control function homes the
    shuttle, waits for a slot index from the OPC UA mailbox and enters the pickup leg;
    the pickup leg's body is elided in this variant, so a tick there does nothing. */
module OpcuaWarehouse {
  import opened Io
  import opened Commander

  datatype State = Default | Idle | MoveStoragePickup

  /** The variables the modelled states read or write. */
  datatype Vars = Vars(state: State, delay: int, pos: Coord)

  /** One tick's reads: the sensors and counters, and the mailbox's `target_pos_index`. */
  datatype Inputs = Inputs(s: Sensors, targetPosIndex: int)

  datatype Outcome = Outcome(vars: Vars, writes: Writes)

  const Initial: Vars := Vars(Default, 0, Coord(0, 0))

  /** A request in IDLE names a slot of the table. */
  predicate Admissible(v: Vars, i: Inputs)
  {
    v.state == Idle && i.targetPosIndex != 0 ==> i.targetPosIndex in Slots
  }

  /** One call of the control function. */
  function Step(v: Vars, i: Inputs): Outcome
    requires Admissible(v, i)
  {
    match v.state
    case Default =>
      var c := Home(i.s, true);
      if !c.done then Outcome(v, c.writes)
      else if v.delay <= 100 then Outcome(v.(delay := v.delay + 1), c.writes)
      else Outcome(v.(state := Idle, delay := 0), c.writes)
    case Idle =>
      if i.targetPosIndex != 0 then
        Outcome(v.(pos := Slots[i.targetPosIndex], state := MoveStoragePickup), map[])
      else Outcome(v, map[])
    case MoveStoragePickup => Outcome(v, map[])
  }

  /** The delay stays bounded and is clear in IDLE; a slot is chosen once the pickup leg
      is entered. */
  ghost predicate Inv(v: Vars)
  {
    && 0 <= v.delay <= 101
    && (v.state == Idle ==> v.delay == 0)
    && (v.state == MoveStoragePickup ==> v.pos in Slots.Values)
  }

  lemma StepKeepsInv(v: Vars, i: Inputs)
    requires Inv(v) && Admissible(v, i)
    ensures Inv(Step(v, i).vars)
  {
    if v.state == Idle && i.targetPosIndex != 0 {
      assert Slots[i.targetPosIndex] in Slots.Values;
    }
  }

  /** DEFAULT goes idle only once homing reports done and the delay has exceeded 100,
      and clears the delay when it does. */
  lemma DefaultToIdle(v: Vars, i: Inputs)
    requires v.state == Default
    ensures Step(v, i).vars.state == Idle <==> Home(i.s, true).done && v.delay > 100
    ensures Step(v, i).vars.state == Idle ==> Step(v, i).vars.delay == 0
    ensures Step(v, i).vars.state != Idle ==> Step(v, i).vars.state == Default
  {
  }

  /** IDLE: a nonzero index selects that slot and starts the pickup leg; zero leaves every
      variable as it is and writes nothing. */
  lemma IdleSelectsSlot(v: Vars, i: Inputs)
    requires v.state == Idle && Admissible(v, i)
    ensures i.targetPosIndex != 0 ==>
              Step(v, i).vars == Vars(MoveStoragePickup, v.delay, Slots[i.targetPosIndex])
    ensures i.targetPosIndex == 0 ==> Step(v, i) == Outcome(v, map[])
  {
  }

  /** The run of the control function over a sequence of ticks. */
  function Run(v: Vars, ins: seq<Inputs>): Vars
    decreases |ins|
  {
    if ins == [] || !Admissible(v, ins[0]) then v else Run(Step(v, ins[0]).vars, ins[1..])
  }

  /** With the pickup leg elided, the shuttle stops for good once it enters it. */
  lemma {:induction false} PickupLegIsFinal(v: Vars, ins: seq<Inputs>)
    requires v.state == MoveStoragePickup
    ensures Run(v, ins) == v
    decreases |ins|
  {
    if ins != [] && Admissible(v, ins[0]) {
      PickupLegIsFinal(Step(v, ins[0]).vars, ins[1..]);
    }
  }

  class Shuttle {
    var state: State
    var delay: int
    var pos: Coord

    function Snapshot(): Vars
      reads this
    {
      Vars(state, delay, pos)
    }

    ghost predicate Valid()
      reads this
    {
      Inv(Snapshot())
    }

    constructor ()
      ensures Snapshot() == Initial && Valid()
    {
      state, delay, pos := Default, 0, Coord(0, 0);
    }

    /** One call of the control function. */
    method Tick(i: Inputs) returns (w: Writes)
      requires Valid() && Admissible(Snapshot(), i)
      modifies this
      ensures Valid()
      ensures Snapshot() == Step(old(Snapshot()), i).vars
      ensures w == Step(old(Snapshot()), i).writes
    {
      StepKeepsInv(Snapshot(), i);
      w := map[];
      if state == Default {
        var c := Home(i.s, true);
        w := c.writes;
        if c.done {
          if delay <= 100 {
            delay := delay + 1;
          } else {
            state := Idle;
            delay := 0;
          }
        }
      } else if state == Idle {
        if i.targetPosIndex != 0 {
          pos := Slots[i.targetPosIndex];
          state := MoveStoragePickup;
        }
      }
    }

    /** `programend`. */
    method Stop() returns (w: Writes)
      ensures w == Shutdown()
    {
      w := Zeroes(Outputs({1, 2, 3, 4, 5, 6, 7, 8}));
    }
  }
}

=== FILE: sorting_line.dfy ===
/** The colour-sorting line: a belt carries a workpiece past a colour sensor, ten
    readings are taken, their median selects one of three piston bins, and the piston
    ejects the workpiece once the belt has carried it far enough. A 1000-tick warm-up
    runs before the inputs are sampled at all. */
module SortingLine {
  import opened Io
  import opened Median

  datatype State = Idle | DriveScan | Scan | Wait | Extend | Retrace

  /** The variables the control function keeps between ticks. `sensors` is the list of
      the six sampled digital inputs; `readings` the colour samples of the scan. */
  datatype Vars = Vars(
    state: State,
    retractCounter: int,
    cycleCount: int,
    ejectDelay: int,
    piston: int,
    color: int,
    sensors: seq<int>,
    fail: int,
    firstDelay: int,
    readings: seq<int>)

  /** One tick's reads: the colour sensor `AnalogInput_1`, the inputs `I_1`..`I_6`, and
      whether this is the first call (which runs the start-up branch). */
  datatype Inputs = Inputs(
    analog: int,
    i1: bool, i2: bool, i3: bool, i4: bool, i5: bool, i6: bool,
    first: bool)

  datatype Outcome = Outcome(vars: Vars, writes: Writes)

  const WarmUpTicks: int := 1000
  const Samples: int := 10
  const ColorLimit: int := 7050
  const ScanTicks: int := 10
  const MaxFails: int := 500
  const RetractTicks: int := 5

  /** The variables after the start-up branch: idle, the start button (`sensors[1]`)
      reading released, and the default eject delay of 70. */
  const Initial: Vars := Vars(Idle, 0, 0, 70, 0, 0, [0, 1, 0, 0, 0, 0], 0, 0, [])

  /** The sampling at the head of every tick: nothing during the warm-up; afterwards the
      colour and the six inputs are latched, and the three colour presence inputs are
      published to the OPC UA mailbox. */
  function Sample(v: Vars, i: Inputs): Outcome
  {
    if v.firstDelay < WarmUpTicks then Outcome(v.(firstDelay := v.firstDelay + 1), map[])
    else
      Outcome(
        v.(color := i.analog,
           sensors := [Bit(i.i1), Bit(i.i2), Bit(i.i3), Bit(i.i4), Bit(i.i5), Bit(i.i6)]),
        map[Shared("white") := Bit(i.i4), Shared("red") := Bit(i.i5), Shared("blue") := Bit(i.i6)])
  }

  /** The decision on a workpiece's colour, `m2` being twice the median reading. */
  datatype Verdict = Eject(piston: int, delay: int) | Reject

  /** Bins: [2500, 5000] to piston 1 after 60 ticks, [5700, 6300] to piston 2 after 150,
      [6400, 7000] to piston 3 after 250; anything else is not sorted. */
  function Classify(m2: int): (c: Verdict)
    ensures c == Eject(1, 60) <==> 2 * 2500 <= m2 <= 2 * 5000
    ensures c == Eject(2, 150) <==> 2 * 5700 <= m2 <= 2 * 6300
    ensures c == Eject(3, 250) <==> 2 * 6400 <= m2 <= 2 * 7000
    ensures c == Reject || c == Eject(1, 60) || c == Eject(2, 150) || c == Eject(3, 250)
  {
    if 5000 <= m2 <= 10000 then Eject(1, 60)
    else if 11400 <= m2 <= 12600 then Eject(2, 150)
    else if 12800 <= m2 <= 14000 then Eject(3, 250)
    else Reject
  }

  /** The eject delay that belongs to each piston. */
  function DelayOf(p: int): int
  {
    if p == 1 then 60 else if p == 2 then 150 else 250
  }

  /** The output of piston `p` (`O_3`..`O_5`), written `val`; no write for another `p`. */
  function PistonWrite(p: int, val: int): Writes
  {
    if 1 <= p <= 3 then map[O(p + 2) := val] else map[]
  }

  /** `driveScan`: count dark-enough readings up to 10 and stop the belt for the scan;
      give up after 500 too-bright readings. */
  function StepDriveScan(v: Vars): Outcome
  {
    if v.color <= ColorLimit then
      if v.cycleCount + 1 >= ScanTicks then
        Outcome(v.(cycleCount := 0, fail := 0, state := Scan), map[O(1) := 0])
      else Outcome(v.(cycleCount := v.cycleCount + 1), map[])
    else if v.fail + 1 == MaxFails then Outcome(v.(fail := 0, state := Idle), map[O(1) := 0])
    else Outcome(v.(fail := v.fail + 1), map[])
  }

  /** `scan`: take one reading per tick; with ten, classify their median and clear. */
  function StepScan(v: Vars): Outcome
  {
    var rs := v.readings + [v.color];
    if |rs| < Samples then Outcome(v.(readings := rs), map[])
    else
      match Classify(Median2(rs))
      case Eject(p, d) =>
        Outcome(v.(ejectDelay := d, piston := p, state := Wait, readings := []), map[O(1) := 1, O(2) := 1])
      case Reject => Outcome(v.(state := Idle, readings := []), map[O(1) := 1])
  }

  /** `extend`: once the belt has run the eject delay, stop it and fire the piston. */
  function StepExtend(v: Vars): Outcome
  {
    var n := v.cycleCount + 1;
    if n >= v.ejectDelay then
      Outcome(v.(cycleCount := n, retractCounter := RetractTicks, state := Retrace),
              map[O(1) := 0] + PistonWrite(v.piston, 1))
    else Outcome(v.(cycleCount := n), map[])
  }

  /** `retrace`: after five ticks retract the piston and clear the busy light `O_2`. */
  function StepRetrace(v: Vars): Outcome
  {
    var n := v.retractCounter - 1;
    if n <= 0 then
      Outcome(v.(retractCounter := n, state := Idle), PistonWrite(v.piston, 0)[O(2) := 0])
    else Outcome(v.(retractCounter := n), map[])
  }

  /** The state machine part of a tick, on the freshly sampled variables. */
  function Machine(v: Vars): Outcome
    requires |v.sensors| == 6
  {
    match v.state
    case DriveScan => StepDriveScan(v)
    case Scan => StepScan(v)
    case Wait => if v.sensors[2] == 0 then Outcome(v.(state := Extend), map[]) else Outcome(v, map[])
    case Extend => StepExtend(v)
    case Retrace => StepRetrace(v)
    case Idle =>
      if v.sensors[1] == 0 then Outcome(v.(cycleCount := 0, state := DriveScan), map[O(1) := 1])
      else Outcome(v, map[])
  }

  /** One call of the control function: the start-up branch of the first call
      re-initialises every variable and switches the belt off, then the inputs are
      sampled and the state machine runs. */
  function Step(v: Vars, i: Inputs): Outcome
    requires |v.sensors| == 6
  {
    var s := Sample(if i.first then Initial else v, i);
    var m := Machine(s.vars);
    Outcome(m.vars, (if i.first then map[O(1) := 0] else map[]) + s.writes + m.writes)
  }

  /** `programend`: every output of the line off. */
  function Shutdown(): (w: Writes)
    ensures w.Keys == Outputs({1, 2, 3, 4, 5}) && AllOff(w, w.Keys)
  {
    Zeroes(Outputs({1, 2, 3, 4, 5}))
  }

  // ---------------------------------------------------------------------------------
  // Invariant

  /** Every reachable state: six sampled inputs, nothing sampled during the warm-up,
      fewer than ten readings and none outside `scan`, the counters within their
      bounds, and a piston with its own delay chosen from `wait` to `retrace`. */
  ghost predicate Inv(v: Vars)
  {
    && |v.sensors| == 6
    && 0 <= v.firstDelay <= WarmUpTicks
    && (v.firstDelay < WarmUpTicks ==> v.sensors == Initial.sensors && v.color == 0)
    && |v.readings| < Samples
    && (v.state != Scan ==> v.readings == [])
    && 0 <= v.fail < MaxFails
    && (v.state == DriveScan ==> 0 <= v.cycleCount < ScanTicks)
    && (v.state == Scan || v.state == Wait ==> v.cycleCount == 0)
    && (v.state == Wait || v.state == Extend || v.state == Retrace ==>
          1 <= v.piston <= 3 && v.ejectDelay == DelayOf(v.piston))
    && (v.state == Extend ==> 0 <= v.cycleCount < v.ejectDelay)
    && (v.state == Retrace ==> 1 <= v.retractCounter <= RetractTicks)
  }

  lemma InitialInv()
    ensures Inv(Initial)
  {
  }

  lemma SampleKeepsInv(v: Vars, i: Inputs)
    requires Inv(v)
    ensures Inv(Sample(v, i).vars)
  {
  }

  lemma ScanKeepsInv(v: Vars)
    requires Inv(v) && v.state == Scan
    ensures Inv(StepScan(v).vars)
  {
  }

  lemma MachineKeepsInv(v: Vars)
    requires Inv(v)
    ensures Inv(Machine(v).vars)
  {
    if v.state == Scan {
      ScanKeepsInv(v);
    }
  }

  lemma StepKeepsInv(v: Vars, i: Inputs)
    requires Inv(v)
    ensures Inv(Step(v, i).vars)
  {
    InitialInv();
    var v0 := if i.first then Initial else v;
    SampleKeepsInv(v0, i);
    MachineKeepsInv(Sample(v0, i).vars);
  }

  /** The start-up branch makes a tick independent of what came before: the first call
      from any state behaves as from the start-up state. */
  lemma StartupResets(v: Vars, i: Inputs)
    requires Inv(v) && i.first
    ensures Step(v, i) == Step(Initial, i)
    ensures Step(v, i).vars.state == Idle && Step(v, i).vars.firstDelay == 1
    ensures Step(v, i).writes == map[O(1) := 0]
  {
  }

  // ---------------------------------------------------------------------------------
  // Properties

  /** The run of the control function over a sequence of ticks. */
  function Run(v: Vars, ins: seq<Inputs>): (r: Vars)
    requires Inv(v)
    ensures Inv(r)
    decreases |ins|
  {
    if ins == [] then v
    else
      StepKeepsInv(v, ins[0]);
      Run(Step(v, ins[0]).vars, ins[1..])
  }

  /** During the warm-up no input is sampled, and since the start button then reads
      released, the line stays idle; the warm-up counter advances one per tick, or
      restarts from 0 at a start-up branch. */
  lemma {:induction false} WarmUpStaysIdle(v: Vars, ins: seq<Inputs>)
    requires Inv(v) && v.state == Idle
    requires v.firstDelay + |ins| <= WarmUpTicks
    ensures Run(v, ins).state == Idle
    ensures Run(v, ins).firstDelay <= v.firstDelay + |ins|
    ensures (forall k :: 0 <= k < |ins| ==> !ins[k].first) ==> Run(v, ins).firstDelay == v.firstDelay + |ins|
    decreases |ins|
  {
    if ins != [] {
      StepKeepsInv(v, ins[0]);
      WarmUpStaysIdle(Step(v, ins[0]).vars, ins[1..]);
      if forall k :: 0 <= k < |ins| ==> !ins[k].first {
        assert !ins[0].first;
        assert forall k :: 0 <= k < |ins[1..]| ==> !ins[1..][k].first by {
          forall k | 0 <= k < |ins[1..]| ensures !ins[1..][k].first {
            assert ins[1..][k] == ins[k + 1];
          }
        }
      }
    }
  }

  /** From the start-up state, the first 1000 ticks leave the line idle. */
  lemma StartsIdle(ins: seq<Inputs>)
    requires |ins| <= WarmUpTicks
    ensures Run(Initial, ins).state == Idle
  {
    InitialInv();
    WarmUpStaysIdle(Initial, ins);
  }

  /** `idle` starts the belt exactly when the start button reads pressed. */
  lemma IdleStarts(v: Vars)
    requires Inv(v) && v.state == Idle
    ensures Machine(v).vars.state == DriveScan <==> v.sensors[1] == 0
    ensures v.sensors[1] == 0 ==> Machine(v).writes == map[O(1) := 1] && Machine(v).vars.cycleCount == 0
    ensures v.sensors[1] != 0 ==> Machine(v) == Outcome(v, map[])
  {
  }

  /** `driveScan`: the scan starts after the tenth dark-enough tick with the belt
      stopped and both counters cleared; the line gives up after 500 bright ticks. */
  lemma DriveScanEnds(v: Vars)
    requires Inv(v) && v.state == DriveScan
    ensures Machine(v).vars.state == Scan <==> v.color <= ColorLimit && v.cycleCount == ScanTicks - 1
    ensures Machine(v).vars.state == Idle <==> v.color > ColorLimit && v.fail == MaxFails - 1
    ensures Machine(v).vars.state != DriveScan ==>
              Machine(v).writes == map[O(1) := 0] && Machine(v).vars.fail == 0
  {
  }

  /** A majority of readings in a bin sorts the workpiece into that bin. */
  lemma MajoritySorts(rs: seq<int>)
    requires |rs| == Samples
    ensures 2 * CountIn(rs, 2500, 5000) > |rs| ==> Classify(Median2(rs)) == Eject(1, 60)
    ensures 2 * CountIn(rs, 5700, 6300) > |rs| ==> Classify(Median2(rs)) == Eject(2, 150)
    ensures 2 * CountIn(rs, 6400, 7000) > |rs| ==> Classify(Median2(rs)) == Eject(3, 250)
  {
    if 2 * CountIn(rs, 2500, 5000) > |rs| {
      MajorityDecides(rs, 2500, 5000);
    }
    if 2 * CountIn(rs, 5700, 6300) > |rs| {
      MajorityDecides(rs, 5700, 6300);
    }
    if 2 * CountIn(rs, 6400, 7000) > |rs| {
      MajorityDecides(rs, 6400, 7000);
    }
  }

  /** `scan` decides on the tenth reading, on the median of all ten: an accepted colour
      chooses the piston and its delay and lights the busy output, any other colour
      sends the line back to `idle` with the belt running. */
  lemma ScanDecides(v: Vars)
    requires Inv(v) && v.state == Scan
    ensures var rs := v.readings + [v.color];
            Machine(v).vars.state == Scan <==> |rs| < Samples
    ensures var rs := v.readings + [v.color];
            |rs| == Samples ==>
              match Classify(Median2(rs))
              case Eject(p, d) =>
                Machine(v).vars.state == Wait && Machine(v).vars.piston == p && Machine(v).vars.ejectDelay == d
                && Machine(v).writes == map[O(1) := 1, O(2) := 1]
              case Reject =>
                Machine(v).vars.state == Idle && Machine(v).writes == map[O(1) := 1]
  {
  }

  /** The piston chosen by the scan is the one fired and the one retracted: it does not
      change outside `scan`, `extend` fires exactly it (and stops the belt), and
      `retrace` retracts exactly it (and clears the busy output). */
  lemma SamePiston(v: Vars)
    requires Inv(v)
    ensures v.state != Scan ==> Machine(v).vars.piston == v.piston
    ensures v.state == Extend && Machine(v).vars.state == Retrace ==>
              Machine(v).writes == map[O(1) := 0, O(v.piston + 2) := 1]
    ensures v.state == Retrace && Machine(v).vars.state == Idle ==>
              Machine(v).writes == map[O(v.piston + 2) := 0, O(2) := 0]
  {
  }

  /** `extend` fires after exactly the piston's delay, and `retrace` retracts after
      exactly five ticks. */
  lemma Timing(v: Vars)
    requires Inv(v)
    ensures v.state == Extend ==> (Machine(v).vars.state == Retrace <==> v.cycleCount + 1 == DelayOf(v.piston))
    ensures v.state == Extend && Machine(v).vars.state == Retrace ==> Machine(v).vars.retractCounter == RetractTicks
    ensures v.state == Retrace ==> (Machine(v).vars.state == Idle <==> v.retractCounter == 1)
  {
  }

  // ---------------------------------------------------------------------------------
  // The controller

  class Line {
    var state: State
    var retractCounter: int
    var cycleCount: int
    var ejectDelay: int
    var piston: int
    var color: int
    const sensors: array<int>
    var fail: int
    var firstDelay: int
    var readings: seq<int>

    function Snapshot(): Vars
      reads this, sensors
    {
      Vars(state, retractCounter, cycleCount, ejectDelay, piston, color, sensors[..], fail, firstDelay, readings)
    }

    ghost predicate Valid()
      reads this, sensors
    {
      sensors.Length == 6 && Inv(Snapshot())
    }

    /** The variables as the start-up branch leaves them. */
    constructor ()
      ensures Valid() && Snapshot() == Initial
      ensures fresh(sensors)
    {
      sensors := new int[6];
      new;
      Restart();
      InitialInv();
    }

    /** The start-up branch of the control function: every variable re-initialised,
        the six sampled inputs overwritten in place. */
    method Restart()
      requires sensors.Length == 6
      modifies this, sensors
      ensures Snapshot() == Initial
    {
      state, retractCounter, cycleCount, ejectDelay, piston, color := Idle, 0, 0, 70, 0, 0;
      fail, firstDelay, readings := 0, 0, [];
      sensors[0], sensors[1], sensors[2], sensors[3], sensors[4], sensors[5] := 0, 1, 0, 0, 0, 0;
      assert sensors[..] == Initial.sensors;
    }

    /** The input sampling at the head of a tick. */
    method SampleInputs(i: Inputs) returns (w: Writes)
      requires sensors.Length == 6
      modifies this`firstDelay, this`color, sensors
      ensures Snapshot() == Sample(old(Snapshot()), i).vars
      ensures w == Sample(old(Snapshot()), i).writes
    {
      if firstDelay < WarmUpTicks {
        firstDelay := firstDelay + 1;
        w := map[];
      } else {
        color := i.analog;
        sensors[0] := Bit(i.i1);
        sensors[1] := Bit(i.i2);
        sensors[2] := Bit(i.i3);
        sensors[3] := Bit(i.i4);
        sensors[4] := Bit(i.i5);
        sensors[5] := Bit(i.i6);
        w := map[Shared("white") := Bit(i.i4), Shared("red") := Bit(i.i5), Shared("blue") := Bit(i.i6)];
      }
    }

    /** `scan`. */
    method ScanColor() returns (w: Writes)
      requires state == Scan
      modifies this`readings, this`ejectDelay, this`piston, this`state
      ensures Snapshot() == StepScan(old(Snapshot())).vars
      ensures w == StepScan(old(Snapshot())).writes
    {
      readings := readings + [color];
      w := map[];
      if |readings| >= Samples {
        var m2 := Median2(readings);
        var verdict := Classify(m2);
        if verdict.Eject? {
          ejectDelay := verdict.delay;
          piston := verdict.piston;
          w := w[O(1) := 1][O(2) := 1];
          state := Wait;
        } else {
          w := w[O(1) := 1];
          state := Idle;
        }
        readings := [];
      }
    }

    /** The state machine part of a tick. */
    method RunMachine() returns (w: Writes)
      requires sensors.Length == 6
      modifies this
      ensures Snapshot() == Machine(old(Snapshot())).vars
      ensures w == Machine(old(Snapshot())).writes
    {
      w := map[];
      if state == DriveScan {
        if color <= ColorLimit {
          cycleCount := cycleCount + 1;
          if cycleCount >= ScanTicks {
            w := w[O(1) := 0];
            cycleCount := 0;
            fail := 0;
            state := Scan;
          }
        } else {
          fail := fail + 1;
          if fail == MaxFails {
            fail := 0;
            w := w[O(1) := 0];
            state := Idle;
          }
        }
      } else if state == Scan {
        w := ScanColor();
      } else if state == Wait {
        if sensors[2] == 0 {
          state := Extend;
        }
      } else if state == Extend {
        cycleCount := cycleCount + 1;
        if cycleCount >= ejectDelay {
          w := w[O(1) := 0];
          if piston == 1 {
            w := w[O(3) := 1];
          } else if piston == 2 {
            w := w[O(4) := 1];
          } else if piston == 3 {
            w := w[O(5) := 1];
          }
          retractCounter := RetractTicks;
          state := Retrace;
        }
      } else if state == Retrace {
        retractCounter := retractCounter - 1;
        if retractCounter <= 0 {
          if piston == 1 {
            w := w[O(3) := 0];
          } else if piston == 2 {
            w := w[O(4) := 0];
          } else if piston == 3 {
            w := w[O(5) := 0];
          }
          w := w[O(2) := 0];
          state := Idle;
        }
      } else {
        if sensors[1] == 0 {
          w := w[O(1) := 1];
          cycleCount := 0;
          state := DriveScan;
        }
      }
    }

    /** One call of the control function. */
    method Tick(i: Inputs) returns (w: Writes)
      requires Valid()
      modifies this, sensors
      ensures Valid()
      ensures Snapshot() == Step(old(Snapshot()), i).vars
      ensures w == Step(old(Snapshot()), i).writes
    {
      StepKeepsInv(Snapshot(), i);
      w := map[];
      if i.first {
        Restart();
        w := map[O(1) := 0];
      }
      var sw := SampleInputs(i);
      var mw := RunMachine();
      w := w + sw + mw;
    }

    /** `programend`. */
    method Stop() returns (w: Writes)
      ensures w == Shutdown()
    {
      w := Zeroes(Outputs({1, 2, 3, 4, 5}));
    }
  }
}

=== FILE: station.dfy ===
/** The multi-processing station: an oven (kiln), a suction gripper and a turntable with
    saw and belt, each a state machine of its own, woken by the same cycle event and
    coupled only through the single-slot flags `OvenFinished` (oven → gripper),
    `VacFinished` (gripper → turntable) and `VacFinished2` (latched by the turntable).
    One tick runs the three machines one after another on the same readings. The Modbus
    and OPC UA installations differ only in how the oven announces it is ready for a
    drop-off and in the burn time. */
module Station {
  import opened Io

  /** `Modbus`: the ready signal is the output bit `Output_1` and the burn takes 1 s.
      `Opcua`: the ready signal is the mailbox field `multi_status`, also cleared on
      every tick of the four preparing and burning states, and the burn takes 10 s. */
  datatype Variant = Modbus | Opcua

  function ReadyPoint(vr: Variant): Point
  {
    if vr == Modbus then Output(1) else Shared("multi_status")
  }

  /** The burn dwell in milliseconds. */
  function BurnTime(vr: Variant): int
  {
    if vr == Modbus then 1000 else 10000
  }

  // ---------------------------------------------------------------------------------
  // State

  datatype OvenState =
    | PreparingDropoff | WaitingDropoff | PrepareBurning | Burning | PreparePickup | WaitingPickup

  /** The suction gripper's states; `SuctionWaitingPickup` and `SuctionWaitingDropoff`
      are its `WAITING_PICKUP` and `WAITING_DROPOFF`. */
  datatype SuctionState =
    | SuctionWaitingPickup | DrivePickup | Pickup | DriveDropoff | SuctionWaitingDropoff | Dropoff

  datatype TableState = PosVac | PosSaw | Saw | PosBelt | Belt

  /** A machine's timer: `None` is the "not started" sentinel 0.0, `Some(t)` the
      monotonic time in milliseconds at which it was started. */
  type Timer = Option<int>

  /** Oven: state, timer, door open, slider out. */
  datatype Oven = Oven(state: OvenState, start: Timer, door: bool, slider: bool)

  /** Suction gripper: state, timer, homed at the turntable reference, lowered, vacuum
      on. */
  datatype Suction = Suction(state: SuctionState, start: Timer, homed: bool, down: bool, vac: bool)

  /** Turntable: state, timer, homed at the suction position, belt sub-step done. */
  datatype Table = Table(state: TableState, start: Timer, homed: bool, belt: bool)

  /** The whole station: the three machines, the three shared flags, and whether the
      stop event is set. */
  datatype Vars = Vars(
    oven: Oven, suction: Suction, table: Table,
    ovenFinished: bool, vacFinished: bool, vacFinished2: bool,
    stopped: bool)

  /** The readings of one tick: `I_1`..`I_9` (true reads 1), the monotonic clock in
      milliseconds, and whether this is the first cycle of the cycle loop. */
  datatype Inputs = Inputs(
    i1: bool, i2: bool, i3: bool, i4: bool, i5: bool, i6: bool, i7: bool, i8: bool, i9: bool,
    now: int, first: bool)

  datatype Outcome = Outcome(vars: Vars, writes: Writes)

  const Initial: Vars := Vars(
    Oven(PreparingDropoff, None, false, false),
    Suction(SuctionWaitingPickup, None, false, false, false),
    Table(PosVac, None, false, false),
    false, false, false, false)

  /** The start time a timer check measures from: the stored one, or `now` when the
      check starts the timer on this very tick. */
  function Begin(t: Timer, now: int): int
  {
    if t.None? then now else t.value
  }

  // ---------------------------------------------------------------------------------
  // Oven

  datatype Opening = Opening(oven: Oven, writes: Writes, isOpen: bool)

  /** The opening sequence of PREPARING_DROPOFF and PREPARE_PICKUP: light on, wait 1 s,
      open the door; then drive the slider out until its outer switch `I_7` reads 1;
      `isOpen` once both are done. */
  function Open(o: Oven, i: Inputs): Opening
  {
    if !o.door then
      var w := if o.start.None? then map[O(9) := 1] else map[];
      if i.now - Begin(o.start, i.now) < 1000 then Opening(o.(start := Some(Begin(o.start, i.now))), w, false)
      else Opening(o.(start := None, door := true), w[O(13) := 1], false)
    else if !o.slider then
      if !i.i7 then Opening(o, map[O(6) := 1], false)
      else Opening(o.(start := None, slider := true), map[O(6) := 0], false)
    else Opening(o, map[], true)
  }

  /** The `multi_status := 0` the OPC UA oven writes at the top of its four preparing
      and burning states. */
  function ClearStatus(vr: Variant): Writes
  {
    if vr == Opcua then map[Shared("multi_status") := 0] else map[]
  }

  /** What one step of the oven leaves: its own variables, `OvenFinished`, the writes. */
  datatype OvenOut = OvenOut(oven: Oven, ovenFinished: bool, writes: Writes)

  /** One step of the oven machine (`task1`), on its own variables and the flag it
      raises. */
  function OvenStep(vr: Variant, o: Oven, ovenFinished: bool, i: Inputs): OvenOut
  {
    match o.state
    case PreparingDropoff =>
      var r := Open(o, i);
      if r.isOpen then OvenOut(o.(state := WaitingDropoff), ovenFinished, ClearStatus(vr) + map[ReadyPoint(vr) := 1])
      else OvenOut(r.oven, ovenFinished, ClearStatus(vr) + r.writes)
    case WaitingDropoff =>
      var detected := !i.i9 && o.start.None?;
      var start := if detected then Some(i.now) else o.start;
      var w := if detected then map[ReadyPoint(vr) := 0] else map[];
      if start.Some? && i.now - start.value >= 5000 then
        OvenOut(o.(start := None, state := PrepareBurning), ovenFinished, w)
      else OvenOut(o.(start := start), ovenFinished, w)
    case PrepareBurning =>
      var w := ClearStatus(vr);
      if o.slider then
        if !i.i6 then OvenOut(o, ovenFinished, w[O(5) := 1])
        else OvenOut(o.(start := None, slider := false), ovenFinished, w[O(5) := 0])
      else if o.door then
        if i.now - Begin(o.start, i.now) < 1000 then
          OvenOut(o.(start := Some(Begin(o.start, i.now))), ovenFinished, w[O(13) := 0])
        else OvenOut(o.(start := None, door := false), ovenFinished, w)
      else OvenOut(o.(state := Burning), ovenFinished, w[O(9) := 0])
    case Burning =>
      if i.now - Begin(o.start, i.now) < BurnTime(vr) then
        OvenOut(o.(start := Some(Begin(o.start, i.now))), ovenFinished, ClearStatus(vr))
      else OvenOut(o.(state := PreparePickup, start := None), ovenFinished, ClearStatus(vr))
    case PreparePickup =>
      var r := Open(o, i);
      if r.isOpen then OvenOut(o.(state := WaitingPickup), true, ClearStatus(vr))
      else OvenOut(r.oven, ovenFinished, ClearStatus(vr) + r.writes)
    case WaitingPickup =>
      if !ovenFinished then OvenOut(o.(state := PreparingDropoff), ovenFinished, map[])
      else OvenOut(o, ovenFinished, map[])
  }

  function OvenPhase(vr: Variant, v: Vars, i: Inputs): Outcome
  {
    var r := OvenStep(vr, v.oven, v.ovenFinished, i);
    Outcome(v.(oven := r.oven, ovenFinished := r.ovenFinished), r.writes)
  }

  // ---------------------------------------------------------------------------------
  // Suction gripper

  /** Drive to the turntable reference `I_5`; the last write of the tick is 0 once it is
      reached. */
  function Home(s: Suction, i: Inputs): (Suction, Writes)
  {
    if i.i5 then (s.(homed := true), map[O(8) := 0]) else (s, map[O(8) := 1])
  }

  /** What one step of the gripper leaves: its own variables, the two flags it
      handles, the writes. */
  datatype SuctionOut = SuctionOut(suction: Suction, ovenFinished: bool, vacFinished: bool, writes: Writes)

  /** One step of the suction gripper machine (`task2`), on its own variables and the
      flags it consumes and produces. */
  function SuctionStep(s: Suction, ovenFinished: bool, vacFinished: bool, i: Inputs): SuctionOut
  {
    var starting := s.start.None?;
    var done := i.now - Begin(s.start, i.now) >= 1000;
    var running := s.(start := Some(Begin(s.start, i.now)));
    match s.state
    case SuctionWaitingPickup =>
      if !s.homed then
        var (s', w) := Home(s, i);
        SuctionOut(s', ovenFinished, vacFinished, w)
      else if ovenFinished then SuctionOut(s.(state := DrivePickup, start := None), ovenFinished, vacFinished, map[])
      else SuctionOut(s, ovenFinished, vacFinished, map[])
    case DrivePickup =>
      if !i.i8 then SuctionOut(s.(homed := false), ovenFinished, vacFinished, map[O(7) := 1])
      else SuctionOut(s.(state := Pickup), ovenFinished, vacFinished, map[O(7) := 0])
    case Pickup =>
      if !s.down then
        var w := if starting then map[O(12) := 1, O(11) := 0] else map[];
        SuctionOut(if done then s.(start := None, down := true) else running, ovenFinished, vacFinished, w)
      else if !s.vac then
        var w := if starting then map[O(11) := 1] else map[];
        SuctionOut(if done then s.(start := None, vac := true) else running, ovenFinished, vacFinished, w)
      else
        var w := if starting then map[O(12) := 0] else map[];
        SuctionOut(if done then s.(start := None, down := false, state := DriveDropoff) else running,
                   ovenFinished, vacFinished, w)
    case DriveDropoff =>
      if !s.homed then
        var (s', w) := Home(s, i);
        SuctionOut(s', ovenFinished, vacFinished, w)
      else SuctionOut(s.(state := SuctionWaitingDropoff, homed := false), false, true, map[])
    case SuctionWaitingDropoff =>
      if !vacFinished then SuctionOut(s.(state := Dropoff), ovenFinished, vacFinished, map[])
      else SuctionOut(s, ovenFinished, vacFinished, map[])
    case Dropoff =>
      if !s.down then
        var w := if starting then map[O(12) := 1] else map[];
        SuctionOut(if done then s.(start := None, down := true) else running, ovenFinished, vacFinished, w)
      else if s.vac then
        var w := if starting then map[O(11) := 0] else map[];
        SuctionOut(if done then s.(start := None, vac := false) else running, ovenFinished, vacFinished, w)
      else
        var w := if starting then map[O(12) := 0] else map[];
        if done then SuctionOut(s.(start := None, down := false, state := SuctionWaitingPickup), ovenFinished, false, w)
        else SuctionOut(running, ovenFinished, vacFinished, w)
  }

  function SuctionPhase(v: Vars, i: Inputs): Outcome
  {
    var r := SuctionStep(v.suction, v.ovenFinished, v.vacFinished, i);
    Outcome(v.(suction := r.suction, ovenFinished := r.ovenFinished, vacFinished := r.vacFinished), r.writes)
  }

  // ---------------------------------------------------------------------------------
  // Turntable, saw and belt

  /** What one step of the turntable leaves: its own variables, the two flags it
      handles, the writes. */
  datatype TableOut = TableOut(table: Table, vacFinished: bool, vacFinished2: bool, writes: Writes)

  /** One step of the turntable machine (`task3`), on its own variables and the flags
      it consumes and latches. */
  function TableStep(t: Table, vacFinished: bool, vacFinished2: bool, i: Inputs): TableOut
  {
    var running := t.(start := Some(Begin(t.start, i.now)));
    var elapsed := i.now - Begin(t.start, i.now);
    match t.state
    case PosVac =>
      if !t.homed then
        if !i.i1 then TableOut(t, vacFinished, vacFinished2, map[O(2) := 1])
        else TableOut(t.(homed := true), vacFinished, vacFinished2, map[O(2) := 0])
      else if vacFinished then TableOut(t, false, true, map[])
      else if vacFinished2 then
        if elapsed < 5000 then TableOut(running, vacFinished, vacFinished2, map[])
        else TableOut(t.(state := PosSaw, homed := false, start := None), vacFinished, false, map[])
      else TableOut(t, vacFinished, vacFinished2, map[])
    case PosSaw =>
      if !i.i4 then TableOut(t, vacFinished, vacFinished2, map[O(1) := 1])
      else TableOut(t.(state := Saw), vacFinished, vacFinished2, map[O(1) := 0])
    case Saw =>
      var w := if t.start.None? then map[O(4) := 1] else map[];
      if elapsed < 30000 then TableOut(running, vacFinished, vacFinished2, w)
      else TableOut(t.(state := PosBelt, start := None), vacFinished, vacFinished2, w[O(4) := 0])
    case PosBelt =>
      if !t.belt then
        if !i.i2 then TableOut(t, vacFinished, vacFinished2, map[O(1) := 1])
        else TableOut(t.(belt := true), vacFinished, vacFinished2, map[O(1) := 0])
      else if elapsed < 1000 then TableOut(running, vacFinished, vacFinished2, map[])
      else TableOut(t.(belt := false, start := None, state := Belt), vacFinished, vacFinished2, map[O(14) := 1])
    case Belt =>
      if !t.belt then
        TableOut(if !i.i3 then t.(belt := true) else t, vacFinished, vacFinished2, map[O(3) := 1])
      else
        var w := if t.start.None? then map[O(14) := 0] else map[];
        if elapsed < 2000 then TableOut(running, vacFinished, vacFinished2, w)
        else TableOut(t.(belt := false, start := None, state := PosVac), vacFinished, vacFinished2, w[O(3) := 0])
  }

  function TablePhase(v: Vars, i: Inputs): Outcome
  {
    var r := TableStep(v.table, v.vacFinished, v.vacFinished2, i);
    Outcome(v.(table := r.table, vacFinished := r.vacFinished, vacFinished2 := r.vacFinished2), r.writes)
  }

  // ---------------------------------------------------------------------------------
  // One tick

  /** The first cycle's writes: every output off except the compressor `O_10`. */
  function StartupWrites(): Writes
  {
    Zeroes(Outputs({1, 2, 3, 4, 5, 6, 7, 8, 9, 11, 12, 13, 14}))[O(10) := 1]
  }

  /** One cycle: the start-up writes on the first cycle, then the three machines on the
      same readings, unless the stop event is set. The start-up branch only writes
      outputs: the machines' variables are module state initialised once, which it
      leaves alone, so `i.first` changes the writes of a tick and never its variables. */
  function Step(vr: Variant, v: Vars, i: Inputs): Outcome
  {
    if v.stopped then Outcome(v, map[])
    else
      var o1 := OvenPhase(vr, v, i);
      var o2 := SuctionPhase(o1.vars, i);
      var o3 := TablePhase(o2.vars, i);
      Outcome(o3.vars, (if i.first then StartupWrites() else map[]) + o1.writes + o2.writes + o3.writes)
  }

  /** The start-up branch adds the start-up writes, overridden by whatever the machines
      write in the same tick, and changes nothing else. */
  lemma StartupOnlyWrites(vr: Variant, v: Vars, i: Inputs)
    requires !v.stopped && i.first
    ensures var o := Step(vr, v, i);
            var p := Step(vr, v, i.(first := false));
            && o.vars == p.vars
            && o.writes.Keys == StartupWrites().Keys + p.writes.Keys
            && (forall k :: k in p.writes ==> o.writes[k] == p.writes[k])
            && (forall k :: k in o.writes && k !in p.writes ==> o.writes[k] == StartupWrites()[k])
  {
    var j := i.(first := false);
    assert OvenPhase(vr, v, i) == OvenPhase(vr, v, j) by { OvenIgnoresFirst(vr, v.oven, v.ovenFinished, i); }
    var v1 := OvenPhase(vr, v, i).vars;
    assert SuctionPhase(v1, i) == SuctionPhase(v1, j) by { SuctionIgnoresFirst(v1.suction, v1.ovenFinished, v1.vacFinished, i); }
    var v2 := SuctionPhase(v1, i).vars;
    assert TablePhase(v2, i) == TablePhase(v2, j) by { TableIgnoresFirst(v2.table, v2.vacFinished, v2.vacFinished2, i); }
  }

  lemma OvenIgnoresFirst(vr: Variant, o: Oven, ovenFinished: bool, i: Inputs)
    ensures OvenStep(vr, o, ovenFinished, i) == OvenStep(vr, o, ovenFinished, i.(first := false))
  {
    assert Open(o, i) == Open(o, i.(first := false));
  }

  lemma SuctionIgnoresFirst(s: Suction, ovenFinished: bool, vacFinished: bool, i: Inputs)
    ensures SuctionStep(s, ovenFinished, vacFinished, i) == SuctionStep(s, ovenFinished, vacFinished, i.(first := false))
  {
    assert Home(s, i) == Home(s, i.(first := false));
  }

  lemma TableIgnoresFirst(t: Table, vacFinished: bool, vacFinished2: bool, i: Inputs)
    ensures TableStep(t, vacFinished, vacFinished2, i) == TableStep(t, vacFinished, vacFinished2, i.(first := false))
  {
  }

  /** `programend`: set the stop event and switch every output off, the compressor
      included. */
  function Shutdown(v: Vars): (o: Outcome)
    ensures o.vars.stopped && o.vars == v.(stopped := true)
    ensures o.writes.Keys == Outputs({1, 2, 3, 4, 5, 6, 7, 8, 9, 10, 11, 12, 13, 14}) && AllOff(o.writes, o.writes.Keys)
  {
    Outcome(v.(stopped := true), Zeroes(Outputs({1, 2, 3, 4, 5, 6, 7, 8, 9, 10, 11, 12, 13, 14})))
  }

  // ---------------------------------------------------------------------------------
  // Invariants

  /** Oven: the slider is only ever out while the door is open; the door and slider are
      both out while waiting for a drop-off or a pick-up, both in while burning; the
      timer runs only in a dwell (light-on before opening, drop-off detection, closing
      the door, burning). */
  ghost predicate OvenInv(o: Oven)
  {
    && (o.slider ==> o.door)
    && (o.state == WaitingDropoff ==> o.door && o.slider)
    && (o.state == Burning ==> !o.door && !o.slider)
    && (o.state == WaitingPickup ==> o.door && o.slider && o.start.None?)
    && (o.start.Some? ==>
          || (o.state in {PreparingDropoff, PreparePickup} && !o.door)
          || o.state in {WaitingDropoff, Burning}
          || (o.state == PrepareBurning && o.door && !o.slider))
  }

  /** Suction gripper: up with the vacuum off from the drop-off until the next pick-up,
      up with the vacuum on from the pick-up until the drop-off, the vacuum only ever on
      while lowered during the pick-up and only ever off while lowered during the
      drop-off; the timer runs only during those two sequences. */
  ghost predicate SuctionInv(s: Suction)
  {
    && (s.state in {SuctionWaitingPickup, DrivePickup} ==> !s.down && !s.vac)
    && (s.state == Pickup && s.vac ==> s.down)
    && (s.state in {DriveDropoff, SuctionWaitingDropoff} ==> !s.down && s.vac)
    && (s.state == Dropoff && !s.vac ==> s.down)
    && (s.start.Some? ==> s.state in {Pickup, Dropoff})
  }

  /** Turntable: homed only in POS_VAC, the belt sub-step only in POS_BELT and BELT,
      the timer only in a dwell. */
  ghost predicate TableInv(t: Table)
  {
    && (t.state != PosVac ==> !t.homed)
    && (t.state in {PosVac, PosSaw, Saw} ==> !t.belt)
    && (t.start.Some? ==> (t.state == PosVac && t.homed) || t.state == Saw || (t.state in {PosBelt, Belt} && t.belt))
  }

  /** The producer/consumer handoff: `OvenFinished` is set only while the oven waits for
      the pick-up and the gripper is between its start and its arrival at the turntable
      exactly while it is set; `VacFinished` is set only while the gripper waits at the
      turntable; `VacFinished2` only while the turntable is homed in POS_VAC. */
  ghost predicate Handoff(v: Vars)
  {
    && (v.ovenFinished ==> v.oven.state == WaitingPickup)
    && (v.suction.state in {DrivePickup, Pickup, DriveDropoff} ==> v.ovenFinished)
    && (v.vacFinished ==> v.suction.state == SuctionWaitingDropoff)
    && (v.vacFinished2 ==> v.table.state == PosVac && v.table.homed)
  }

  ghost predicate Inv(v: Vars)
  {
    OvenInv(v.oven) && SuctionInv(v.suction) && TableInv(v.table) && Handoff(v)
  }

  lemma InitialInv()
    ensures Inv(Initial)
  {
  }

  /** The opening sequence keeps the oven's invariant and stays in its state; it
      reports the oven open only with door and slider out and the timer stopped. */
  lemma OpenKeepsInv(o: Oven, i: Inputs)
    requires OvenInv(o) && o.state in {PreparingDropoff, PreparePickup}
    ensures OvenInv(Open(o, i).oven) && Open(o, i).oven.state == o.state
    ensures Open(o, i).isOpen ==> Open(o, i).oven == o && o.door && o.slider && o.start.None?
  {
  }

  // ---------------------------------------------------------------------------------
  // The oven, state by state

  /** PREPARING_DROPOFF and PREPARE_PICKUP: the door opens only after the light has been
      on for 1 s; the slider is driven out only through the open door; the ready signal
      is raised exactly when PREPARING_DROPOFF finds door and slider out (the OPC UA
      status is written on every tick, 1 exactly then); `OvenFinished` is raised exactly
      when PREPARE_PICKUP finds them out. */
  lemma OvenOpening(vr: Variant, v: Vars, i: Inputs)
    requires Inv(v) && v.oven.state in {PreparingDropoff, PreparePickup}
    ensures var o := OvenPhase(vr, v, i);
            var ready := v.oven.door && v.oven.slider;
            && Inv(o.vars)
            && (O(13) in o.writes ==> o.writes[O(13)] == 1 && v.oven.start.Some? && i.now - v.oven.start.value >= 1000)
            && (O(6) in o.writes && o.writes[O(6)] == 1 ==> v.oven.door)
            && (ReadyPoint(vr) in o.writes && o.writes[ReadyPoint(vr)] == 1 <==> v.oven.state == PreparingDropoff && ready)
            && (ReadyPoint(vr) in o.writes && o.writes[ReadyPoint(vr)] == 1 ==> o.vars.oven.state == WaitingDropoff)
            && (vr == Modbus ==> (ReadyPoint(vr) in o.writes <==> v.oven.state == PreparingDropoff && ready))
            && (vr == Opcua ==> ReadyPoint(vr) in o.writes)
            && (o.vars.ovenFinished <==> v.oven.state == PreparePickup && ready)
            && (o.vars.oven.state != v.oven.state <==> ready)
            && o.vars.oven.state == (if !ready then v.oven.state else if v.oven.state == PreparingDropoff then WaitingDropoff else WaitingPickup)
  {
    OpenKeepsInv(v.oven, i);
  }

  /** WAITING_DROPOFF: the first tick the light barrier `I_9` reads 0 starts the timer
      and withdraws the ready signal; nothing else is written; the oven closes only once
      that timer has run 5 s. */
  lemma OvenDetection(vr: Variant, v: Vars, i: Inputs)
    requires Inv(v) && v.oven.state == WaitingDropoff
    ensures var o := OvenPhase(vr, v, i);
            && Inv(o.vars)
            && o.writes.Keys <= {ReadyPoint(vr)}
            && (ReadyPoint(vr) in o.writes <==> !i.i9 && v.oven.start.None?)
            && (ReadyPoint(vr) in o.writes ==> o.writes[ReadyPoint(vr)] == 0)
            && (o.vars.oven.state == PrepareBurning <==> v.oven.start.Some? && i.now - v.oven.start.value >= 5000)
            && (o.vars.oven.state != PrepareBurning ==> o.vars.oven.state == WaitingDropoff)
  {
  }

  /** PREPARE_BURNING: the slider is pulled in first; the door is closed only once the
      slider is in, by writing `O_13` 0 on every tick of a 1 s wait; the burn starts
      with the light off once both are in. The OPC UA status is written 0 on every
      tick; the Modbus ready signal is not touched. */
  lemma OvenClosing(vr: Variant, v: Vars, i: Inputs)
    requires Inv(v) && v.oven.state == PrepareBurning
    ensures var o := OvenPhase(vr, v, i);
            var closing := v.oven.door && !v.oven.slider;
            var waited := v.oven.start.Some? && i.now - v.oven.start.value >= 1000;
            && Inv(o.vars)
            && (vr == Opcua ==> ReadyPoint(vr) in o.writes && o.writes[ReadyPoint(vr)] == 0)
            && (vr == Modbus ==> ReadyPoint(vr) !in o.writes)
            && (O(13) in o.writes ==> o.writes[O(13)] == 0 && !v.oven.slider)
            && (O(13) in o.writes <==> closing && !waited)
            && (closing ==> (o.vars.oven.door <==> !waited))
            && (o.vars.oven.door != v.oven.door ==> closing && waited)
            && (O(5) in o.writes ==> v.oven.slider)
            && (o.vars.oven.state == Burning <==> !v.oven.door && !v.oven.slider)
            && (o.vars.oven.state == Burning ==> O(9) in o.writes && o.writes[O(9)] == 0)
            && (o.vars.oven.state != Burning ==> o.vars.oven.state == PrepareBurning)
  {
  }

  /** BURNING: the oven leaves only once the burn timer has run the burn time; nothing
      is written but the OPC UA status 0. */
  lemma OvenBurning(vr: Variant, v: Vars, i: Inputs)
    requires Inv(v) && v.oven.state == Burning
    ensures var o := OvenPhase(vr, v, i);
            && Inv(o.vars)
            && o.writes == (if vr == Opcua then map[Shared("multi_status") := 0] else map[])
            && (o.vars.oven.state == PreparePickup <==> v.oven.start.Some? && i.now - v.oven.start.value >= BurnTime(vr))
            && (o.vars.oven.state != PreparePickup ==> o.vars.oven.state == Burning && o.vars.oven.start.Some?)
  {
  }

  /** WAITING_PICKUP: the oven starts its next cycle only once the gripper has cleared
      `OvenFinished`. */
  lemma OvenRelease(vr: Variant, v: Vars, i: Inputs)
    requires Inv(v) && v.oven.state == WaitingPickup
    ensures var o := OvenPhase(vr, v, i);
            && Inv(o.vars)
            && o.writes == map[]
            && (o.vars.oven.state == PreparingDropoff <==> !v.ovenFinished)
            && (o.vars.oven.state != PreparingDropoff ==> o.vars == v)
  {
  }

  lemma OvenPhaseKeepsInv(vr: Variant, v: Vars, i: Inputs)
    requires Inv(v)
    ensures Inv(OvenPhase(vr, v, i).vars)
  {
    match v.oven.state
    case PreparingDropoff => OvenOpening(vr, v, i);
    case WaitingDropoff => OvenDetection(vr, v, i);
    case PrepareBurning => OvenClosing(vr, v, i);
    case Burning => OvenBurning(vr, v, i);
    case PreparePickup => OvenOpening(vr, v, i);
    case WaitingPickup => OvenRelease(vr, v, i);
  }

  // ---------------------------------------------------------------------------------
  // The suction gripper, state by state

  /** WAITING_PICKUP: home to the turntable reference first; leave for the oven only
      when homed and the oven has raised `OvenFinished`. */
  lemma SuctionStart(v: Vars, i: Inputs)
    requires Inv(v) && v.suction.state == SuctionWaitingPickup
    ensures var o := SuctionPhase(v, i);
            && Inv(o.vars)
            && (o.vars.suction.state == DrivePickup <==> v.suction.homed && v.ovenFinished)
            && (o.vars.suction.state != DrivePickup ==> o.vars.suction.state == SuctionWaitingPickup)
            && (O(8) in o.writes ==> !v.suction.homed && (o.writes[O(8)] == 1 <==> !i.i5))
            && o.vars.ovenFinished == v.ovenFinished && o.vars.vacFinished == v.vacFinished
  {
  }

  /** PICKUP: lower, then vacuum on, then raise, each step completing only once its
      timer has run 1 s; the sequence ends raised with the vacuum on, in
      DRIVE_DROPOFF. */
  lemma SuctionPickup(v: Vars, i: Inputs)
    requires Inv(v) && v.suction.state == Pickup
    ensures var o := SuctionPhase(v, i);
            var s, s' := v.suction, o.vars.suction;
            && Inv(o.vars)
            && ((s'.down, s'.vac, s'.state) != (s.down, s.vac, s.state) ==>
                  s.start.Some? && i.now - s.start.value >= 1000)
            && (s'.vac && !s.vac ==> s.down)
            && (s'.state != Pickup ==> s'.state == DriveDropoff && !s'.down && s'.vac)
            && (O(11) in o.writes && o.writes[O(11)] == 1 ==> s.down)
            && o.vars.ovenFinished == v.ovenFinished && o.vars.vacFinished == v.vacFinished
  {
  }

  /** DRIVE_DROPOFF: back at the turntable reference, the gripper hands over: it clears
      `OvenFinished`, raises `VacFinished` and waits. */
  lemma SuctionArrival(v: Vars, i: Inputs)
    requires Inv(v) && v.suction.state == DriveDropoff
    ensures var o := SuctionPhase(v, i);
            && Inv(o.vars)
            && (o.vars.suction.state != DriveDropoff <==> v.suction.homed)
            && (o.vars.suction.state != DriveDropoff ==>
                  && o.vars.suction.state == SuctionWaitingDropoff && !o.vars.suction.homed
                  && !o.vars.ovenFinished && o.vars.vacFinished && !v.vacFinished)
            && (o.vars.suction.state == DriveDropoff ==> o.vars.ovenFinished && o.vars.vacFinished == v.vacFinished)
  {
  }

  /** WAITING_DROPOFF: while `VacFinished` is still set the gripper does nothing at all,
      so it never raises the flag again before the turntable has consumed it. */
  lemma SuctionWaitsForTable(v: Vars, i: Inputs)
    requires Inv(v) && v.suction.state == SuctionWaitingDropoff
    ensures var o := SuctionPhase(v, i);
            && Inv(o.vars)
            && o.writes == map[]
            && (v.vacFinished ==> o.vars == v)
            && (!v.vacFinished ==> o.vars == v.(suction := v.suction.(state := Dropoff)))
  {
  }

  /** DROPOFF: lower, then vacuum off, then raise, each after 1 s; the sequence ends
      raised with the vacuum off, `VacFinished` clear, back in WAITING_PICKUP. */
  lemma SuctionDropoff(v: Vars, i: Inputs)
    requires Inv(v) && v.suction.state == Dropoff
    ensures var o := SuctionPhase(v, i);
            var s, s' := v.suction, o.vars.suction;
            && Inv(o.vars)
            && ((s'.down, s'.vac, s'.state) != (s.down, s.vac, s.state) ==>
                  s.start.Some? && i.now - s.start.value >= 1000)
            && (!s'.vac && s.vac ==> s.down)
            && (s'.state != Dropoff ==> s'.state == SuctionWaitingPickup && !s'.down && !s'.vac && !o.vars.vacFinished)
            && o.vars.ovenFinished == v.ovenFinished
  {
  }

  lemma SuctionPhaseKeepsInv(v: Vars, i: Inputs)
    requires Inv(v)
    ensures Inv(SuctionPhase(v, i).vars)
  {
    match v.suction.state
    case SuctionWaitingPickup => SuctionStart(v, i);
    case DrivePickup =>
    case Pickup => SuctionPickup(v, i);
    case DriveDropoff => SuctionArrival(v, i);
    case SuctionWaitingDropoff => SuctionWaitsForTable(v, i);
    case Dropoff => SuctionDropoff(v, i);
  }

  // ---------------------------------------------------------------------------------
  // The turntable, state by state

  /** POS_VAC: once homed the turntable consumes `VacFinished`, latching `VacFinished2`;
      it turns to the saw only after the latched part has rested there 5 s, clearing the
      latch and the homed flag. */
  lemma TableLoad(v: Vars, i: Inputs)
    requires Inv(v) && v.table.state == PosVac
    ensures var o := TablePhase(v, i);
            var t := v.table;
            && Inv(o.vars)
            && (t.homed && v.vacFinished ==>
                  o.vars == v.(vacFinished := false, vacFinished2 := true) && o.writes == map[])
            && (o.vars.table.state != PosVac <==>
                  t.homed && !v.vacFinished && v.vacFinished2 && t.start.Some? && i.now - t.start.value >= 5000)
            && (o.vars.table.state != PosVac ==>
                  o.vars.table.state == PosSaw && !o.vars.vacFinished2 && !o.vars.table.homed)
            && (!v.vacFinished ==> !o.vars.vacFinished)
  {
  }

  /** SAW: the saw `O_4` is switched on on the first tick and off on the tick the 30 s
      dwell ends, which is also the tick the turntable leaves. */
  lemma SawDwell(v: Vars, i: Inputs)
    requires Inv(v) && v.table.state == Saw
    ensures var o := TablePhase(v, i);
            var t := v.table;
            && Inv(o.vars)
            && (O(4) in o.writes && o.writes[O(4)] == 1 <==> t.start.None?)
            && (O(4) in o.writes && o.writes[O(4)] == 0 <==> o.vars.table.state == PosBelt)
            && (o.vars.table.state == PosBelt <==> t.start.Some? && i.now - t.start.value >= 30000)
            && (o.vars.table.state != PosBelt ==> o.vars.table.state == Saw)
  {
  }

  /** POS_SAW: the turntable turns (`O_1` 1) until the saw switch `I_4` reads 1, then
      stops (`O_1` 0) and starts sawing; nothing else changes. */
  lemma TableToSaw(v: Vars, i: Inputs)
    requires Inv(v) && v.table.state == PosSaw
    ensures var o := TablePhase(v, i);
            && Inv(o.vars)
            && o.writes == map[O(1) := if i.i4 then 0 else 1]
            && o.vars == v.(table := o.vars.table)
            && o.vars.table == (if i.i4 then v.table.(state := Saw) else v.table)
  {
  }

  /** POS_BELT: the turntable turns until the belt switch `I_2` reads 1 and stops; after
      a further 1 s the pusher `O_14` is switched on and the belt sub-step begins;
      nothing else changes. */
  lemma TableDelivery(v: Vars, i: Inputs)
    requires Inv(v) && v.table.state == PosBelt
    ensures var o := TablePhase(v, i);
            var t := v.table;
            var waited := t.start.Some? && i.now - t.start.value >= 1000;
            && Inv(o.vars)
            && o.vars == v.(table := o.vars.table)
            && (!t.belt ==> o.writes == map[O(1) := if i.i2 then 0 else 1]
                            && o.vars.table.state == PosBelt && (o.vars.table.belt <==> i.i2))
            && (t.belt ==> O(1) !in o.writes)
            && (o.vars.table.state == Belt <==> t.belt && waited)
            && (o.vars.table.state == Belt ==> o.writes == map[O(14) := 1] && !o.vars.table.belt)
            && (t.belt && !waited ==> o.writes == map[] && o.vars.table.state == PosBelt && o.vars.table.belt)
  {
  }

  /** BELT: the belt `O_3` runs until the end-of-belt barrier `I_3` reads 0; then the
      pusher is withdrawn (`O_14` 0) and the belt runs on for 2 s before it stops and
      the turntable returns to POS_VAC; nothing else changes. */
  lemma BeltRunOn(v: Vars, i: Inputs)
    requires Inv(v) && v.table.state == Belt
    ensures var o := TablePhase(v, i);
            var t := v.table;
            var waited := t.start.Some? && i.now - t.start.value >= 2000;
            && Inv(o.vars)
            && o.vars == v.(table := o.vars.table)
            && (!t.belt ==> o.writes == map[O(3) := 1]
                            && o.vars.table.state == Belt && (o.vars.table.belt <==> !i.i3))
            && (t.belt ==> (O(14) in o.writes <==> t.start.None?))
            && (O(14) in o.writes ==> o.writes[O(14)] == 0)
            && (o.vars.table.state == PosVac <==> t.belt && waited)
            && (o.vars.table.state == PosVac ==> O(3) in o.writes && o.writes[O(3)] == 0 && !o.vars.table.homed)
            && (t.belt && !waited ==> O(3) !in o.writes && o.vars.table.state == Belt)
  {
  }

  lemma TablePhaseKeepsInv(v: Vars, i: Inputs)
    requires Inv(v)
    ensures Inv(TablePhase(v, i).vars)
  {
    match v.table.state
    case PosVac => TableLoad(v, i);
    case PosSaw => TableToSaw(v, i);
    case Saw => SawDwell(v, i);
    case PosBelt => TableDelivery(v, i);
    case Belt => BeltRunOn(v, i);
  }

  lemma StepKeepsInv(vr: Variant, v: Vars, i: Inputs)
    requires Inv(v)
    ensures Inv(Step(vr, v, i).vars)
  {
    if !v.stopped {
      OvenPhaseKeepsInv(vr, v, i);
      var v1 := OvenPhase(vr, v, i).vars;
      SuctionPhaseKeepsInv(v1, i);
      TablePhaseKeepsInv(SuctionPhase(v1, i).vars, i);
    }
  }

  // ---------------------------------------------------------------------------------
  // Composition

  function NextOven(s: OvenState): OvenState
  {
    match s
    case PreparingDropoff => WaitingDropoff
    case WaitingDropoff => PrepareBurning
    case PrepareBurning => Burning
    case Burning => PreparePickup
    case PreparePickup => WaitingPickup
    case WaitingPickup => PreparingDropoff
  }

  function NextSuction(s: SuctionState): SuctionState
  {
    match s
    case SuctionWaitingPickup => DrivePickup
    case DrivePickup => Pickup
    case Pickup => DriveDropoff
    case DriveDropoff => SuctionWaitingDropoff
    case SuctionWaitingDropoff => Dropoff
    case Dropoff => SuctionWaitingPickup
  }

  function NextTable(s: TableState): TableState
  {
    match s
    case PosVac => PosSaw
    case PosSaw => Saw
    case Saw => PosBelt
    case PosBelt => Belt
    case Belt => PosVac
  }

  /** Each machine moves at most one state along its own cycle per step. Of the shared
      flags, the oven only ever raises `OvenFinished`, the gripper only ever clears it,
      and the turntable only ever clears `VacFinished`. */
  lemma OvenAdvances(vr: Variant, o: Oven, ovenFinished: bool, i: Inputs)
    ensures var r := OvenStep(vr, o, ovenFinished, i);
            && (r.oven.state == o.state || r.oven.state == NextOven(o.state))
            && (ovenFinished ==> r.ovenFinished)
  {
  }

  lemma SuctionAdvances(s: Suction, ovenFinished: bool, vacFinished: bool, i: Inputs)
    ensures var r := SuctionStep(s, ovenFinished, vacFinished, i);
            && (r.suction.state == s.state || r.suction.state == NextSuction(s.state))
            && (r.ovenFinished ==> ovenFinished)
  {
  }

  lemma TableAdvances(t: Table, vacFinished: bool, vacFinished2: bool, i: Inputs)
    ensures var r := TableStep(t, vacFinished, vacFinished2, i);
            && (r.table.state == t.state || r.table.state == NextTable(t.state))
            && (r.vacFinished ==> vacFinished)
  {
  }

  /** In one cycle every machine stays where it is or moves to the next state of its
      own cycle: oven PREPARING_DROPOFF → WAITING_DROPOFF → PREPARE_BURNING → BURNING →
      PREPARE_PICKUP → WAITING_PICKUP → PREPARING_DROPOFF, turntable POS_VAC → POS_SAW →
      SAW → POS_BELT → BELT → POS_VAC, and likewise the gripper. */
  lemma Cycles(vr: Variant, v: Vars, i: Inputs)
    ensures var r := Step(vr, v, i).vars;
            && (r.oven.state == v.oven.state || r.oven.state == NextOven(v.oven.state))
            && (r.suction.state == v.suction.state || r.suction.state == NextSuction(v.suction.state))
            && (r.table.state == v.table.state || r.table.state == NextTable(v.table.state))
  {
    if !v.stopped {
      var v1 := OvenPhase(vr, v, i).vars;
      var v2 := SuctionPhase(v1, i).vars;
      OvenAdvances(vr, v.oven, v.ovenFinished, i);
      SuctionAdvances(v1.suction, v1.ovenFinished, v1.vacFinished, i);
      TableAdvances(v2.table, v2.vacFinished, v2.vacFinished2, i);
    }
  }

  /** The outputs each machine drives. */
  function OvenPoints(vr: Variant): set<Point>
  {
    {O(5), O(6), O(9), O(13), ReadyPoint(vr)}
  }

  const SuctionPoints: set<Point> := {O(7), O(8), O(11), O(12)}

  const TablePoints: set<Point> := {O(1), O(2), O(3), O(4), O(14)}

  /** Each machine writes only its own outputs. */
  lemma OvenOutputs(vr: Variant, v: Vars, i: Inputs)
    ensures OvenPhase(vr, v, i).writes.Keys <= OvenPoints(vr)
  {
    match v.oven.state
    case PreparingDropoff =>
    case WaitingDropoff =>
    case PrepareBurning =>
    case Burning =>
    case PreparePickup =>
    case WaitingPickup =>
  }

  lemma SuctionOutputs(v: Vars, i: Inputs)
    ensures SuctionPhase(v, i).writes.Keys <= SuctionPoints
  {
    match v.suction.state
    case SuctionWaitingPickup =>
    case DrivePickup =>
    case Pickup =>
    case DriveDropoff =>
    case SuctionWaitingDropoff =>
    case Dropoff =>
  }

  lemma TableOutputs(v: Vars, i: Inputs)
    ensures TablePhase(v, i).writes.Keys <= TablePoints
  {
    match v.table.state
    case PosVac =>
    case PosSaw =>
    case Saw =>
    case PosBelt =>
    case Belt =>
  }

  /** The three machines drive disjoint outputs, so whatever order the threads run in,
      every output a machine writes in a cycle ends the cycle with that machine's
      value. */
  lemma OutputsOwned(vr: Variant, v: Vars, i: Inputs)
    requires !v.stopped && !i.first
    ensures OvenPoints(vr) !! SuctionPoints && OvenPoints(vr) !! TablePoints && SuctionPoints !! TablePoints
    ensures var o1 := OvenPhase(vr, v, i);
            var o2 := SuctionPhase(o1.vars, i);
            var o3 := TablePhase(o2.vars, i);
            var w := Step(vr, v, i).writes;
            && w.Keys == o1.writes.Keys + o2.writes.Keys + o3.writes.Keys
            && (forall p :: p in o1.writes ==> w[p] == o1.writes[p])
            && (forall p :: p in o2.writes ==> w[p] == o2.writes[p])
            && (forall p :: p in o3.writes ==> w[p] == o3.writes[p])
  {
    var o1 := OvenPhase(vr, v, i);
    var o2 := SuctionPhase(o1.vars, i);
    var o3 := TablePhase(o2.vars, i);
    OvenOutputs(vr, v, i);
    SuctionOutputs(o1.vars, i);
    TableOutputs(o2.vars, i);
    assert Step(vr, v, i).writes == map[] + o1.writes + o2.writes + o3.writes;
  }

  /** The variables after running one cycle per input record. */
  function Run(vr: Variant, v: Vars, ins: seq<Inputs>): (r: Vars)
    requires Inv(v)
    ensures Inv(r)
    decreases |ins|
  {
    if ins == [] then v
    else
      StepKeepsInv(vr, v, ins[0]);
      Run(vr, Step(vr, v, ins[0]).vars, ins[1..])
  }

  /** From start-up, in every reachable state the gripper is driving to or lowering into
      the oven only while the oven waits for the pick-up with its door open and its
      slider out, and a part is announced to the turntable only while the gripper waits
      above it. */
  lemma GripperOnlyAtOpenOven(vr: Variant, ins: seq<Inputs>)
    ensures Inv(Initial)
    ensures var r := Run(vr, Initial, ins);
            && (r.suction.state in {DrivePickup, Pickup} ==>
                  r.oven.state == WaitingPickup && r.oven.door && r.oven.slider)
            && (r.vacFinished ==> r.suction.state == SuctionWaitingDropoff && r.suction.vac)
  {
    InitialInv();
  }

  /** The three tasks the cycle event wakes. */
  datatype Machine = OvenMachine | SuctionMachine | TableMachine

  /** One step of one task on the shared variables. */
  function Phase(vr: Variant, m: Machine, v: Vars, i: Inputs): Outcome
  {
    match m
    case OvenMachine => OvenPhase(vr, v, i)
    case SuctionMachine => SuctionPhase(v, i)
    case TableMachine => TablePhase(v, i)
  }

  /** The variables after the tasks in `ms` have stepped, in that order, on the same
      readings: any interleaving of the threads within a cycle, a task that missed the
      wake-up left out, or one that ran twice. */
  function Phases(vr: Variant, ms: seq<Machine>, v: Vars, i: Inputs): (r: Vars)
    requires Inv(v)
    ensures Inv(r)
    decreases |ms|
  {
    if ms == [] then v
    else
      PhaseKeepsInv(vr, ms[0], v, i);
      Phases(vr, ms[1..], Phase(vr, ms[0], v, i).vars, i)
  }

  lemma PhaseKeepsInv(vr: Variant, m: Machine, v: Vars, i: Inputs)
    requires Inv(v)
    ensures Inv(Phase(vr, m, v, i).vars)
  {
    match m
    case OvenMachine => OvenPhaseKeepsInv(vr, v, i);
    case SuctionMachine => SuctionPhaseKeepsInv(v, i);
    case TableMachine => TablePhaseKeepsInv(v, i);
  }

  /** One scheduled cycle: the tasks that ran, in the order they ran, and the readings. */
  datatype Round = Round(ms: seq<Machine>, i: Inputs)

  /** The variables after a sequence of scheduled cycles. */
  function Schedule(vr: Variant, v: Vars, rounds: seq<Round>): (r: Vars)
    requires Inv(v)
    ensures Inv(r)
    decreases |rounds|
  {
    if rounds == [] then v
    else Schedule(vr, Phases(vr, rounds[0].ms, v, rounds[0].i), rounds[1..])
  }

  /** The safety of `GripperOnlyAtOpenOven` does not rest on the fixed order: under any
      interleaving of the three threads, with wake-ups missed or repeated, the gripper
      reaches into the oven only while it is open and waiting for the pick-up, and a part
      is announced to the turntable only while the gripper holds it above it. */
  lemma GripperOnlyAtOpenOvenAnyOrder(vr: Variant, rounds: seq<Round>)
    ensures Inv(Initial)
    ensures var r := Schedule(vr, Initial, rounds);
            && (r.suction.state in {DrivePickup, Pickup} ==>
                  r.oven.state == WaitingPickup && r.oven.door && r.oven.slider)
            && (r.vacFinished ==> r.suction.state == SuctionWaitingDropoff && r.suction.vac)
  {
    InitialInv();
  }

  /** After `programend` further cycles leave every variable as it is. */
  lemma {:induction false} StoppedIsFinal(vr: Variant, v: Vars, ins: seq<Inputs>)
    requires Inv(v) && v.stopped
    ensures Run(vr, v, ins) == v
    decreases |ins|
  {
    if ins != [] {
      StoppedIsFinal(vr, v, ins[1..]);
    }
  }

  // ---------------------------------------------------------------------------------
  // The station as the source runs it: global variables updated in place by the three
  // task bodies

  class Controller {
    const variant: Variant
    var ovenState: OvenState
    var ovenStart: Timer
    var door: bool
    var slider: bool
    var ovenFinished: bool
    var suctionState: SuctionState
    var suctionStart: Timer
    var suctionHomed: bool
    var down: bool
    var vac: bool
    var vacFinished: bool
    var tableState: TableState
    var tableStart: Timer
    var tableHomed: bool
    var belt: bool
    var vacFinished2: bool
    var stopped: bool

    function Snapshot(): Vars
      reads this
    {
      Vars(Oven(ovenState, ovenStart, door, slider),
           Suction(suctionState, suctionStart, suctionHomed, down, vac),
           Table(tableState, tableStart, tableHomed, belt),
           ovenFinished, vacFinished, vacFinished2, stopped)
    }

    ghost predicate Valid()
      reads this
    {
      Inv(Snapshot())
    }

    function OvenVars(): Oven
      reads this
    {
      Oven(ovenState, ovenStart, door, slider)
    }

    function SuctionVars(): Suction
      reads this
    {
      Suction(suctionState, suctionStart, suctionHomed, down, vac)
    }

    function TableVars(): Table
      reads this
    {
      Table(tableState, tableStart, tableHomed, belt)
    }

    /** The module-level initial values of the source. */
    constructor (vr: Variant)
      ensures variant == vr && Snapshot() == Initial && Valid()
    {
      variant := vr;
      ovenState, ovenStart, door, slider, ovenFinished := PreparingDropoff, None, false, false, false;
      suctionState, suctionStart, suctionHomed, down, vac := SuctionWaitingPickup, None, false, false, false;
      tableState, tableStart, tableHomed, belt := PosVac, None, false, false;
      vacFinished, vacFinished2, stopped := false, false, false;
    }

    /** The opening sequence on the oven's fields. */
    method OpenOven(i: Inputs) returns (w: Writes, isOpen: bool)
      modifies this`ovenState, this`ovenStart, this`door, this`slider
      ensures var r := Open(old(OvenVars()), i);
              OvenVars() == r.oven && w == r.writes && isOpen == r.isOpen
    {
      w, isOpen := map[], false;
      if !door {
        if ovenStart.None? {
          ovenStart := Some(i.now);
          w := w[O(9) := 1];
        }
        if i.now - ovenStart.value >= 1000 {
          w := w[O(13) := 1];
          ovenStart := None;
          door := true;
        }
      } else if !slider {
        if !i.i7 {
          w := w[O(6) := 1];
        } else {
          w := w[O(6) := 0];
          ovenStart := None;
          slider := true;
        }
      } else {
        isOpen := true;
      }
    }

    /** PREPARING_DROPOFF and PREPARE_PICKUP: open the oven; once open, signal the
        gripper cell (drop-off) or hand the workpiece on (pick-up). */
    method OpenForTransfer(i: Inputs) returns (w: Writes)
      requires ovenState == PreparingDropoff || ovenState == PreparePickup
      modifies this`ovenState, this`ovenStart, this`door, this`slider, this`ovenFinished
      ensures var r := OvenStep(variant, old(OvenVars()), old(ovenFinished), i);
              OvenVars() == r.oven && ovenFinished == r.ovenFinished && w == r.writes
    {
      w := ClearStatus(variant);
      var ow, isOpen := OpenOven(i);
      w := w + ow;
      if isOpen {
        if ovenState == PreparingDropoff {
          ovenState := WaitingDropoff;
          w := w[ReadyPoint(variant) := 1];
        } else {
          ovenFinished := true;
          ovenState := WaitingPickup;
        }
      }
    }

    /** PREPARE_BURNING: slider in (I_6), door closed for 1 s, light off. */
    method CloseOven(i: Inputs) returns (w: Writes)
      requires ovenState == PrepareBurning
      modifies this`ovenState, this`ovenStart, this`door, this`slider
      ensures var r := OvenStep(variant, old(OvenVars()), ovenFinished, i);
              OvenVars() == r.oven && w == r.writes
    {
      w := ClearStatus(variant);
      if slider {
        if !i.i6 {
          w := w[O(5) := 1];
        } else {
          w := w[O(5) := 0];
          ovenStart := None;
          slider := false;
        }
      } else if door {
        if ovenStart.None? {
          ovenStart := Some(i.now);
        }
        if i.now - ovenStart.value < 1000 {
          w := w[O(13) := 0];
        } else {
          ovenStart := None;
          door := false;
        }
      } else {
        w := w[O(9) := 0];
        ovenState := Burning;
      }
    }

    /** `task1`: one step of the oven. */
    method OvenTask(i: Inputs) returns (w: Writes)
      modifies this`ovenState, this`ovenStart, this`door, this`slider, this`ovenFinished
      ensures var r := OvenStep(variant, old(OvenVars()), old(ovenFinished), i);
              OvenVars() == r.oven && ovenFinished == r.ovenFinished && w == r.writes
    {
      match ovenState
      case PreparingDropoff =>
        w := OpenForTransfer(i);
      case WaitingDropoff =>
        w := map[];
        if !i.i9 && ovenStart.None? {
          ovenStart := Some(i.now);
          w := w[ReadyPoint(variant) := 0];
        }
        if ovenStart.Some? && i.now - ovenStart.value >= 5000 {
          ovenStart := None;
          ovenState := PrepareBurning;
        }
      case PrepareBurning =>
        w := CloseOven(i);
      case Burning =>
        w := ClearStatus(variant);
        if ovenStart.None? {
          ovenStart := Some(i.now);
        }
        if i.now - ovenStart.value >= BurnTime(variant) {
          ovenState := PreparePickup;
          ovenStart := None;
        }
      case PreparePickup =>
        w := OpenForTransfer(i);
      case WaitingPickup =>
        w := map[];
        if !ovenFinished {
          ovenState := PreparingDropoff;
        }
    }

    /** Drive the gripper to the turntable reference `I_5`. */
    method HomeSuction(i: Inputs) returns (w: Writes)
      modifies this`suctionHomed
      ensures (SuctionVars(), w) == Home(old(SuctionVars()), i)
    {
      w := map[O(8) := 1];
      if i.i5 {
        w := w[O(8) := 0];
        assert w == map[O(8) := 0];
        suctionHomed := true;
      }
    }

    /** One timed step of the pick-up or drop-off sequence: start the timer (writing
        `entry` on that tick) and report whether it has run 1 s. */
    method Dwell(i: Inputs, entry: Writes) returns (w: Writes, done: bool)
      modifies this`suctionStart
      ensures w == (if old(suctionStart).None? then entry else map[])
      ensures done == (i.now - Begin(old(suctionStart), i.now) >= 1000)
      ensures suctionStart == Some(Begin(old(suctionStart), i.now))
    {
      w := map[];
      if suctionStart.None? {
        suctionStart := Some(i.now);
        w := entry;
      }
      done := i.now - suctionStart.value >= 1000;
    }

    /** PICKUP: lower, vacuum on, raise, each held for 1 s. */
    method PickupSequence(i: Inputs) returns (w: Writes)
      requires suctionState == Pickup
      modifies this`suctionState, this`suctionStart, this`suctionHomed, this`down, this`vac
      ensures var r := SuctionStep(old(SuctionVars()), ovenFinished, vacFinished, i);
              SuctionVars() == r.suction && w == r.writes
    {
      var done;
      if !down {
        w, done := Dwell(i, map[O(12) := 1, O(11) := 0]);
        if done {
          suctionStart := None;
          down := true;
        }
      } else if !vac {
        w, done := Dwell(i, map[O(11) := 1]);
        if done {
          suctionStart := None;
          vac := true;
        }
      } else {
        w, done := Dwell(i, map[O(12) := 0]);
        if done {
          suctionStart := None;
          down := false;
          suctionState := DriveDropoff;
        }
      }
    }

    /** DROPOFF: lower, vacuum off, raise, each held for 1 s. */
    method DropoffSequence(i: Inputs) returns (w: Writes)
      requires suctionState == Dropoff
      modifies this`suctionState, this`suctionStart, this`suctionHomed, this`down, this`vac, this`vacFinished
      ensures var r := SuctionStep(old(SuctionVars()), ovenFinished, old(vacFinished), i);
              SuctionVars() == r.suction && vacFinished == r.vacFinished && w == r.writes
    {
      var done;
      if !down {
        w, done := Dwell(i, map[O(12) := 1]);
        if done {
          suctionStart := None;
          down := true;
        }
      } else if vac {
        w, done := Dwell(i, map[O(11) := 0]);
        if done {
          suctionStart := None;
          vac := false;
        }
      } else {
        w, done := Dwell(i, map[O(12) := 0]);
        if done {
          suctionStart := None;
          down := false;
          vacFinished := false;
          suctionState := SuctionWaitingPickup;
        }
      }
    }

    /** `task2`: one step of the suction gripper. */
    method SuctionTask(i: Inputs) returns (w: Writes)
      modifies this`suctionState, this`suctionStart, this`suctionHomed, this`down, this`vac, this`ovenFinished, this`vacFinished
      ensures var r := SuctionStep(old(SuctionVars()), old(ovenFinished), old(vacFinished), i);
              SuctionVars() == r.suction && ovenFinished == r.ovenFinished && vacFinished == r.vacFinished
              && w == r.writes
    {
      w := map[];
      if suctionState == SuctionWaitingPickup {
        if !suctionHomed {
          w := HomeSuction(i);
        } else if ovenFinished {
          suctionState := DrivePickup;
          suctionStart := None;
        }
      } else if suctionState == DrivePickup {
        if !i.i8 {
          w := w[O(7) := 1];
          suctionHomed := false;
        } else {
          w := w[O(7) := 0];
          suctionState := Pickup;
        }
      } else if suctionState == Pickup {
        w := PickupSequence(i);
      } else if suctionState == DriveDropoff {
        if !suctionHomed {
          w := HomeSuction(i);
        } else {
          ovenFinished := false;
          vacFinished := true;
          suctionState := SuctionWaitingDropoff;
          suctionHomed := false;
        }
      } else if suctionState == SuctionWaitingDropoff {
        if !vacFinished {
          suctionState := Dropoff;
        }
      } else {
        w := DropoffSequence(i);
      }
    }

    /** POS_VAC: home against I_1, take over the workpiece from the suction gripper and
        give it 5 s before turning to the saw. */
    method LoadTable(i: Inputs) returns (w: Writes)
      requires tableState == PosVac
      modifies this`tableState, this`tableStart, this`tableHomed, this`belt, this`vacFinished, this`vacFinished2
      ensures var r := TableStep(old(TableVars()), old(vacFinished), old(vacFinished2), i);
              TableVars() == r.table && vacFinished == r.vacFinished && vacFinished2 == r.vacFinished2
              && w == r.writes
    {
      w := map[];
      if !tableHomed {
        if !i.i1 {
          w := w[O(2) := 1];
        } else {
          w := w[O(2) := 0];
          tableHomed := true;
        }
      } else if vacFinished {
        vacFinished := false;
        vacFinished2 := true;
      } else if vacFinished2 {
        if tableStart.None? {
          tableStart := Some(i.now);
        }
        if i.now - tableStart.value >= 5000 {
          tableState := PosSaw;
          vacFinished2 := false;
          tableHomed := false;
          tableStart := None;
        }
      }
    }

    /** POS_SAW and SAW: turn to the saw, then run it for 30 s. */
    method SawTable(i: Inputs) returns (w: Writes)
      requires tableState == PosSaw || tableState == Saw
      modifies this`tableState, this`tableStart, this`tableHomed, this`belt
      ensures var r := TableStep(old(TableVars()), vacFinished, vacFinished2, i);
              TableVars() == r.table && w == r.writes
    {
      w := map[];
      if tableState == PosSaw {
        if !i.i4 {
          w := w[O(1) := 1];
        } else {
          w := w[O(1) := 0];
          tableState := Saw;
        }
      } else {
        if tableStart.None? {
          tableStart := Some(i.now);
          w := w[O(4) := 1];
        }
        if i.now - tableStart.value >= 30000 {
          tableState := PosBelt;
          w := w[O(4) := 0];
          tableStart := None;
        }
      }
    }

    /** POS_BELT: turn to the belt, then push the workpiece off for 1 s. */
    method PushToBelt(i: Inputs) returns (w: Writes)
      requires tableState == PosBelt
      modifies this`tableState, this`tableStart, this`tableHomed, this`belt
      ensures var r := TableStep(old(TableVars()), vacFinished, vacFinished2, i);
              TableVars() == r.table && w == r.writes
    {
      w := map[];
      if !belt {
        if !i.i2 {
          w := w[O(1) := 1];
        } else {
          w := w[O(1) := 0];
          belt := true;
        }
      } else {
        if tableStart.None? {
          tableStart := Some(i.now);
        }
        if i.now - tableStart.value >= 1000 {
          w := w[O(14) := 1];
          belt := false;
          tableStart := None;
          tableState := Belt;
        }
      }
    }

    /** BELT: run the belt until the light barrier I_3 is interrupted, then 2 s more. */
    method RunBelt(i: Inputs) returns (w: Writes)
      requires tableState == Belt
      modifies this`tableState, this`tableStart, this`tableHomed, this`belt
      ensures var r := TableStep(old(TableVars()), vacFinished, vacFinished2, i);
              TableVars() == r.table && w == r.writes
    {
      w := map[];
      if !belt {
        w := w[O(3) := 1];
        if !i.i3 {
          belt := true;
        }
      } else {
        if tableStart.None? {
          tableStart := Some(i.now);
          w := w[O(14) := 0];
        }
        if i.now - tableStart.value >= 2000 {
          belt := false;
          tableStart := None;
          w := w[O(3) := 0];
          tableState := PosVac;
        }
      }
    }

    /** `task3`: one step of the turntable, saw and belt. */
    method TableTask(i: Inputs) returns (w: Writes)
      modifies this`tableState, this`tableStart, this`tableHomed, this`belt, this`vacFinished, this`vacFinished2
      ensures var r := TableStep(old(TableVars()), old(vacFinished), old(vacFinished2), i);
              TableVars() == r.table && vacFinished == r.vacFinished && vacFinished2 == r.vacFinished2
              && w == r.writes
    {
      match tableState
      case PosVac => w := LoadTable(i);
      case PosSaw => w := SawTable(i);
      case Saw => w := SawTable(i);
      case PosBelt => w := PushToBelt(i);
      case Belt => w := RunBelt(i);
    }

    /** The oven and then the suction gripper, the first two tasks of a cycle. */
    method OvenThenSuction(i: Inputs) returns (w1: Writes, w2: Writes)
      modifies this
      ensures var o1 := OvenPhase(variant, old(Snapshot()), i);
              Snapshot() == SuctionPhase(o1.vars, i).vars && w1 == o1.writes && w2 == SuctionPhase(o1.vars, i).writes
    {
      ghost var v0 := Snapshot();
      w1 := OvenTask(i);
      ghost var o1 := OvenPhase(variant, v0, i);
      assert Snapshot() == o1.vars;
      w2 := SuctionTask(i);
    }

    /** The three tasks of one cycle, in the order oven, suction gripper, turntable. */
    method Cycle(i: Inputs) returns (w: Writes)
      requires Valid() && !stopped
      modifies this
      ensures Valid()
      ensures Snapshot() == Step(variant, old(Snapshot()), i).vars
      ensures w == Step(variant, old(Snapshot()), i).writes
    {
      ghost var v0 := Snapshot();
      w := if i.first then StartupWrites() else map[];
      var w1, w2 := OvenThenSuction(i);
      ghost var o2 := SuctionPhase(OvenPhase(variant, v0, i).vars, i);
      var w3 := TableTask(i);
      w := w + w1 + w2 + w3;
      assert Snapshot() == Step(variant, v0, i).vars;
      StepKeepsInv(variant, v0, i);
    }

    /** One cycle of the cycle loop: the start-up writes on the first cycle, then the
        cycle event wakes the three tasks, unless they have been stopped. */
    method Tick(i: Inputs) returns (w: Writes)
      requires Valid()
      modifies this
      ensures Valid()
      ensures Snapshot() == Step(variant, old(Snapshot()), i).vars
      ensures w == Step(variant, old(Snapshot()), i).writes
    {
      StepKeepsInv(variant, Snapshot(), i);
      if stopped {
        w := map[];
      } else {
        w := Cycle(i);
      }
    }

    /** `programend`. */
    method Stop() returns (w: Writes)
      modifies this
      ensures Snapshot() == Shutdown(old(Snapshot())).vars
      ensures w == Shutdown(old(Snapshot())).writes
    {
      stopped := true;
      w := Zeroes(Outputs({1, 2, 3, 4, 5, 6, 7, 8, 9, 10, 11, 12, 13, 14}));
    }
  }
}

=== FILE: task_queue.dfy ===
/** The gripper's de-duplicated FIFO backlog: a queue of tasks paired with the set of
    tasks currently queued, used as the membership test before every insertion. */
module TaskQueue {

  /** A pick-and-place job: pick-up location, drop-off location, storage slot. */
  datatype Task = Task(pickup: string, dropoff: string, slot: int)

  /** The queue together with its companion membership set. */
  datatype Queue = Queue(items: seq<Task>, members: set<Task>)

  const Empty: Queue := Queue([], {})

  predicate NoDuplicates(s: seq<Task>)
  {
    forall i, j :: 0 <= i < j < |s| ==> s[i] != s[j]
  }

  /** The set holds exactly the queued tasks, and no task is queued twice. */
  ghost predicate Consistent(q: Queue)
  {
    && (forall t :: t in q.members <==> t in q.items)
    && NoDuplicates(q.items)
  }

  /** `add_task_to_queue`: append `t` unless the membership set already holds it;
      the flag says whether it was appended. */
  function Enqueue(q: Queue, t: Task): (Queue, bool)
  {
    if t !in q.members then (Queue(q.items + [t], q.members + {t}), true)
    else (q, false)
  }

  /** Enqueue several tasks in order, as one call after another. */
  function EnqueueAll(q: Queue, ts: seq<Task>): Queue
    decreases |ts|
  {
    if ts == [] then q else EnqueueAll(Enqueue(q, ts[0]).0, ts[1..])
  }

  /** The dequeue of the dispatcher: take the head from the queue and the same task
      from the membership set. */
  function Dequeue(q: Queue): (Task, Queue)
    requires q.items != []
  {
    (q.items[0], Queue(q.items[1..], q.members - {q.items[0]}))
  }

  lemma EmptyConsistent()
    ensures Consistent(Empty)
  {
  }

  /** On a consistent queue the membership test is exactly "not already queued":
      an absent task is appended at the tail and added to the set; a present one
      leaves both unchanged. */
  lemma EnqueueSpec(q: Queue, t: Task)
    requires Consistent(q)
    ensures Enqueue(q, t).1 <==> t !in q.items
    ensures Enqueue(q, t).1 ==>
              Enqueue(q, t).0.items == q.items + [t] && Enqueue(q, t).0.members == q.members + {t}
    ensures !Enqueue(q, t).1 ==> Enqueue(q, t).0 == q
  {
  }

  /** Enqueueing keeps the set equal to the queue's elements and the queue free of
      duplicates. */
  lemma EnqueueKeepsConsistent(q: Queue, t: Task)
    requires Consistent(q)
    ensures Consistent(Enqueue(q, t).0)
  {
    if t !in q.members {
      var s := q.items + [t];
      forall i, j | 0 <= i < j < |s| ensures s[i] != s[j] {
        if j == |q.items| {
          assert s[i] == q.items[i];
          assert q.items[i] in q.items;
        }
      }
    }
  }

  lemma {:induction false} EnqueueAllKeepsConsistent(q: Queue, ts: seq<Task>)
    requires Consistent(q)
    ensures Consistent(EnqueueAll(q, ts))
    decreases |ts|
  {
    if ts != [] {
      EnqueueKeepsConsistent(q, ts[0]);
      EnqueueAllKeepsConsistent(Enqueue(q, ts[0]).0, ts[1..]);
    }
  }

  /** Enqueueing every task only appends: the old queue is a prefix of the new one,
      and nothing but the given tasks is added. */
  lemma {:induction false} EnqueueAllAppends(q: Queue, ts: seq<Task>)
    ensures |q.items| <= |EnqueueAll(q, ts).items|
    ensures EnqueueAll(q, ts).items[..|q.items|] == q.items
    ensures forall t :: t in EnqueueAll(q, ts).items ==> t in q.items || t in ts
    decreases |ts|
  {
    if ts != [] {
      var q1 := Enqueue(q, ts[0]).0;
      EnqueueAllAppends(q1, ts[1..]);
      var r := EnqueueAll(q1, ts[1..]);
      assert q1.items[..|q.items|] == q.items;
      assert r.items[..|q.items|] == r.items[..|q1.items|][..|q.items|];
      forall t | t in r.items ensures t in q.items || t in ts {
        if t in ts[1..] {
          assert t in ts;
        }
      }
    }
  }

  /** Inserting the same task a second time in a row is refused and changes nothing. */
  lemma EnqueueTwice(q: Queue, t: Task)
    ensures !Enqueue(Enqueue(q, t).0, t).1
    ensures Enqueue(Enqueue(q, t).0, t).0 == Enqueue(q, t).0
  {
  }

  /** Dequeueing removes the head from both the queue and the set; afterwards the head
      is no longer queued at all, and the queue and set stay consistent. */
  lemma DequeueKeepsConsistent(q: Queue)
    requires Consistent(q) && q.items != []
    ensures Consistent(Dequeue(q).1)
    ensures Dequeue(q).0 !in Dequeue(q).1.items
    ensures |Dequeue(q).1.items| == |q.items| - 1
  {
    var h := q.items[0];
    var rest := q.items[1..];
    forall k | 0 <= k < |rest| ensures rest[k] != h {
      assert rest[k] == q.items[k + 1];
    }
  }

  /** FIFO: a task appended behind a non-empty queue does not overtake its head. */
  lemma EnqueueKeepsHead(q: Queue, t: Task)
    requires q.items != []
    ensures Enqueue(q, t).0.items != []
    ensures Dequeue(Enqueue(q, t).0).0 == Dequeue(q).0
  {
  }

  /** FIFO: dequeueing after an append is the same as appending after the dequeue. */
  lemma DequeueThenEnqueueCommute(q: Queue, t: Task)
    requires Consistent(q) && q.items != [] && t != q.items[0]
    ensures Enqueue(q, t).0.items != []
    ensures Dequeue(Enqueue(q, t).0).1 == Enqueue(Dequeue(q).1, t).0
  {
    var h := q.items[0];
    if t !in q.members {
      assert (q.items + [t])[1..] == q.items[1..] + [t];
      assert q.members + {t} - {h} == (q.members - {h}) + {t};
    } else {
      assert t in q.items;
      assert t in q.items[1..] by {
        var k :| 0 <= k < |q.items| && q.items[k] == t;
        assert k != 0;
        assert q.items[1..][k - 1] == t;
      }
      DequeueKeepsConsistent(q);
    }
  }
}
